=== FILE: README.md ===
# Replift workout log: data layer, statistics and attribute escaping

Replift is a browser app for logging strength-training sessions. This project
models the logic of its `app.js` in Dafny:

- `AppData`: the stored document (programs, sessions, a user name) and its
  list operations. These are lookups by identifier, append with a stamped
  identifier and date, merge-update, delete by identifier, and "last session of
  a program".
- `AppStats`: every statistic the dashboard shows. That covers total sessions,
  sessions this month, the current day streak, the heaviest load and the most
  frequent exercise. It also covers the last session date, total volume and
  repetitions, mean volume per session, the distinct exercise count, personal
  records, this week against last week, this month's volume against last month's,
  favourite exercises, the six badges, the exercises worth charting with their
  trend, and the history of one exercise over a period.
- `AppUI.escAttr`: the five global replacements that make a string safe inside
  an HTML attribute.

The stored document is a value (`Model.Data`). Every store operation returns the
document it would save. The clock reading (`new Date()`) and the generated
identifiers are parameters. Dates are local calendar moments (`Calendar.Moment`)
whose day number follows the proleptic Gregorian calendar. Numbers are exact
rationals: `Number(x) || 0` is `Model.Num`, and a blank or non-numeric field is
`None`. `Math.round` is `Basics.Round`, and JavaScript's stable `sort` is the
stable insertion sort `Lists.SortDesc`. Objects keyed by exercise name (`records`,
`count`, `exercises`) are sequences of entries in first-insertion order.

Modules follow the program's structure:

| Module | Holds |
|---|---|
| `Basics` | Shared vocabulary |
| `Calendar` | Dates |
| `Model` | The stored document |
| `Lists` | filter, find, stable sort, top-k, sums |
| `Store` | `AppData` |
| `Totals` | Whole-log totals |
| `Streak` | The day streak |
| `Comparisons` | Week and month comparisons |
| `Rankings` | Records, favourites, best and last session |
| `Achievements` | The badges |
| `Evolution` | Per-exercise progress |
| `Escape` | `escAttr` |

The day streak follows the code's anchor: it counts back from today when the latest session day is today, and from yesterday otherwise. A session dated after today therefore moves the anchor to yesterday even when today also has a session (`Streak.StreakOfFutureSession`), which differs from the reading "today if today has a session".

## Model

| member | source | states |
|---|---|---|
| Basics.Round | app.js:218 | `Math.round` of a value is an integer within one half of it, halves rounding up |
| Basics.RoundUnique | app.js:218 | any integer within one half of a value is its rounding, so the rounding is determined by that bound |
| Calendar.ShiftDaysExact | app.js:369-370 | moving a date by k days with `setDate` moves its instant by exactly k times 24 hours, across month and year ends |
| Calendar.ShiftMonths | app.js:371-372 | `setMonth(getMonth() + k)` lands on the date k months on with the same day of month and time of day, rolled over by `Date`'s normalising when that month is too short; it moves the date by 28 to 31 whole days per month |
| Calendar.ShiftMonthsSameDay | app.js:371-372 | when the day of month exists k months on, the result is that very date at the same time of day |
| Calendar.ShiftMonthsRollsOver | app.js:371-372 | when the month k months on is too short for the day of month, the result is the excess days into the month after it, which lies in the same year |
| Calendar.ShiftYears | app.js:373 | `setFullYear(getFullYear() + k)` lands on the same month, day and time k years on, which is the date 12k months on |
| Calendar.MonthEndRolls | app.js:371-373 | the day after the last day of a month is the first day of the next month, so an overflowing day of month rolls forward |
| Calendar.MonthStartStep | app.js:371-372 | consecutive months start one month's length apart |
| Calendar.MonthStartSpan | app.js:371-372 | from one month to a later one there are 28 to 31 days per month in between |
| Calendar.MarchYearLength | app.js:373 | a year counted from 1 March lasts 366 days exactly when the following year is a leap year, so 29 February exists exactly in leap years |
| Calendar.InstantOrdersDays | app.js:187 | ordering by instant is ordering by day, then by time of day |
| Calendar.DaysFromCivilAnchors | app.js:133-137 | the day count puts 1970-01-01 at day 0 and agrees with known dates on both sides of it |
| Calendar.PrevMonth | app.js:283-284 | the month before a month is the immediately preceding calendar month, wrapping January to December of the previous year |
| Calendar.PrevMonthRollover | app.js:283-284 | a month and its predecessor differ, and only January changes the year |
| Model.OccurrencesAppend | app.js:158-166 | the nested loops over sessions and exercises visit a new session's exercises after all earlier ones |
| Model.AllSeriesAppend | app.js:192-202 | the nested loops over sessions, exercises and sets visit a new session's sets after all earlier ones |
| Model.Num | app.js:197 | `Number(x) || 0` reads a number as itself and anything else as 0 |
| Lists.FindFirst | app.js:53-55 | `find` returns the first position satisfying the test, and nothing exactly when no element does |
| Lists.Keep | app.js:77 | `filter` keeps exactly the elements that pass, never more than the input |
| Lists.KeepConcat | app.js:101 | filtering a concatenation filters each part, so the survivors keep their relative order |
| Lists.SortDesc | app.js:245 | the sort result is a non-increasing permutation of its input in which elements of equal key keep their input order, as `Array.prototype.sort` is stable |
| Lists.SortDescUnique | app.js:245 | any non-increasing permutation that keeps equal keys in input order is the sort result, so the contract fixes the order completely |
| Lists.WithKeyKeepsOrder | app.js:245 | two elements of equal key keep their relative order in the sub-list of that key |
| Lists.WithKeyOrigin | app.js:245 | positions in the sub-list of a key come from positions of the list in the same order |
| Lists.StableKeepsTies | app.js:245 | in a stable reordering, two elements of equal key appear in the order they had in the input |
| Lists.SortDescHead | app.js:187 | the head of the stable descending sort is the earliest element of maximal key |
| Lists.SortKeptHead | app.js:106-109 | the head of the sorted filter is the earliest element that passes the filter with maximal key among those that pass |
| Lists.TakeKeepsLargest | app.js:246 | `slice(0, k)` of a non-increasing list keeps only elements of it, and whatever it drops is no larger than anything kept |
| Lists.TopBy | app.js:244-246 | sort then slice: at most k elements of the input, non-increasing, any element left out is no larger than each of the k kept, and one left out with the key of a kept one comes later in the input than that kept one |
| Lists.TopByKeepsTies | app.js:244-246 | among the k kept, elements of equal key appear in input order |
| Lists.TakeLeavesLaterTies | app.js:245-246 | slicing a stable sort drops, among elements of equal key, only those that come after a kept one in the input |
| Lists.KeepOrder | app.js:349 | two elements of a filtered list come from positions of the input in the same order |
| Lists.DistinctByPermutation | app.js:245 | reordering entries with distinct names keeps the names distinct |
| Lists.DistinctByKeep | app.js:349 | filtering entries with distinct names keeps the names distinct |
| Lists.SumOfConcat | app.js:192-202 | an accumulating `+=` loop over a concatenation is the sum of the loops over the parts |
| Store.Merge | app.js:70 | each field the update supplies replaces the stored one, each field it leaves out keeps its stored value, and an empty update leaves the program unchanged |
| Store.MergeLaws | app.js:70 | spreading the same update twice is spreading it once, and an update that supplies every field fixes the result |
| Store.GetDefaultData | app.js:10-12 | the default document has no program and no session under any identifier, and an empty user name |
| Store.GetProgramById | app.js:53-55 | the result is the first program with that identifier, and nothing exactly when no program carries it |
| Store.GetSessionById | app.js:86-88 | the result is the first session with that identifier, and nothing exactly when no session carries it |
| Store.AddProgram | app.js:57-64 | the program is stamped with the given identifier and creation date, keeps its name and exercises, and is appended; nothing else changes |
| Store.AddSession | app.js:90-97 | the session is stamped with the given identifier and date, keeps its other fields, and is appended; nothing else changes |
| Store.UpdateProgram | app.js:66-73 | only the first program with that identifier is replaced, by the merge; an unknown identifier leaves the document unchanged |
| Store.DeleteProgram | app.js:75-79 | the programs left are exactly those with another identifier, and the count drops by the number carrying it |
| Store.DeleteSession | app.js:99-103 | the sessions left are exactly those with another identifier, and the count drops by the number carrying it |
| Store.DeleteSessionIsOrderedFilter | app.js:99-103 | deletion preserves order, an unknown identifier changes nothing, and deleting twice is deleting once |
| Store.DeleteProgramIsOrderedFilter | app.js:75-79 | the same three facts for programs |
| Store.GetLastSessionForProgram | app.js:105-110 | the result is the latest-dated session of the program, the earliest logged of equal dates, and nothing exactly when the program has no session |
| Totals.TotalSessions | app.js:117-119 | the session count is the number of logged sessions |
| Totals.TotalVolume | app.js:192-202 | the total volume is the sum of the per-session volumes |
| Totals.TotalReps | app.js:204-214 | the total repetitions are the sum of the per-session repetitions |
| Totals.Volume | app.js:192-202 | a set with a missing load or repetition count adds no volume |
| Totals.SessionsInMembers | app.js:121-127 | the month filter keeps exactly the sessions dated in that month and year |
| Totals.SessionsThisMonth | app.js:121-127 | the count is the length of the filter keeping the sessions dated in the current month and year, so it never exceeds the log and is 0 exactly when no session falls in that month |
| Totals.SessionsInIsFilter | app.js:123-126 | the month selection is the `filter` of `getSessionsThisMonth` on the session date's month and year, in log order |
| Totals.SessionsThisMonthSnoc | app.js:121-127 | one more session adds one to the count when it falls in the current month and year, and nothing otherwise |
| Totals.SeriesSumBySession | app.js:192-214 | summing volume and repetitions set by set over the whole log equals summing them session by session |
| Totals.TotalVolumeAppend | app.js:192-214 | logging one more session adds exactly its volume and its repetitions to the totals |
| Totals.AverageVolume | app.js:216-219 | the result is the mean volume per session to within one half, or 0 for an empty log |
| Totals.ScaleRoundingBounds | app.js:216-219 | a rounded mean bounds the total between (mean - 1/2) and (mean + 1/2) times the count |
| Totals.MaxPoids | app.js:156-167 | the running maximum is not negative, bounds every load, and is 0 or one of the loads |
| Totals.MaxWeight | app.js:156-167 | the heaviest load is present exactly when some load is positive, and then it bounds every load and is one of them |
| Totals.NameSetBound | app.js:221-229 | there are no more distinct names than named entries, and none exactly when there is no named entry |
| Totals.UniqueExercises | app.js:221-229 | the distinct name count is at most the named entry count, and 0 exactly when no entry has a name |
| Totals.NameSetSnoc | app.js:222-228 | adding an entry adds its name to the `Set`, and an entry without a name adds nothing |
| Totals.NameCountSnoc | app.js:222-228 | an entry adds one to the distinct count exactly when it has a name that no earlier entry carries, and nothing otherwise |
| Totals.UniqueExercisesRepeat | app.js:221-229 | a session with two squat entries and one bench entry has three named entries but two distinct exercises |
| Rankings.UniqueExercisesIsTallySize | app.js:221-229 | the distinct exercise count equals the number of names in the `count` table, which holds each name once |
| Totals.UniqueExercisesGrow | app.js:221-229 | logging one more session never lowers the distinct exercise count |
| Totals.AddSessionUpdatesTotals | app.js:90-97 | saving a session dated now adds one session, its volume, its repetitions and one session this month |
| Totals.DeleteSessionUpdatesTotals | app.js:99-103 | deleting by identifier lowers the session count by the number of sessions carrying it |
| Totals.DefaultDataTotals | app.js:10-12 | the empty document has no sessions, volume, repetitions, distinct exercises or heaviest load, and a mean of 0 |
| Streak.InsertDistinct | app.js:133-137 | inserting a day into a strictly descending list of days keeps it strictly descending and adds just that day |
| Streak.DistinctDesc | app.js:133-137 | the distinct session days, sorted most recent first, hold exactly the days of the log |
| Streak.Walk | app.js:145-152 | the walk counts consecutive session days ending at the check day and stops at the first missing day |
| Streak.WalkMeasuresRun | app.js:145-152 | the walk over the distinct days measures the run of consecutive session days ending at the check day |
| Streak.Latest | app.js:142 | the first sorted day is the latest session day |
| Streak.StreakOf | app.js:129-154 | the streak is the length of the run of consecutive session days ending today when the latest session day is today, and ending yesterday otherwise; 0 for an empty log |
| Streak.CurrentStreak | app.js:129-154 | the same over the session dates: a run ending at the anchor day, no longer than the number of session days |
| Streak.RunUnique | app.js:145-152 | the run ending at a day has one length, so the streak is determined by its contract |
| Streak.StreakOfThreeDays | app.js:129-154 | sessions today, yesterday and the day before give a streak of 3 |
| Streak.StreakOfGap | app.js:145-152 | a missing day ends the streak |
| Streak.StreakOfYesterday | app.js:140-144 | with no session today the streak counts back from yesterday |
| Streak.StreakOfStale | app.js:142-152 | a latest session older than yesterday gives a streak of 0 |
| Streak.StreakOfFutureSession | app.js:140-152 | a log with sessions today and tomorrow has a streak of 0, because a latest day other than today moves the anchor to yesterday, which has no session |
| Comparisons.CountIn | app.js:254-258 | a window's count never exceeds the log and is 0 exactly when no session falls in it |
| Comparisons.KeepCountsWindow | app.js:254-258 | `filter(...).length` equals the count of sessions in the window |
| Comparisons.GetWeekStats | app.js:249-261 | this week counts the sessions of the last seven days, and the change subtracts the seven days before them |
| Comparisons.WeekStatsPartition | app.js:249-261 | the two weeks do not overlap and together count the sessions of the last fourteen days |
| Comparisons.CountInSplit | app.js:254-258 | splitting a window at an instant splits its count |
| Comparisons.WeekStatsAppend | app.js:249-261 | logging a session within the last seven days raises this week's count and the change by one |
| Comparisons.MonthTotals | app.js:268-288 | the loop's two totals are the volumes of this month's sessions and of the previous calendar month's sessions |
| Comparisons.SessionsInSnoc | app.js:271-288 | a new session adds its volume to its own month's total and to no other month's |
| Comparisons.MonthsDisjoint | app.js:280-285 | no session counts towards both months |
| Comparisons.MonthVolumeComparison | app.js:263-295 | the change is the rounded percentage change from last month's volume, or 0 when that volume is not positive |
| Comparisons.NoPreviousMonthNoChange | app.js:290-292 | with no session last month the change shown is 0 percent |
| Rankings.Candidates | app.js:234-236 | each exercise entry offers its name, its heaviest set and its session's date |
| Rankings.FirstHeaviest | app.js:237-239 | a name's record is set by its first entry of greatest weight, and there is none exactly when no entry of the name is named and positive |
| Rankings.FirstHeaviestSnoc | app.js:238-239 | a new entry moves a record only when it is strictly heavier |
| Rankings.UpdateRecordKeepsTable | app.js:235-241 | one loop step keeps the records table exact: distinct names, each entry where its record is set, every qualifying name present |
| Rankings.RecordTable | app.js:232-243 | after the loop the table holds each qualifying name once, with its record |
| Rankings.LogCandidates | app.js:233-243 | the candidates are the log's exercise entries in loop order |
| Rankings.EqualWeightKeepsFirst | app.js:238 | a later entry of equal weight does not replace a record |
| Rankings.RecordTableAsWrittenOwn | app.js:238 | as written, a name inherited from `Object.prototype` never gets a record, and the table is that of the other names |
| Rankings.ConstructorGetsNoRecord | app.js:238 | an exercise named `constructor` lifted at 50 kg gets no record as written, where the intended table holds it |
| Rankings.FirstQualifying | app.js:235-239 | the first entry of a name that is named and has a positive weight, that is, the one that inserts the name into `records`; no earlier entry of the name qualifies |
| Rankings.RecordTableOrder | app.js:232-244 | `Object.entries(records)` lists the names in the order of their first qualifying entry, since a later replacement keeps the key where it was inserted |
| Rankings.TopRecordsKeepTies | app.js:244-246 | after the stable sort and the slice, records of equal weight keep the order of their names' first qualifying entries |
| Rankings.TopRecordsLeaveLaterTies | app.js:244-246 | a record left out by the slice with the weight of a shown one belongs to a name whose first qualifying entry comes after that shown name's |
| Rankings.TopRecords | app.js:244-246 | at most five records, heaviest first, distinct names, each a true record, any record left out weighs no more than each shown, records of equal weight in the order their names first set a record, and a record left out with the weight of a shown one belongs to a name that set its first record later |
| Rankings.PersonalRecords | app.js:231-247 | the same over the whole log, including the order of ties among the records shown and left out |
| Rankings.CountNameSnoc | app.js:300-302 | a new entry raises only its own name's count, by one |
| Rankings.UpdateTallyKeepsTable | app.js:300-302 | one counting step keeps the count table exact: distinct names, each count true, every named entry present |
| Rankings.TallyTable | app.js:298-303 | after the loop the table holds each name once, with its number of entries |
| Rankings.FirstUse | app.js:300-302 | the first position of a name in the log: it holds the name and no earlier position does |
| Rankings.TallyTableOrder | app.js:298-303 | the `count` object lists the names in the order of their first entry in the log |
| Rankings.TopTalliesKeepTies | app.js:304-306 | after the stable sort and the slice, names of equal count keep the order of their first entry |
| Rankings.TopTalliesLeaveLaterTies | app.js:304-306 | a name left out by the slice with the count of a shown name is first entered in the log after that shown name |
| Rankings.FavoriteExercises | app.js:297-307 | at most five names, most entries first, distinct, each with its true count, names of equal count in the order of their first entry in the log, any name left out has no more entries than each shown, and one left out with the count of a shown one is first entered after it |
| Rankings.BestOf | app.js:176-180 | the first entry of largest positive count is chosen, and none when every count is 0 |
| Rankings.BestExercise | app.js:169-182 | the most frequent exercise name is chosen, on a tie the one whose first entry comes first in the log, and none exactly when no entry has a name |
| Rankings.BestOfFirstAmongTied | app.js:176-180 | the strict `c > max` scan over the count table picks, among the names of largest count, the one first entered |
| Rankings.BestIsFirstFavorite | app.js:169-182 | the most frequent exercise heads the favourites list, and both are empty together |
| Rankings.LastSession | app.js:184-189 | the date shown is the latest session date of the log, and none exactly for an empty log |
| Achievements.BadgesFor | app.js:315-322 | six badges in a fixed order, each earned exactly when its figure reaches its threshold |
| Achievements.AchievementsOf | app.js:309-323 | the badges read off the log: the streak badge needs seven session days in a row ending at the anchor day, and the larger thresholds imply the smaller |
| Achievements.WeekRun | app.js:317 | a run of at least seven days is seven session days in a row ending at its last day |
| Achievements.WeekStreakIffSevenDays | app.js:317 | the streak badge is earned exactly when each of the seven days ending at the anchor day has a session |
| Achievements.NothingEarnedAtStart | app.js:309-323 | an empty log earns no badge |
| Achievements.AchievementsGrow | app.js:309-323 | logging a session keeps the count badges, and the volume badges when its volume is not negative |
| Evolution.TaggedEntries | app.js:328-346 | each exercise entry contributes its name and a point dated with its session, in loop order |
| Evolution.QualEntriesSnoc | app.js:336-344 | a new entry adds its point to its own name's list only when its weight is positive |
| Evolution.UpdateGroupKeepsTable | app.js:329-345 | one grouping step keeps the table exact: distinct names, each group holding its name's positive points in order, every named entry present |
| Evolution.GroupTable | app.js:327-346 | after the loop the `exercises` object holds each name once, with its positive-weight points in log order |
| Evolution.GroupTableAsWrittenThrows | app.js:331-337 | as written, the grouping loop throws exactly when some entry whose name is inherited from `Object.prototype` has a positive weight |
| Evolution.GroupTableAsWrittenOwn | app.js:329-345 | when it does not throw, the grouping is that of the entries with other names |
| Evolution.ConstructorGroupThrows | app.js:331-337 | an exercise named `constructor` lifted at 50 kg makes the loop throw, where the intended grouping gives it a group |
| Evolution.FirstNamed | app.js:331-333 | the first entry carrying a name, the one that opens its group in `exercises`; no earlier entry carries it |
| Evolution.GroupTableOrder | app.js:327-346 | `Object.values(exercises)` lists the groups in the order of their names' first entry in the log |
| Evolution.KeepGroupsOrder | app.js:348-349 | the `filter` on at least two points keeps the groups in that order |
| Evolution.StableChartsKeepTies | app.js:363 | after the stable sort by point count, summaries with the same count appear in the order of their names' first entry |
| Evolution.SortByDate | app.js:351 | sorting by date is a permutation into chronological order in which points of the same date keep their log order |
| Evolution.SortByDateUnique | app.js:351 | any chronological permutation that keeps same-date points in log order is the sort result |
| Evolution.SortByDateKeepsTies | app.js:351 | two points of the same date appear in the sorted list in their log order |
| Evolution.MaxEntryWeight | app.js:359 | `Math.max` of the weights bounds each of them and is one of them |
| Evolution.TrendThresholds | app.js:354-356 | the change is above 5 percent exactly when the last weight exceeds 21/20 of the first, and below -5 percent exactly when it is under 19/20 of it |
| Evolution.TrendOf | app.js:354-356 | the trend is up above +5 percent, down below -5 percent, and stable otherwise |
| Evolution.Summarize | app.js:350-361 | the summary has the name, the points in date order with same-date points in log order, the trend, the rounded size of the change, the last and the best weight, and the point count |
| Evolution.SummariesReordered | app.js:363 | the final sort keeps every summary faithful and every charted name present |
| Evolution.ChartsOf | app.js:326-364 | one summary per name with at least two positive points, each summarizing exactly that name's points, every such name present once, most points first, and summaries of equal point count in the order of their names' first entry in the log |
| Evolution.ExercisesForEvolution | app.js:326-364 | the same over the whole log, including the order of equal point counts |
| Evolution.PeriodArg | app.js:366 | an omitted period is the 30-day period |
| Evolution.Cutoff | app.js:367-374 | the day periods start exactly 7 and 30 days back; the three- and six-month periods at the same day of month and time three and six months back, rolled over when that day does not exist, which is 84 to 93 and 168 to 186 days back; the year at the same date a year back, 336 to 372 days back; any other value at the current time; always a whole number of days from now |
| Evolution.CutoffSameDay | app.js:371 | three months back from 15 August 2024 is 15 May 2024, 92 days earlier |
| Evolution.CutoffRollsOver | app.js:371 | three months back from 31 May 2024 is 2 March 2024, since 31 February rolls over the 29 days of February in a leap year |
| Evolution.CutoffLeapDay | app.js:373 | one year back from 29 February 2024 is 1 March 2023 |
| Evolution.CutoffsOrdered | app.js:367-374 | the longer the period, the earlier its cutoff |
| Evolution.RecentAll | app.js:378 | nothing is dropped when no session is older than the cutoff |
| Evolution.WindowPoints | app.js:376-389 | every point of the window has a positive weight and is not before the cutoff |
| Evolution.WindowPointsFilter | app.js:376-389 | the window is the name's positive points among the entries not before the cutoff |
| Evolution.FirstMaxIndex | app.js:401 | the `reduce` picks the first point of greatest weight |
| Evolution.HistoryFrom | app.js:393-407 | best and last weight are present exactly for a non-empty window, the best bounds every point and is one of them, and the progression is the rounded change from first to last for two points or more |
| Evolution.HistoryOf | app.js:366-418 | the history shows the window's points in date order with same-date points in log order, each positive and not before the cutoff, with the statistics above |
| Evolution.ExerciseEvolution | app.js:366-418 | the same over the whole log, with the cutoff of the chosen period |
| Evolution.WindowKeepsAll | app.js:376-389 | when no point is older than the cutoff, the window holds every positive point of the name |
| Evolution.HistoryMatchesSummary | app.js:348-407 | over an all-inclusive window, the history and the chart summary show the same points in the same order, the same last and the same best weight |
| Escape.ReplaceAll | app.js:442-446 | a global replacement leaves no occurrence of its character except those inside the replacement, and changes nothing when the character is absent |
| Escape.ReplaceAllConcat | app.js:442-446 | a global replacement distributes over concatenation |
| Escape.PassesConcat | app.js:442-446 | the five passes together distribute over concatenation |
| Escape.PassesChar | app.js:442-446 | the five passes turn a single character into its own entity, or leave it alone |
| Escape.PassesIsEscapeEach | app.js:442-446 | the five passes equal escaping each character on its own |
| Escape.EscAttr | app.js:440-447 | `escAttr` gives the same string as escaping each character on its own |
| Escape.EscAttrSafe | app.js:440-447 | the output holds no `<`, `>`, `"` or `'`, and every `&` begins one of the five entities |
| Escape.EscapeEachSafe | app.js:440-447 | the same for the character-by-character reference |
| Escape.EscAttrRoundTrip | app.js:440-447 | decoding the five entities restores the original string |
| Escape.EscapeEachRoundTrip | app.js:440-447 | the same for the character-by-character reference |
| Escape.AmpersandFirstMatters | app.js:442 | with `&` replaced last the inserted entities would be escaped again, so `&` has to be replaced first |

## Left out

- Persistence: `load`, `save`, the in-memory cache and `clear` (app.js:14-47). These read and write `localStorage` and parse JSON. A parse failure falls back to the default document, which is `Store.GetDefaultData`.
- `getPrograms` and `getSessions` are plain reads of the document's fields.
- `generateTestData`, the DOM helper `esc` and the rest of `AppUI` are left out. They are rendering and demo data, not logic.
- Text formatting is left out: `toLocaleDateString`, the `' kg'` suffix, the `'+'` sign on changes, and number formatting in `getExerciseEvolution`. The `'-'` placeholders are `None`. The model returns the numbers and dates the text is built from.
- Floating point: weights, repetitions and volumes are exact rationals. Rounding errors of double arithmetic are not modelled.
- Time zones and daylight saving are not modelled. Every local day lasts 24 hours, and `new Date()` is the parameter `now`.
- Identifiers and creation dates are parameters of `AddProgram` and `AddSession`. The code takes them from `Date.now()` and `new Date().toISOString()`.
- `Number()` coercion: a field that is missing, blank or not a number is `None`, read as 0. A string with surrounding spaces and other exotic numerals are not told apart.
- `Object.entries` lists integer-like keys first in ascending order. The model keeps first-insertion order for every name, so a log whose exercise names are numerals may order ties differently.
- Escape.EscAttr: the `String(str)` coercion is not modelled; the input is already a string.
- Evolution.ExerciseEvolution: the statistics are stated through `Evolution.HistoryFrom` rather than repeated in its own contract.
- The favourites and the best exercise count exercise entries, as the code does (app.js:297-303). A name logged twice in one session counts twice. They do not count sessions.
- A period value outside the five listed ones leaves the cutoff at the current time, as the code's `switch` with no default does. It is `Evolution.Unlisted`; an omitted period is `Evolution.PeriodArg`.
- Rankings.FavoriteExercises: a name inherited from `Object.prototype` (`constructor`, `toString`, ...) is counted like any other name. As written, `count[name] || 0` finds the inherited function, `+ 1` turns the count into a string, and `__proto__` is never stored; the model states the intended counts instead, because the resulting string comparisons are not part of the model.
- Rankings.BestExercise: the same inherited names are counted like any other name, for the same reason.

## Findings

| source | as written | input that shows it | evidently intended | confidence | as-written member | corrected member |
|---|---|---|---|---|---|---|
| app.js:331-337 | `!exercises[ex.nom]` is false for a name inherited from `Object.prototype`, so no group is opened and the `push` on the inherited value's missing `sessions` throws a `TypeError` | one session with an exercise named `constructor` and a 50 kg set | the name gets its own group like any other | medium, not executed | Evolution.ConstructorGroupThrows | Evolution.GroupTable |
| app.js:238 | `!records[ex.nom] || maxWeight > records[ex.nom].weight` is false for an inherited name, whose value has no `weight`, so no record is stored | one session with an exercise named `constructor` and a 50 kg set | the name gets its record like any other | medium, not executed | Rankings.ConstructorGetsNoRecord | Rankings.RecordTable |

=== FILE: achievements.dfy ===
/**
 * `getAchievements`: six badges in a fixed order, each earned when one figure
 * of the log reaches its threshold. The clock reading used by the streak is
 * the parameter `now`.
 */
module Achievements {
  import opened Calendar
  import opened Model
  import opened Lists
  import opened Totals
  import opened Streak

  datatype Badge = FirstSession | WeekStreak | VolumeMaster | Diversity | Marathon | Legend

  /** The order in which the badges are listed. */
  const Badges: seq<Badge> := [FirstSession, WeekStreak, VolumeMaster, Diversity, Marathon, Legend]

  const StreakGoal: nat := 7
  const VolumeGoal: real := 10000.0
  const DiversityGoal: nat := 10
  const MarathonGoal: nat := 50
  const LegendGoal: real := 100000.0

  datatype Achievement = Achievement(badge: Badge, earned: bool)

  /** The badge list for given figures: each badge earned exactly when its figure reaches its threshold. */
  function BadgesFor(sessions: nat, volume: real, streak: nat, exercises: nat): (r: seq<Achievement>)
    ensures |r| == |Badges|
    ensures forall i :: 0 <= i < |r| ==> r[i].badge == Badges[i]
    ensures r[0].earned <==> sessions >= 1
    ensures r[1].earned <==> streak >= StreakGoal
    ensures r[2].earned <==> volume >= VolumeGoal
    ensures r[3].earned <==> exercises >= DiversityGoal
    ensures r[4].earned <==> sessions >= MarathonGoal
    ensures r[5].earned <==> volume >= LegendGoal
  {
    [ Achievement(FirstSession, sessions >= 1),
      Achievement(WeekStreak, streak >= StreakGoal),
      Achievement(VolumeMaster, volume >= VolumeGoal),
      Achievement(Diversity, exercises >= DiversityGoal),
      Achievement(Marathon, sessions >= MarathonGoal),
      Achievement(Legend, volume >= LegendGoal) ]
  }

  /**
   * `getAchievements`: every badge once, in the listed order. The first badge
   * is earned exactly on a non-empty log; the streak badge only when the seven
   * days ending at the streak's anchor day all have a session; the diversity
   * badge only with at least ten named exercise entries; and the larger
   * thresholds imply the smaller ones.
   */
  function AchievementsOf(ss: seq<Session>, now: Moment): (r: seq<Achievement>)
    ensures |r| == |Badges|
    ensures forall i :: 0 <= i < |r| ==> r[i].badge == Badges[i]
    ensures r[0].earned <==> |ss| > 0
    ensures r[1].earned <==> CurrentStreak(ss, DayNumber(now)) >= StreakGoal
    ensures r[2].earned <==> TotalVolume(ss) >= VolumeGoal
    ensures r[3].earned <==> UniqueExercises(ss) >= DiversityGoal
    ensures r[4].earned <==> |ss| >= MarathonGoal
    ensures r[5].earned <==> TotalVolume(ss) >= LegendGoal
    ensures r[1].earned ==> |ss| > 0 && forall d :: Anchor(ss, DayNumber(now)) - 7 < d <= Anchor(ss, DayNumber(now)) ==> d in SessionDays(ss)
    ensures r[3].earned ==> |Keep(Occurrences(ss), Named)| >= DiversityGoal
    ensures r[4].earned ==> r[0].earned
    ensures r[5].earned ==> r[2].earned
  {
    WeekStreakIffSevenDays(ss, now);
    BadgesFor(TotalSessions(ss), TotalVolume(ss), CurrentStreak(ss, DayNumber(now)), UniqueExercises(ss))
  }

  /** A maximal run of at least seven days is the same as seven session days in a row ending at its last day. */
  lemma WeekRun(days: set<int>, last: int, n: nat)
    requires RunEndingAt(days, last, n)
    ensures n >= StreakGoal <==> forall d :: last - 7 < d <= last ==> d in days
  {
    if forall d :: last - 7 < d <= last ==> d in days {
      assert !(last - 7 < last - n <= last);
    }
  }

  /**
   * The streak badge is earned exactly when the log is non-empty and each of
   * the seven days ending at the anchor day (today if the latest session day
   * is today, otherwise yesterday) has a session.
   */
  lemma WeekStreakIffSevenDays(ss: seq<Session>, now: Moment)
    ensures CurrentStreak(ss, DayNumber(now)) >= StreakGoal <==>
      |ss| > 0 && forall d :: Anchor(ss, DayNumber(now)) - 7 < d <= Anchor(ss, DayNumber(now)) ==> d in SessionDays(ss)
  {
    if |ss| > 0 {
      WeekRun(SessionDays(ss), Anchor(ss, DayNumber(now)), CurrentStreak(ss, DayNumber(now)));
    }
  }

  /** On an empty log no badge is earned. */
  lemma NothingEarnedAtStart(now: Moment)
    ensures forall i :: 0 <= i < |AchievementsOf([], now)| ==> !AchievementsOf([], now)[i].earned
  {
    assert Keep(Occurrences([]), Named) == [];
  }

  /**
   * Logging one more session keeps the count badges; it keeps the volume
   * badges too when the new session's volume is not negative.
   */
  lemma AchievementsGrow(ss: seq<Session>, s: Session, now: Moment)
    ensures var before := AchievementsOf(ss, now);
      var after := AchievementsOf(ss + [s], now);
      && (before[0].earned ==> after[0].earned)
      && (before[3].earned ==> after[3].earned)
      && (before[4].earned ==> after[4].earned)
      && (SessionVolume(s) >= 0.0 ==> (before[2].earned ==> after[2].earned) && (before[5].earned ==> after[5].earned))
  {
    UniqueExercisesGrow(ss, s);
    TotalVolumeAppend(ss, s);
  }
}

=== FILE: basics.dfy ===
/** Small shared vocabulary: an optional value and JavaScript's `Math.round`. */
module Basics {

  /** A value that may be absent (`null`, `undefined`, `'-'` in the UI). */
  datatype Option<+T> = None | Some(value: T)

  function Abs(x: real): real
  {
    if x < 0.0 then -x else x
  }

  /** `Math.round` over exact rationals: the nearest integer, halves rounded up. */
  function Round(x: real): (r: int)
    ensures r as real - 0.5 <= x < r as real + 0.5
  {
    (x + 0.5).Floor
  }

  /** The integer nearest to x is unique, so `Round` is determined by its contract. */
  lemma RoundUnique(x: real, k: int)
    requires k as real - 0.5 <= x < k as real + 0.5
    ensures Round(x) == k
  {
    var r := Round(x);
    assert r as real - 0.5 <= x < r as real + 0.5;
    assert (r as real) - (k as real) < 1.0 && (k as real) - (r as real) < 1.0;
  }

  /** Multiplying by a positive number keeps an order. */
  lemma MulLe(a: real, b: real, n: real)
    requires a <= b && n > 0.0
    ensures a * n <= b * n
  {
    var d := b - a;
    assert d * n >= 0.0;
    assert b * n == a * n + d * n;
  }

  lemma MulLt(a: real, b: real, n: real)
    requires a < b && n > 0.0
    ensures a * n < b * n
  {
    var d := b - a;
    assert d * n > 0.0;
    assert b * n == a * n + d * n;
  }
}

=== FILE: calendar.dfy ===
/**
 * Local calendar time. A JavaScript `Date` read through `getFullYear`, `getMonth`,
 * `getDate` and the milliseconds since local midnight. Daylight-saving shifts are
 * not modelled: every local day lasts exactly `MsPerDay` milliseconds.
 */
module Calendar {

  const MsPerDay: int := 86_400_000

  predicate IsLeapYear(y: int)
  {
    y % 4 == 0 && (y % 100 != 0 || y % 400 == 0)
  }

  /** Length of month `m` (zero-based, as `getMonth` reports it) in year `y`. */
  function DaysInMonth(y: int, m: int): (n: int)
    requires 0 <= m < 12
    ensures 28 <= n <= 31
  {
    if m == 1 then (if IsLeapYear(y) then 29 else 28)
    else if m == 3 || m == 5 || m == 8 || m == 10 then 30
    else 31
  }

  datatype DateTime = DateTime(year: int, month: int, day: int, ms: int)

  predicate ValidDateTime(t: DateTime)
  {
    && 0 <= t.month < 12
    && 1 <= t.day <= DaysInMonth(t.year, t.month)
    && 0 <= t.ms < MsPerDay
  }

  /** A well-formed local date and time; `month` is zero-based like `Date.getMonth`. */
  type Moment = t: DateTime | ValidDateTime(t) witness DateTime(1970, 0, 1, 0)

  /**
   * Days since 1970-01-01 of the proleptic Gregorian date (y, m, d), with `m`
   * one-based. The result is linear in `d`, so a day of month outside the month
   * rolls over into the neighbouring months, as `Date.setDate` does.
   */
  function DaysFromCivil(y: int, m: int, d: int): int
    requires 1 <= m <= 12
  {
    var y' := if m <= 2 then y - 1 else y;
    var era := y' / 400;
    var yoe := y' - era * 400;
    var mp := if m > 2 then m - 3 else m + 9;
    var doy := (153 * mp + 2) / 5 + d - 1;
    var doe := yoe * 365 + yoe / 4 - yoe / 100 + doy;
    era * 146097 + doe - 719468
  }

  /** Local midnight of `t`, as a day count (`setHours(0, 0, 0, 0)`). */
  function DayNumber(t: Moment): int
  {
    DaysFromCivil(t.year, t.month + 1, t.day)
  }

  /** `getTime()` of `t`, in milliseconds since the epoch of the local day count. */
  function Instant(t: Moment): int
  {
    DayNumber(t) * MsPerDay + t.ms
  }

  /** Instant `a` lies a whole number of days from `b`: the same time of day. */
  predicate WholeDaysApart(a: int, b: int)
  {
    (a - b) % MsPerDay == 0
  }

  /** Instant of `t` after `setDate(getDate() + k)`. */
  function ShiftDays(t: Moment, k: int): int
  {
    DaysFromCivil(t.year, t.month + 1, t.day + k) * MsPerDay + t.ms
  }

  /**
   * The instant of a date whose day of month may lie past its month's end,
   * counted on into the following months, as `new Date(y, m, d)` and the
   * `Date` setters normalise it.
   */
  function CivilInstant(d: DateTime): int
    requires 0 <= d.month < 12
  {
    DaysFromCivil(d.year, d.month + 1, d.day) * MsPerDay + d.ms
  }

  /** A well-formed date needs no normalising. */
  lemma CivilInstantOfMoment(t: Moment)
    ensures CivilInstant(t) == Instant(t)
  {
  }

  /**
   * The date `k` months on from `t`: the month index moved by `k` and carried
   * into the year, the day of month and the time of day kept as they are.
   */
  function MonthsOn(t: Moment, k: int): (d: DateTime)
    ensures 0 <= d.month < 12 && d.day == t.day && d.ms == t.ms
  {
    DateTime(t.year + (t.month + k) / 12, (t.month + k) % 12, t.day, t.ms)
  }

  /**
   * Instant of `t` after `setMonth(getMonth() + k)`: the date `k` months on,
   * its day of month kept and, when that month is shorter, rolled over into
   * the next. The time of day is kept, and each month moved over moves the
   * instant by 28 to 31 whole days.
   */
  function ShiftMonths(t: Moment, k: int): (r: int)
    ensures r == CivilInstant(MonthsOn(t, k))
    ensures WholeDaysApart(r, Instant(t))
    ensures k >= 0 ==> 28 * k * MsPerDay <= r - Instant(t) <= 31 * k * MsPerDay
    ensures k <= 0 ==> 31 * k * MsPerDay <= r - Instant(t) <= 28 * k * MsPerDay
  {
    MonthShiftSpan(t, k);
    MonthsOnFromMonthStart(t, k);
    MonthShiftTarget(t, k) * MsPerDay + t.ms
  }

  /** The instant of the date `k` months on is `t.day - 1` days after that month's start. */
  lemma MonthsOnFromMonthStart(t: Moment, k: int)
    ensures CivilInstant(MonthsOn(t, k)) == MonthShiftTarget(t, k) * MsPerDay + t.ms
  {
    var m := t.month + k;
    var d := MonthsOn(t, k);
    assert d.year == t.year + m / 12 && d.month == m % 12;
    DayInMonthStart(t.year, m, t.day);
    assert DaysFromCivil(d.year, d.month + 1, d.day) == MonthShiftTarget(t, k);
  }

  /** When the day of month exists `k` months on, the shift lands on that very day at the same time. */
  lemma ShiftMonthsSameDay(t: Moment, k: int)
    requires ValidDateTime(MonthsOn(t, k))
    ensures ShiftMonths(t, k) == Instant(MonthsOn(t, k))
  {
    CivilInstantOfMoment(MonthsOn(t, k));
  }

  /**
   * When the month `k` months on is too short for the day of month, the shift
   * lands that many days into the month after it (31 May back three months is
   * 2 March in a leap year). December is never too short, so the month after
   * lies in the same year.
   */
  lemma ShiftMonthsRollsOver(t: Moment, k: int)
    requires t.day > DaysInMonth(MonthsOn(t, k).year, MonthsOn(t, k).month)
    ensures MonthsOn(t, k).month < 11
    ensures ShiftMonths(t, k)
      == Instant(DateTime(MonthsOn(t, k).year, MonthsOn(t, k).month + 1, t.day - DaysInMonth(MonthsOn(t, k).year, MonthsOn(t, k).month), t.ms))
  {
    var d := MonthsOn(t, k);
    var n := DaysInMonth(d.year, d.month);
    MonthEndRolls(d.year, d.month);
    DayOfMonthLinear(d.year, d.month + 1, t.day);
    DayOfMonthLinear(d.year, d.month + 1, n + 1);
    DayOfMonthLinear(d.year, d.month + 2, t.day - n);
  }

  /** The instant `k` months on from `t` lies 28k to 31k whole days from it. */
  lemma MonthShiftSpan(t: Moment, k: int)
    ensures (MonthShiftTarget(t, k) * MsPerDay + t.ms - Instant(t)) % MsPerDay == 0
    ensures k >= 0 ==> 28 * k * MsPerDay <= MonthShiftTarget(t, k) * MsPerDay + t.ms - Instant(t) <= 31 * k * MsPerDay
    ensures k <= 0 ==> 31 * k * MsPerDay <= MonthShiftTarget(t, k) * MsPerDay + t.ms - Instant(t) <= 28 * k * MsPerDay
  {
    MonthShiftDays(t, k);
    DaySpanInMs(MonthShiftTarget(t, k), DayNumber(t), t.ms, k);
  }

  /** The day `k` months on from `t` lies 28k to 31k days from it. */
  lemma MonthShiftDays(t: Moment, k: int)
    ensures k >= 0 ==> 28 * k <= MonthShiftTarget(t, k) - DayNumber(t) <= 31 * k
    ensures k <= 0 ==> 31 * k <= MonthShiftTarget(t, k) - DayNumber(t) <= 28 * k
  {
    DayNumberFromMonthStart(t);
    MonthStartSpanSigned(t.year, t.month, k);
    assert MonthShiftTarget(t, k) == MonthStart(t.year, t.month + k) + t.day - 1;
  }

  /** Day count of the date `k` months on from `t`, the day of month kept and allowed to overflow. */
  function MonthShiftTarget(t: Moment, k: int): int
  {
    MonthStart(t.year, t.month + k) + t.day - 1
  }

  /** A moment's day is its day of month counted from its month's start. */
  lemma DayNumberFromMonthStart(t: Moment)
    ensures DayNumber(t) == MonthStart(t.year, t.month) + t.day - 1
  {
    DayInMonthStart(t.year, t.month, t.day);
    assert t.month / 12 == 0 && t.month % 12 == t.month;
  }

  /** `MonthStartSpan` in both directions. */
  lemma MonthStartSpanSigned(y: int, m: int, k: int)
    ensures k >= 0 ==> 28 * k <= MonthStart(y, m + k) - MonthStart(y, m) <= 31 * k
    ensures k <= 0 ==> 31 * k <= MonthStart(y, m + k) - MonthStart(y, m) <= 28 * k
  {
    var n := m + k;
    if k >= 0 {
      MonthStartSpan(y, m, n);
    } else {
      MonthStartSpan(y, n, m);
    }
    assert MonthStart(y, n) == MonthStart(y, m + k);
  }

  /** Day `d` of month `m` counted from year `y` is `d - 1` days after that month's start. */
  lemma DayInMonthStart(y: int, m: int, d: int)
    ensures DaysFromCivil(y + m / 12, m % 12 + 1, d) == MonthStart(y, m) + d - 1
  {
    DayOfMonthLinear(y + m / 12, m % 12 + 1, d);
  }

  /** A span of 28k to 31k days between two day counts, carried over to instants with the same time of day. */
  lemma DaySpanInMs(target: int, today: int, ms: int, k: int)
    requires k >= 0 ==> 28 * k <= target - today <= 31 * k
    requires k <= 0 ==> 31 * k <= target - today <= 28 * k
    ensures var d := target * MsPerDay + ms - (today * MsPerDay + ms);
      && d % MsPerDay == 0
      && (k >= 0 ==> 28 * k * MsPerDay <= d <= 31 * k * MsPerDay)
      && (k <= 0 ==> 31 * k * MsPerDay <= d <= 28 * k * MsPerDay)
  {
    var days := target - today;
    SubDays(target, today);
    WholeDays(days, 28 * k, 31 * k);
  }

  /** The day count is linear in the day of the month. */
  lemma DayOfMonthLinear(y: int, m: int, d: int)
    requires 1 <= m <= 12
    ensures DaysFromCivil(y, m, d) == DaysFromCivil(y, m, 1) + d - 1
  {
  }

  /** A difference of day counts in milliseconds. */
  lemma SubDays(a: int, b: int)
    ensures a * MsPerDay - b * MsPerDay == (a - b) * MsPerDay
  {
  }

  /** Bounds on a whole number of days carry over to its length in milliseconds. */
  lemma WholeDays(days: int, lo: int, hi: int)
    ensures (days * MsPerDay) % MsPerDay == 0
    ensures lo <= days ==> lo * MsPerDay <= days * MsPerDay
    ensures days <= hi ==> days * MsPerDay <= hi * MsPerDay
    ensures hi <= days ==> hi * MsPerDay <= days * MsPerDay
    ensures days <= lo ==> days * MsPerDay <= lo * MsPerDay
  {
  }

  /**
   * Instant of `t` after `setFullYear(getFullYear() + k)` (29 February rolls to
   * 1 March): the same as moving by twelve months per year.
   */
  function ShiftYears(t: Moment, k: int): (r: int)
    ensures r == ShiftMonths(t, 12 * k)
    ensures r == CivilInstant(DateTime(t.year + k, t.month, t.day, t.ms))
  {
    YearIsTwelveMonths(t, k);
    CivilInstant(DateTime(t.year + k, t.month, t.day, t.ms))
  }

  /** The same date `k` years on is the date `12k` months on. */
  lemma YearIsTwelveMonths(t: Moment, k: int)
    ensures MonthsOn(t, 12 * k) == DateTime(t.year + k, t.month, t.day, t.ms)
  {
    assert (t.month + 12 * k) / 12 == k && (t.month + 12 * k) % 12 == t.month;
  }


  /** The day after the last day of a month is the first day of the next month, December rolling into January. */
  lemma MonthEndRolls(y: int, m: int)
    requires 0 <= m < 12
    ensures DaysFromCivil(y, m + 1, DaysInMonth(y, m) + 1)
      == if m == 11 then DaysFromCivil(y + 1, 1, 1) else DaysFromCivil(y, m + 2, 1)
  {
    if m == 1 {
      FebruaryEndRolls(y);
    } else if m == 11 {
      DecemberEndRolls(y);
    } else {
      MonthEndRollsWithinYear(y, m);
    }
  }

  /** The day after the last of February is 1 March, in leap and common years alike. */
  lemma FebruaryEndRolls(y: int)
    ensures DaysFromCivil(y, 2, DaysInMonth(y, 1) + 1) == DaysFromCivil(y, 3, 1)
  {
    DayOfMonthLinear(y, 2, DaysInMonth(y, 1) + 1);
    FirstOfMonth(y, 2);
    FirstOfMonth(y, 3);
    MarchYearLength(y - 1);
  }

  /** The day after 31 December is 1 January of the next year. */
  lemma DecemberEndRolls(y: int)
    ensures DaysFromCivil(y, 12, 32) == DaysFromCivil(y + 1, 1, 1)
  {
    DayOfMonthLinear(y, 12, 32);
    FirstOfMonth(y, 12);
    FirstOfMonth(y + 1, 1);
    MonthOffsetStep(9);
  }

  /** Within a year, and away from February, a month's last day is followed by the next month's first. */
  lemma MonthEndRollsWithinYear(y: int, m: int)
    requires 0 <= m < 11 && m != 1
    ensures DaysFromCivil(y, m + 1, DaysInMonth(y, m) + 1) == DaysFromCivil(y, m + 2, 1)
  {
    DayOfMonthLinear(y, m + 1, DaysInMonth(y, m) + 1);
    FirstOfMonth(y, m + 1);
    FirstOfMonth(y, m + 2);
    MonthOffsetStep(if m == 0 then 10 else m - 2);
  }

  /** Day count of 1 March of year `y`: the start of the year as the day count arranges it. */
  function MarchFirst(y: int): int
  {
    (y / 400) * 146097 + EraDays(y % 400) - 719468
  }

  /** Days from the start of a 400-year era to 1 March of its year `r`. */
  function EraDays(r: int): int
  {
    r * 365 + r / 4 - r / 100
  }

  /** Days from 1 March to the first of the month `mp` months later, for `mp` in 0..11. */
  function MonthOffset(mp: int): int
  {
    (153 * mp + 2) / 5
  }

  /** The first of one-based month `m` lies `MonthOffset` days after the preceding 1 March. */
  lemma FirstOfMonth(y: int, m: int)
    requires 1 <= m <= 12
    ensures DaysFromCivil(y, m, 1)
      == if m <= 2 then MarchFirst(y - 1) + MonthOffset(m + 9) else MarchFirst(y) + MonthOffset(m - 3)
  {
  }

  /** Months counted from March have their calendar lengths, February excepted. */
  lemma MonthOffsetStep(mp: int)
    requires 0 <= mp < 11
    ensures MonthOffset(mp + 1) - MonthOffset(mp)
      == if mp == 1 || mp == 3 || mp == 6 || mp == 8 then 30 else 31
  {
  }

  /** From 1 March of `y` to 1 March of the next year: 366 days exactly when the next year is a leap year. */
  lemma MarchYearLength(y: int)
    ensures MarchFirst(y + 1) - MarchFirst(y) == if IsLeapYear(y + 1) then 366 else 365
  {
    var q, r := y / 400, y % 400;
    if r == 399 {
      EraEnd(y, q);
    } else {
      EraYearLength(r);
      WithinEra(y, q, r);
    }
  }

  /** The last year of an era is followed by the first of the next, whose 1 March comes 366 days later. */
  lemma EraEnd(y: int, q: int)
    requires q == y / 400 && y % 400 == 399
    ensures (y + 1) / 400 == q + 1 && (y + 1) % 400 == 0 && IsLeapYear(y + 1)
    ensures MarchFirst(y + 1) - MarchFirst(y) == 366
  {
    EuclidUnique(y + 1, 400, q + 1, 0);
    EuclidUnique(y + 1, 4, 100 * (q + 1), 0);
    assert EraDays(399) == 145731 && EraDays(0) == 0;
  }

  /** Inside an era the year after `y` is year `r + 1` of the same era. */
  lemma WithinEra(y: int, q: int, r: int)
    requires q == y / 400 && r == y % 400 && r < 399
    ensures (y + 1) / 400 == q && (y + 1) % 400 == r + 1
    ensures IsLeapYear(y + 1) <==> (r + 1) % 4 == 0 && (r + 1) % 100 != 0
  {
    EuclidUnique(y + 1, 400, q, r + 1);
    EuclidUnique(y + 1, 4, 100 * q + (r + 1) / 4, (r + 1) % 4);
    EuclidUnique(y + 1, 100, 4 * q + (r + 1) / 100, (r + 1) % 100);
  }

  /** Quotient and remainder are the only pair that rebuilds the dividend with the remainder in range. */
  lemma EuclidUnique(n: int, d: int, q: int, r: int)
    requires d == 4 || d == 100 || d == 400
    requires n == d * q + r && 0 <= r < d
    ensures n / d == q && n % d == r
  {
    if d == 4 {
      assert n == 4 * q + r;
    } else if d == 100 {
      assert n == 100 * q + r;
    } else {
      assert n == 400 * q + r;
    }
  }

  /** Inside an era a year lasts 366 days exactly when the next year number is a leap year number. */
  lemma EraYearLength(r: int)
    requires 0 <= r < 399
    ensures EraDays(r + 1) - EraDays(r) == if (r + 1) % 4 == 0 && (r + 1) % 100 != 0 then 366 else 365
  {
    QuotientStep(r, 4);
    QuotientStep(r, 100);
    assert (r + 1) % 100 == 0 ==> (r + 1) % 4 == 0 by {
      if (r + 1) % 100 == 0 {
        EuclidUnique(r + 1, 4, 25 * ((r + 1) / 100), 0);
      }
    }
  }

  /** The quotient grows by one exactly when the next number is a multiple of the divisor. */
  lemma QuotientStep(n: int, d: int)
    requires d == 4 || d == 100 || d == 400
    ensures (n + 1) / d - n / d == if (n + 1) % d == 0 then 1 else 0
  {
    var q, r := n / d, n % d;
    if r == d - 1 {
      EuclidUnique(n + 1, d, q + 1, 0);
    } else {
      EuclidUnique(n + 1, d, q, r + 1);
    }
  }

  /** Day count of the first day of month `m` counted from January of year `y`; `m` may lie outside 0..11. */
  function MonthStart(y: int, m: int): int
  {
    DaysFromCivil(y + m / 12, m % 12 + 1, 1)
  }

  /** Consecutive months start 28 to 31 days apart: the length of the earlier one. */
  lemma MonthStartStep(y: int, m: int)
    ensures MonthStart(y, m + 1) - MonthStart(y, m) == DaysInMonth(y + m / 12, m % 12)
  {
    var q := m / 12;
    var r := m % 12;
    NextMonthStart(y + q, r);
    if r == 11 {
      assert (m + 1) / 12 == q + 1 && (m + 1) % 12 == 0;
    } else {
      assert (m + 1) / 12 == q && (m + 1) % 12 == r + 1;
    }
  }

  /** The first of the month after month `r` of year `y` lies that month's length after its first. */
  lemma NextMonthStart(y: int, r: int)
    requires 0 <= r < 12
    ensures (if r == 11 then DaysFromCivil(y + 1, 1, 1) else DaysFromCivil(y, r + 2, 1))
      - DaysFromCivil(y, r + 1, 1) == DaysInMonth(y, r)
  {
    MonthEndRolls(y, r);
    DayOfMonthLinear(y, r + 1, DaysInMonth(y, r) + 1);
  }

  /** The months from month `a` up to month `b` span 28 to 31 days each. */
  lemma {:induction false} MonthStartSpan(y: int, a: int, b: int)
    requires a <= b
    ensures 28 * (b - a) <= MonthStart(y, b) - MonthStart(y, a) <= 31 * (b - a)
    decreases b - a
  {
    if a < b {
      MonthLength(y, a);
      MonthStartSpan(y, a + 1, b);
    }
  }

  /** Every month lasts 28 to 31 days. */
  lemma MonthLength(y: int, m: int)
    ensures 28 <= MonthStart(y, m + 1) - MonthStart(y, m) <= 31
  {
    MonthStartStep(y, m);
  }

  /** Moving by whole days moves the instant by whole 24-hour days, across month and year ends. */
  lemma ShiftDaysExact(t: Moment, k: int)
    ensures ShiftDays(t, k) == Instant(t) + k * MsPerDay
  {
  }

  /** Instants order moments first by day, then by time of day. */
  lemma InstantOrdersDays(a: Moment, b: Moment)
    ensures Instant(a) < Instant(b) <==> DayNumber(a) < DayNumber(b) || (DayNumber(a) == DayNumber(b) && a.ms < b.ms)
  {
  }

  /** The day count agrees with the epoch and with a known date. */
  lemma DaysFromCivilAnchors()
    ensures DaysFromCivil(1970, 1, 1) == 0
    ensures DaysFromCivil(2000, 3, 1) == 11017
    ensures DaysFromCivil(1969, 12, 31) == -1
  {
  }

  /** Zero-based month count since year 0; consecutive calendar months differ by one. */
  function MonthIndex(y: int, m: int): int
  {
    12 * y + m
  }

  /** The calendar month before (y, m): December of the previous year when m is January. */
  function PrevMonth(y: int, m: int): (r: (int, int))
    requires 0 <= m < 12
    ensures 0 <= r.1 < 12
    ensures MonthIndex(r.0, r.1) == MonthIndex(y, m) - 1
  {
    if m == 0 then (y - 1, 11) else (y, m - 1)
  }

  /** A month and its predecessor are different months, and only January changes the year. */
  lemma PrevMonthRollover(y: int, m: int)
    requires 0 <= m < 12
    ensures PrevMonth(y, m) != (y, m)
    ensures PrevMonth(y, m).0 == y - 1 <==> m == 0
  {
  }
}

=== FILE: comparisons.dfy ===
/**
 * The time comparisons of the statistics page: this week against last week
 * (`getWeekStats`) and this month's volume against last month's
 * (`getMonthVolumeComparison`). The clock reading `new Date()` is the
 * parameter `now`.
 */
module Comparisons {
  import opened Basics
  import opened Calendar
  import opened Model
  import opened Lists
  import opened Totals

  // ---------------------------------------------------------------------------
  // Week against week
  // ---------------------------------------------------------------------------

  /** Seven days in milliseconds, the `7 * 24 * 60 * 60 * 1000` of `getWeekStats`. */
  const WeekMs: int := 7 * MsPerDay

  /** The session's instant lies in `[lo, hi)`; `hi` is unbounded when `None`. */
  predicate InWindow(s: Session, lo: int, hi: Option<int>)
  {
    lo <= Instant(s.date) && (hi.None? || Instant(s.date) < hi.value)
  }

  /** The number of sessions in a window, counted one by one. */
  function CountIn(ss: seq<Session>, lo: int, hi: Option<int>): (n: nat)
    ensures n <= |ss|
    ensures n == 0 <==> forall j :: 0 <= j < |ss| ==> !InWindow(ss[j], lo, hi)
  {
    if |ss| == 0 then 0
    else
      var prefix := ss[..|ss| - 1];
      assert forall j :: 0 <= j < |prefix| ==> ss[j] == prefix[j];
      CountIn(prefix, lo, hi) + (if InWindow(ss[|ss| - 1], lo, hi) then 1 else 0)
  }

  datatype WeekStats = WeekStats(thisWeek: nat, change: int)

  /**
   * `getWeekStats`: sessions of the last seven days, and the difference with
   * the seven days before them.
   */
  function GetWeekStats(ss: seq<Session>, now: Moment): (r: WeekStats)
    ensures r.thisWeek == CountIn(ss, Instant(now) - WeekMs, None)
    ensures r.change == r.thisWeek - CountIn(ss, Instant(now) - 2 * WeekMs, Some(Instant(now) - WeekMs))
  {
    var weekAgo := Instant(now) - WeekMs;
    var twoWeeksAgo := Instant(now) - 2 * WeekMs;
    KeepCountsWindow(ss, weekAgo, None);
    KeepCountsWindow(ss, twoWeeksAgo, Some(weekAgo));
    var thisWeek := |Keep(ss, (s: Session) => InWindow(s, weekAgo, None))|;
    var lastWeek := |Keep(ss, (s: Session) => InWindow(s, twoWeeksAgo, Some(weekAgo)))|;
    WeekStats(thisWeek, thisWeek - lastWeek)
  }

  /** Filtering then taking the length counts the same sessions as counting one by one. */
  lemma {:induction false} KeepCountsWindow(ss: seq<Session>, lo: int, hi: Option<int>)
    ensures |Keep(ss, (s: Session) => InWindow(s, lo, hi))| == CountIn(ss, lo, hi)
    decreases |ss|
  {
    if |ss| > 0 {
      var prefix := ss[..|ss| - 1];
      var last := ss[|ss| - 1];
      assert prefix + [last] == ss;
      KeepConcat(prefix, [last], (s: Session) => InWindow(s, lo, hi));
      KeepCountsWindow(prefix, lo, hi);
    }
  }

  /**
   * The two weeks do not overlap, so together they count exactly the sessions
   * of the last fourteen days.
   */
  lemma WeekStatsPartition(ss: seq<Session>, now: Moment)
    ensures var r := GetWeekStats(ss, now);
      r.thisWeek + (r.thisWeek - r.change) == CountIn(ss, Instant(now) - 2 * WeekMs, None)
  {
    var r := GetWeekStats(ss, now);
    var lastWeek := CountIn(ss, Instant(now) - 2 * WeekMs, Some(Instant(now) - WeekMs));
    assert r.thisWeek - r.change == lastWeek;
    CountInSplit(ss, Instant(now) - 2 * WeekMs, Instant(now) - WeekMs);
  }

  /** Splitting a window at `mid` splits its count. */
  lemma {:induction false} CountInSplit(ss: seq<Session>, lo: int, mid: int)
    requires lo <= mid
    ensures CountIn(ss, mid, None) + CountIn(ss, lo, Some(mid)) == CountIn(ss, lo, None)
  {
    if |ss| > 0 {
      CountInSplit(ss[..|ss| - 1], lo, mid);
    }
  }

  /** Logging a session dated within the last seven days raises both the count and the change by one. */
  lemma WeekStatsAppend(ss: seq<Session>, s: Session, now: Moment)
    requires Instant(now) - WeekMs <= Instant(s.date)
    ensures GetWeekStats(ss + [s], now).thisWeek == GetWeekStats(ss, now).thisWeek + 1
    ensures GetWeekStats(ss + [s], now).change == GetWeekStats(ss, now).change + 1
  {
    assert (ss + [s])[..|ss|] == ss;
  }

  // ---------------------------------------------------------------------------
  // Month against month
  // ---------------------------------------------------------------------------

  /**
   * The `forEach` of `getMonthVolumeComparison` over the log: a session of
   * month (y, m) adds its volume to the first total; otherwise, a session of
   * the month before in the same year, or of December of the year before when
   * m is January, adds it to the second.
   */
  function MonthTotals(ss: seq<Session>, y: int, m: int): (r: (real, real))
    requires 0 <= m < 12
    ensures r.0 == SumOf(SessionsIn(ss, y, m), SessionVolume)
    ensures r.1 == SumOf(SessionsIn(ss, PrevMonth(y, m).0, PrevMonth(y, m).1), SessionVolume)
  {
    if |ss| == 0 then (0.0, 0.0)
    else
      var prefix := ss[..|ss| - 1];
      var s := ss[|ss| - 1];
      var (cur, prev) := MonthTotals(prefix, y, m);
      var d := s.date;
      var v := SessionVolume(s);
      var pm := PrevMonth(y, m);
      assert prefix + [s] == ss;
      SessionsInSnoc(prefix, s, y, m);
      SessionsInSnoc(prefix, s, pm.0, pm.1);
      MonthsDisjoint(d, y, m);
      assert InMonth(d, pm.0, pm.1) <==> (d.year == y && d.month == m - 1) || (m == 0 && d.year == y - 1 && d.month == 11);
      if d.year == y && d.month == m then
        (cur + v, prev)
      else if (d.year == y && d.month == m - 1) || (m == 0 && d.year == y - 1 && d.month == 11) then
        (cur, prev + v)
      else
        (cur, prev)
  }

  /** Appending a session adds its volume to the total of its month and to no other. */
  lemma SessionsInSnoc(ss: seq<Session>, s: Session, y: int, m: int)
    ensures SumOf(SessionsIn(ss + [s], y, m), SessionVolume)
      == SumOf(SessionsIn(ss, y, m), SessionVolume) + (if InMonth(s.date, y, m) then SessionVolume(s) else 0.0)
  {
    assert (ss + [s])[..|ss|] == ss;
    var before := SessionsIn(ss, y, m);
    if InMonth(s.date, y, m) {
      assert SessionsIn(ss + [s], y, m) == before + [s];
      assert (before + [s])[..|before|] == before;
    } else {
      assert SessionsIn(ss + [s], y, m) == before;
    }
  }

  /** Each session counts towards at most one of the two totals. */
  lemma MonthsDisjoint(t: Moment, y: int, m: int)
    requires 0 <= m < 12
    ensures !(InMonth(t, y, m) && InMonth(t, PrevMonth(y, m).0, PrevMonth(y, m).1))
  {
    PrevMonthRollover(y, m);
  }

  datatype MonthComparison = MonthComparison(volume: real, changePercent: int)

  /**
   * `getMonthVolumeComparison`: this month's volume, and the change from last
   * month in percent, rounded half up, or 0 when last month's volume is not
   * positive.
   */
  function MonthVolumeComparison(ss: seq<Session>, now: Moment): (r: MonthComparison)
    ensures r.volume == SumOf(SessionsIn(ss, now.year, now.month), SessionVolume)
    ensures var prev := SumOf(SessionsIn(ss, PrevMonth(now.year, now.month).0, PrevMonth(now.year, now.month).1), SessionVolume);
      && (prev <= 0.0 ==> r.changePercent == 0)
      && (prev > 0.0 ==> r.changePercent as real - 0.5 <= (r.volume - prev) / prev * 100.0 < r.changePercent as real + 0.5)
  {
    var (cur, prev) := MonthTotals(ss, now.year, now.month);
    var changePercent := if prev > 0.0 then Round((cur - prev) / prev * 100.0) else 0;
    MonthComparison(cur, changePercent)
  }

  /** With no session last month, any volume this month shows a change of 0 percent. */
  lemma NoPreviousMonthNoChange(ss: seq<Session>, now: Moment)
    requires forall j :: 0 <= j < |ss| ==> !InMonth(ss[j].date, PrevMonth(now.year, now.month).0, PrevMonth(now.year, now.month).1)
    ensures MonthVolumeComparison(ss, now).changePercent == 0
  {
    var pm := PrevMonth(now.year, now.month);
    SessionsInMembers(ss, pm.0, pm.1);
  }
}

=== FILE: escape.dfy ===
/**
 * `AppUI.escAttr`: a string made safe for an HTML attribute value by five
 * global replacements, `&` first, then `'`, `"`, `<` and `>`. The `String(str)`
 * coercion is not modelled: the input is already a string.
 */
module Escape {

  /** `s.replace(/c/g, rep)`: every occurrence of `c` replaced by `rep`. */
  function ReplaceAll(s: string, c: char, rep: string): (r: string)
    ensures forall x :: x in r ==> (x in s && x != c) || x in rep
    ensures c !in s ==> r == s
  {
    if |s| == 0 then []
    else (if s[0] == c then rep else [s[0]]) + ReplaceAll(s[1..], c, rep)
  }

  const Amp: string := "&amp;"
  const Apos: string := "&#39;"
  const Quot: string := "&quot;"
  const Lt: string := "&lt;"
  const Gt: string := "&gt;"

  /**
   * `escAttr`: the five replacements in the order `escAttr` applies them, which escape each
   * character on its own because no entity a pass inserts holds a character
   * a later pass replaces.
   */
  function EscAttr(s: string): (r: string)
    ensures r == EscapeEach(s)
  {
    PassesIsEscapeEach(s);
    Passes(s)
  }

  /** The five global replacements, `&` first. */
  function Passes(s: string): string
  {
    ReplaceAll(ReplaceAll(ReplaceAll(ReplaceAll(ReplaceAll(s, '&', Amp), '\'', Apos), '"', Quot), '<', Lt), '>', Gt)
  }

  /** What one character turns into. */
  function EscChar(c: char): string
  {
    if c == '&' then Amp
    else if c == '\'' then Apos
    else if c == '"' then Quot
    else if c == '<' then Lt
    else if c == '>' then Gt
    else [c]
  }

  /** Escaping character by character, the reference the five passes are compared with. */
  function EscapeEach(s: string): (r: string)
    ensures |r| >= |s|
  {
    if |s| == 0 then [] else EscChar(s[0]) + EscapeEach(s[1..])
  }

  /** A global replacement distributes over concatenation. */
  lemma {:induction false} ReplaceAllConcat(a: string, b: string, c: char, rep: string)
    ensures ReplaceAll(a + b, c, rep) == ReplaceAll(a, c, rep) + ReplaceAll(b, c, rep)
  {
    if |a| == 0 {
      assert a + b == b;
    } else {
      assert (a + b)[0] == a[0];
      assert (a + b)[1..] == a[1..] + b;
      ReplaceAllConcat(a[1..], b, c, rep);
    }
  }

  /** So do the five passes together. */
  lemma PassesConcat(a: string, b: string)
    ensures Passes(a + b) == Passes(a) + Passes(b)
  {
    var a1 := ReplaceAll(a, '&', Amp);
    var b1 := ReplaceAll(b, '&', Amp);
    ReplaceAllConcat(a, b, '&', Amp);
    var a2 := ReplaceAll(a1, '\'', Apos);
    var b2 := ReplaceAll(b1, '\'', Apos);
    ReplaceAllConcat(a1, b1, '\'', Apos);
    var a3 := ReplaceAll(a2, '"', Quot);
    var b3 := ReplaceAll(b2, '"', Quot);
    ReplaceAllConcat(a2, b2, '"', Quot);
    var a4 := ReplaceAll(a3, '<', Lt);
    var b4 := ReplaceAll(b3, '<', Lt);
    ReplaceAllConcat(a3, b3, '<', Lt);
    ReplaceAllConcat(a4, b4, '>', Gt);
  }

  /** A replacement on a one-character string. */
  lemma ReplaceAllSingle(x: char, c: char, rep: string)
    ensures ReplaceAll([x], c, rep) == if x == c then rep else [x]
  {
    assert [x][1..] == [];
  }

  /** The later passes leave alone a string holding none of their characters. */
  lemma LaterPassesKeep(t: string, k: nat)
    requires k <= 3
    requires k <= 0 ==> '\'' !in t
    requires k <= 1 ==> '"' !in t
    requires k <= 2 ==> '<' !in t
    requires '>' !in t
    ensures k == 0 ==> ReplaceAll(ReplaceAll(ReplaceAll(ReplaceAll(t, '\'', Apos), '"', Quot), '<', Lt), '>', Gt) == t
    ensures k == 1 ==> ReplaceAll(ReplaceAll(ReplaceAll(t, '"', Quot), '<', Lt), '>', Gt) == t
    ensures k == 2 ==> ReplaceAll(ReplaceAll(t, '<', Lt), '>', Gt) == t
    ensures k == 3 ==> ReplaceAll(t, '>', Gt) == t
  {
  }

  /**
   * On one character the five passes give that character's escape: no entity
   * a pass inserts contains a character a later pass replaces.
   */
  lemma PassesChar(c: char)
    ensures Passes([c]) == EscChar(c)
  {
    ReplaceAllSingle(c, '&', Amp);
    if c == '&' {
      assert '\'' !in Amp && '"' !in Amp && '<' !in Amp && '>' !in Amp;
      LaterPassesKeep(Amp, 0);
    } else {
      ReplaceAllSingle(c, '\'', Apos);
      if c == '\'' {
        assert '"' !in Apos && '<' !in Apos && '>' !in Apos;
        LaterPassesKeep(Apos, 1);
      } else {
        ReplaceAllSingle(c, '"', Quot);
        if c == '"' {
          assert '<' !in Quot && '>' !in Quot;
          LaterPassesKeep(Quot, 2);
        } else {
          ReplaceAllSingle(c, '<', Lt);
          if c == '<' {
            assert '>' !in Lt;
            LaterPassesKeep(Lt, 3);
          } else {
            ReplaceAllSingle(c, '>', Gt);
          }
        }
      }
    }
  }

  /** The five passes escape each character on its own. */
  lemma {:induction false} PassesIsEscapeEach(s: string)
    ensures Passes(s) == EscapeEach(s)
  {
    if |s| > 0 {
      assert s == [s[0]] + s[1..];
      PassesConcat([s[0]], s[1..]);
      PassesChar(s[0]);
      PassesIsEscapeEach(s[1..]);
    }
  }

  /** The characters that may not appear in the output. */
  predicate Unsafe(x: char)
  {
    x == '\'' || x == '"' || x == '<' || x == '>'
  }

  /** `e` occurs in `s` at position `i`. */
  predicate At(s: string, i: nat, e: string)
  {
    i + |e| <= |s| && s[i..i + |e|] == e
  }

  /** Every `&` of `s` begins one of the five entities. */
  predicate AmpsBeginEntities(s: string)
  {
    forall i :: 0 <= i < |s| && s[i] == '&' ==>
      At(s, i, Amp) || At(s, i, Apos) || At(s, i, Quot) || At(s, i, Lt) || At(s, i, Gt)
  }

  /** An occurrence stays an occurrence when text is added after it or before it. */
  lemma AtConcat(a: string, b: string, i: nat, e: string)
    ensures At(a, i, e) ==> At(a + b, i, e)
    ensures At(b, i, e) ==> At(a + b, |a| + i, e)
  {
    if At(a, i, e) {
      assert (a + b)[i..i + |e|] == a[i..i + |e|];
    }
    if At(b, i, e) {
      assert (a + b)[|a| + i..|a| + i + |e|] == b[i..i + |e|];
    }
  }

  /** Gluing two strings whose ampersands begin entities keeps that property. */
  lemma AmpsConcat(a: string, b: string)
    requires AmpsBeginEntities(a) && AmpsBeginEntities(b)
    ensures AmpsBeginEntities(a + b)
  {
    var s := a + b;
    forall i | 0 <= i < |s| && s[i] == '&'
      ensures At(s, i, Amp) || At(s, i, Apos) || At(s, i, Quot) || At(s, i, Lt) || At(s, i, Gt)
    {
      if i < |a| {
        assert a[i] == '&';
        AtConcat(a, b, i, Amp);
        AtConcat(a, b, i, Apos);
        AtConcat(a, b, i, Quot);
        AtConcat(a, b, i, Lt);
        AtConcat(a, b, i, Gt);
      } else {
        var j: nat := i - |a|;
        assert b[j] == '&';
        AtConcat(a, b, j, Amp);
        AtConcat(a, b, j, Apos);
        AtConcat(a, b, j, Quot);
        AtConcat(a, b, j, Lt);
        AtConcat(a, b, j, Gt);
      }
    }
  }

  /** Each character's escape is safe on its own. */
  lemma EscCharSafe(c: char)
    ensures forall x :: x in EscChar(c) ==> !Unsafe(x)
    ensures AmpsBeginEntities(EscChar(c))
  {
    var e := EscChar(c);
    forall i | 0 <= i < |e| && e[i] == '&'
      ensures At(e, i, Amp) || At(e, i, Apos) || At(e, i, Quot) || At(e, i, Lt) || At(e, i, Gt)
    {
      assert i == 0;
      assert e[0..|e|] == e;
    }
  }

  /**
   * The output of `escAttr` holds no `'`, `"`, `<` or `>`, and every `&` in it
   * begins one of the five entities it emits.
   */
  lemma {:induction false} EscAttrSafe(s: string)
    ensures forall x :: x in EscAttr(s) ==> !Unsafe(x)
    ensures AmpsBeginEntities(EscAttr(s))
  {
    EscapeEachSafe(s);
  }

  lemma {:induction false} EscapeEachSafe(s: string)
    ensures forall x :: x in EscapeEach(s) ==> !Unsafe(x)
    ensures AmpsBeginEntities(EscapeEach(s))
  {
    if |s| > 0 {
      EscCharSafe(s[0]);
      EscapeEachSafe(s[1..]);
      AmpsConcat(EscChar(s[0]), EscapeEach(s[1..]));
    }
  }

  /** Decoding of the five entities, any other character kept as it is. */
  function Unescape(t: string): string
    decreases |t|
  {
    if |t| == 0 then []
    else if At(t, 0, Amp) then "&" + Unescape(t[|Amp|..])
    else if At(t, 0, Apos) then "'" + Unescape(t[|Apos|..])
    else if At(t, 0, Quot) then "\"" + Unescape(t[|Quot|..])
    else if At(t, 0, Lt) then "<" + Unescape(t[|Lt|..])
    else if At(t, 0, Gt) then ">" + Unescape(t[|Gt|..])
    else [t[0]] + Unescape(t[1..])
  }

  /** Decoding reads back one escaped character and leaves the rest. */
  lemma UnescapeStep(c: char, rest: string)
    ensures Unescape(EscChar(c) + rest) == [c] + Unescape(rest)
  {
    var t := EscChar(c) + rest;
    assert t[..|EscChar(c)|] == EscChar(c);
    assert t[|EscChar(c)|..] == rest;
    if c != '&' && c != '\'' && c != '"' && c != '<' && c != '>' {
      assert t[0] == c;
      assert !At(t, 0, Amp) && !At(t, 0, Apos) && !At(t, 0, Quot) && !At(t, 0, Lt) && !At(t, 0, Gt) by {
        assert t[0] != '&';
      }
    } else if c == '&' {
      assert At(t, 0, Amp);
    } else if c == '\'' {
      assert t[0..5] == Apos;
      assert !At(t, 0, Amp) by { assert t[1] != Amp[1]; }
    } else if c == '"' {
      assert t[0..6] == Quot;
      assert !At(t, 0, Amp) by { assert t[1] != Amp[1]; }
      assert !At(t, 0, Apos) by { assert t[1] != Apos[1]; }
    } else if c == '<' {
      assert t[0..4] == Lt;
      assert !At(t, 0, Amp) by { assert t[1] != Amp[1]; }
      assert !At(t, 0, Apos) by { assert t[1] != Apos[1]; }
      assert !At(t, 0, Quot) by { assert t[1] != Quot[1]; }
    } else {
      assert t[0..4] == Gt;
      assert !At(t, 0, Amp) by { assert t[1] != Amp[1]; }
      assert !At(t, 0, Apos) by { assert t[1] != Apos[1]; }
      assert !At(t, 0, Quot) by { assert t[1] != Quot[1]; }
      assert !At(t, 0, Lt) by { assert t[1] != Lt[1]; }
    }
  }

  /**
   * Nothing is escaped twice: decoding the output of `escAttr` gives back the
   * input, so two different strings never escape to the same text.
   */
  lemma {:induction false} EscAttrRoundTrip(s: string)
    ensures Unescape(EscAttr(s)) == s
  {
    EscapeEachRoundTrip(s);
  }

  lemma {:induction false} EscapeEachRoundTrip(s: string)
    ensures Unescape(EscapeEach(s)) == s
  {
    if |s| > 0 {
      UnescapeStep(s[0], EscapeEach(s[1..]));
      EscapeEachRoundTrip(s[1..]);
    }
  }

  /** The same passes with `&` replaced last would escape the entities already inserted. */
  lemma AmpersandFirstMatters()
    ensures ReplaceAll(ReplaceAll("<", '<', Lt), '&', Amp) == "&amp;lt;"
    ensures EscAttr("<") == "&lt;"
  {
    assert EscapeEach("<") == EscChar('<') + EscapeEach("");
    assert "&lt;"[1..] == "lt;";
    assert "lt;"[1..] == "t;";
    assert "t;"[1..] == ";";
    assert ";"[1..] == "";
    assert ReplaceAll("<", '<', Lt) == Lt by { assert "<"[1..] == ""; }
  }
}

=== FILE: evolution.dfy ===
/**
 * Per-exercise progress: the list of exercises worth charting with their trend
 * (`getExercisesForEvolution`) and the history of one exercise over a period
 * (`getExerciseEvolution`).
 */
module Evolution {
  import opened Basics
  import opened Calendar
  import opened Model
  import opened Lists
  import opened Totals

  /** One charted point: a session date, the entry's heaviest set, its repetitions and its volume. */
  datatype Entry = Entry(date: Moment, weight: real, reps: real, volume: real)

  /** The point an exercise entry contributes, dated with its session. */
  function EntryOf(o: Occ): Entry
  {
    Entry(o.date, TopWeight(o.ex), SumOf(o.ex.series, RepsOf), ExerciseVolume(o.ex))
  }

  /** An exercise entry reduced to its name and its point. */
  datatype Tagged = Tagged(name: string, entry: Entry)

  /** Every exercise entry of the log, reduced to its name and point, in log order. */
  function TaggedEntries(ss: seq<Session>): (ts: seq<Tagged>)
    ensures |ts| == |Occurrences(ss)|
    ensures forall k :: 0 <= k < |ts| ==> ts[k] == Tagged(Occurrences(ss)[k].ex.nom, EntryOf(Occurrences(ss)[k]))
  {
    var occs := Occurrences(ss);
    seq(|occs|, k requires 0 <= k < |occs| => Tagged(occs[k].ex.nom, EntryOf(occs[k])))
  }

  /** The points of name `n` with a positive weight, in log order. */
  function QualEntries(ts: seq<Tagged>, n: string): (es: seq<Entry>)
    ensures forall i :: 0 <= i < |es| ==> es[i].weight > 0.0
  {
    if |ts| == 0 then []
    else
      var t := ts[|ts| - 1];
      QualEntries(ts[..|ts| - 1], n) + (if t.name == n && t.entry.weight > 0.0 then [t.entry] else [])
  }

  lemma QualEntriesSnoc(ts: seq<Tagged>, t: Tagged, n: string)
    ensures QualEntries(ts + [t], n) == QualEntries(ts, n) + (if t.name == n && t.entry.weight > 0.0 then [t.entry] else [])
  {
    assert (ts + [t])[..|ts|] == ts;
  }

  // ---------------------------------------------------------------------------
  // Grouping by name
  // ---------------------------------------------------------------------------

  /** An entry of the `exercises` object: a name and its points in log order. */
  datatype Group = Group(name: string, entries: seq<Entry>)

  function GroupName(g: Group): string { g.name }

  /**
   * `gs` is the `exercises` object of `ts`: one group per non-empty name,
   * holding that name's positive-weight points, and every named entry has a
   * group, even one with no positive weight.
   */
  predicate IsGroupTable(ts: seq<Tagged>, gs: seq<Group>)
  {
    && DistinctBy(gs, GroupName)
    && (forall i :: 0 <= i < |gs| ==> gs[i].name != "" && gs[i].entries == QualEntries(ts, gs[i].name))
    && (forall k :: 0 <= k < |ts| && ts[k].name != "" ==> exists i :: 0 <= i < |gs| && gs[i].name == ts[k].name)
  }

  /** The point an entry adds to its group: itself when its weight is positive. */
  function PointOf(t: Tagged): seq<Entry>
  {
    if t.entry.weight > 0.0 then [t.entry] else []
  }

  /**
   * One step of the grouping `forEach`: an unnamed entry is skipped, a new name
   * opens a group, and a positive weight appends a point to its name's group.
   */
  function UpdateGroup(gs: seq<Group>, t: Tagged): (r: seq<Group>)
    ensures |r| >= |gs|
  {
    if t.name == "" then gs
    else
      match FindFirst(gs, (g: Group) => g.name == t.name)
      case None => gs + [Group(t.name, PointOf(t))]
      case Some(i) => gs[i := Group(t.name, gs[i].entries + PointOf(t))]
  }

  /** Groups of names other than `t`'s keep their points when `t` arrives. */
  lemma OtherGroupsKept(ts: seq<Tagged>, gs: seq<Group>, t: Tagged, gs': seq<Group>, i0: int)
    requires IsGroupTable(ts, gs)
    requires |gs'| >= |gs|
    requires forall i :: 0 <= i < |gs| && i != i0 ==> gs'[i] == gs[i] && gs[i].name != t.name
    ensures forall i :: 0 <= i < |gs| && i != i0 ==> gs'[i].entries == QualEntries(ts + [t], gs'[i].name)
  {
    forall i | 0 <= i < |gs| && i != i0
      ensures gs'[i].entries == QualEntries(ts + [t], gs'[i].name)
    {
      QualEntriesSnoc(ts, t, gs[i].name);
    }
  }

  /** Coverage survives a step that keeps every name at its index and covers `t`. */
  lemma GroupCoverageExtend(ts: seq<Tagged>, gs: seq<Group>, t: Tagged, gs': seq<Group>)
    requires IsGroupTable(ts, gs)
    requires |gs'| >= |gs| && forall i :: 0 <= i < |gs| ==> gs'[i].name == gs[i].name
    requires t.name != "" ==> exists i :: 0 <= i < |gs'| && gs'[i].name == t.name
    ensures forall k :: 0 <= k < |ts + [t]| && (ts + [t])[k].name != "" ==>
      exists i :: 0 <= i < |gs'| && gs'[i].name == (ts + [t])[k].name
  {
    forall k | 0 <= k < |ts + [t]| && (ts + [t])[k].name != ""
      ensures exists i :: 0 <= i < |gs'| && gs'[i].name == (ts + [t])[k].name
    {
      if k < |ts| {
        assert (ts + [t])[k] == ts[k];
        var i :| 0 <= i < |gs| && gs[i].name == ts[k].name;
        assert gs'[i].name == ts[k].name;
      }
    }
  }

  /** A name with no group has no points. */
  lemma {:induction false} QualEntriesAbsent(ts: seq<Tagged>, n: string)
    requires forall k :: 0 <= k < |ts| ==> ts[k].name != n
    ensures QualEntries(ts, n) == []
  {
    if |ts| > 0 {
      var prefix := ts[..|ts| - 1];
      assert forall k :: 0 <= k < |prefix| ==> prefix[k] == ts[k];
      QualEntriesAbsent(prefix, n);
    }
  }

  /** A first entry of a new name opens a group holding its point. */
  lemma NewGroupKeepsTable(ts: seq<Tagged>, gs: seq<Group>, t: Tagged)
    requires IsGroupTable(ts, gs) && t.name != ""
    requires forall i :: 0 <= i < |gs| ==> gs[i].name != t.name
    ensures IsGroupTable(ts + [t], gs + [Group(t.name, PointOf(t))])
  {
    var gs' := gs + [Group(t.name, PointOf(t))];
    OtherGroupsKept(ts, gs, t, gs', -1);
    forall k | 0 <= k < |ts|
      ensures ts[k].name != t.name
    {
      if ts[k].name == t.name {
        assert false;  // the covering group would carry t's name
      }
    }
    QualEntriesAbsent(ts, t.name);
    QualEntriesSnoc(ts, t, t.name);
    assert gs'[|gs|].entries == QualEntries(ts + [t], t.name);
    forall i, j | 0 <= i < j < |gs'|
      ensures GroupName(gs'[i]) != GroupName(gs'[j])
    {
      if j < |gs| {
        assert GroupName(gs[i]) != GroupName(gs[j]);
      }
    }
    GroupCoverageExtend(ts, gs, t, gs');
  }

  /** A further entry of a known name appends its point to that name's group. */
  lemma GrownGroupKeepsTable(ts: seq<Tagged>, gs: seq<Group>, t: Tagged, i0: nat)
    requires IsGroupTable(ts, gs) && t.name != ""
    requires i0 < |gs| && gs[i0].name == t.name
    ensures IsGroupTable(ts + [t], gs[i0 := Group(t.name, gs[i0].entries + PointOf(t))])
  {
    var gs' := gs[i0 := Group(t.name, gs[i0].entries + PointOf(t))];
    forall i | 0 <= i < |gs| && i != i0
      ensures gs[i].name != t.name
    {
      assert GroupName(gs[i]) != GroupName(gs[i0]);
    }
    OtherGroupsKept(ts, gs, t, gs', i0);
    QualEntriesSnoc(ts, t, t.name);
    forall i, j | 0 <= i < j < |gs'|
      ensures GroupName(gs'[i]) != GroupName(gs'[j])
    {
      assert GroupName(gs[i]) != GroupName(gs[j]);
    }
    GroupCoverageExtend(ts, gs, t, gs');
  }

  /** `UpdateGroup` keeps the table invariant. */
  lemma UpdateGroupKeepsTable(ts: seq<Tagged>, gs: seq<Group>, t: Tagged)
    requires IsGroupTable(ts, gs)
    ensures IsGroupTable(ts + [t], UpdateGroup(gs, t))
  {
    if t.name == "" {
      OtherGroupsKept(ts, gs, t, gs, -1);
      GroupCoverageExtend(ts, gs, t, gs);
    } else {
      match FindFirst(gs, (g: Group) => g.name == t.name)
      case None =>
        NewGroupKeepsTable(ts, gs, t);
      case Some(i0) =>
        GrownGroupKeepsTable(ts, gs, t, i0);
    }
  }

  /** The `exercises` object after the grouping `forEach` over the log. */
  function GroupTable(ts: seq<Tagged>): (gs: seq<Group>)
    ensures IsGroupTable(ts, gs)
  {
    if |ts| == 0 then []
    else
      var prefix := ts[..|ts| - 1];
      var t := ts[|ts| - 1];
      assert prefix + [t] == ts;
      UpdateGroupKeepsTable(prefix, GroupTable(prefix), t);
      UpdateGroup(GroupTable(prefix), t)
  }

  /** The position of the first entry named `n`, or `|ts|` when there is none. */
  function FirstNamed(ts: seq<Tagged>, n: string): (i: nat)
    ensures i <= |ts|
    ensures i < |ts| ==> ts[i].name == n
    ensures forall k :: 0 <= k < i ==> ts[k].name != n
  {
    if |ts| == 0 then 0
    else if ts[0].name == n then 0
    else 1 + FirstNamed(ts[1..], n)
  }

  /** Appending an entry moves no first position, and puts a new name's at the end. */
  lemma FirstNamedSnoc(ts: seq<Tagged>, t: Tagged, n: string)
    ensures FirstNamed(ts + [t], n)
      == if FirstNamed(ts, n) < |ts| then FirstNamed(ts, n) else if t.name == n then |ts| else |ts| + 1
  {
    if FirstNamed(ts, n) < |ts| {
      assert (ts + [t])[FirstNamed(ts, n)] == ts[FirstNamed(ts, n)];
    } else {
      assert (ts + [t])[|ts|] == t;
    }
  }

  /** The groups of `gs` stand in the order their names first occur in `ts`, and every name occurs. */
  predicate InFirstNamedOrder(ts: seq<Tagged>, gs: seq<Group>)
  {
    && (forall i :: 0 <= i < |gs| ==> FirstNamed(ts, gs[i].name) < |ts|)
    && (forall i, j :: 0 <= i < j < |gs| ==> FirstNamed(ts, gs[i].name) < FirstNamed(ts, gs[j].name))
  }

  /** Every named entry of `ts` has a group in `gs`. */
  predicate NamesCovered(ts: seq<Tagged>, gs: seq<Group>)
  {
    forall k :: 0 <= k < |ts| && ts[k].name != "" ==> exists i :: 0 <= i < |gs| && gs[i].name == ts[k].name
  }

  /** A grouping has a group for every named entry. */
  lemma TableCovers(ts: seq<Tagged>, gs: seq<Group>)
    requires IsGroupTable(ts, gs)
    ensures NamesCovered(ts, gs)
  {
  }

  /** A grouping step keeps the groups in order of first occurrence. */
  lemma UpdateGroupOrder(ts: seq<Tagged>, gs: seq<Group>, t: Tagged)
    requires NamesCovered(ts, gs) && InFirstNamedOrder(ts, gs)
    ensures InFirstNamedOrder(ts + [t], UpdateGroup(gs, t))
  {
    OrderExtends(ts, gs, t);
    var f := FindFirst(gs, (g: Group) => g.name == t.name);
    if t.name != "" {
      if f.None? {
        NewGroupOrder(ts, gs, t);
      } else {
        var i0 := f.value;
        assert UpdateGroup(gs, t) == gs[i0 := Group(t.name, gs[i0].entries + PointOf(t))];
        SameNamesOrder(ts + [t], gs, gs[i0 := Group(t.name, gs[i0].entries + PointOf(t))]);
      }
    }
  }

  /** Appending an entry moves no group name's first position. */
  lemma OrderExtends(ts: seq<Tagged>, gs: seq<Group>, t: Tagged)
    requires InFirstNamedOrder(ts, gs)
    ensures forall i :: 0 <= i < |gs| ==> FirstNamed(ts + [t], gs[i].name) == FirstNamed(ts, gs[i].name)
    ensures InFirstNamedOrder(ts + [t], gs)
  {
    forall i | 0 <= i < |gs|
      ensures FirstNamed(ts + [t], gs[i].name) == FirstNamed(ts, gs[i].name)
    {
      FirstNamedSnoc(ts, t, gs[i].name);
    }
  }

  /** A named entry with no group yet first occurs after every group's name. */
  lemma NewGroupOrder(ts: seq<Tagged>, gs: seq<Group>, t: Tagged)
    requires NamesCovered(ts, gs) && InFirstNamedOrder(ts, gs) && t.name != ""
    requires forall i :: 0 <= i < |gs| ==> gs[i].name != t.name
    requires forall i :: 0 <= i < |gs| ==> FirstNamed(ts + [t], gs[i].name) == FirstNamed(ts, gs[i].name)
    ensures InFirstNamedOrder(ts + [t], gs + [Group(t.name, PointOf(t))])
  {
    forall k | 0 <= k < |ts| && ts[k].name != ""
      ensures ts[k].name != t.name
    {
      var i :| 0 <= i < |gs| && gs[i].name == ts[k].name;
    }
    FirstNamedSnoc(ts, t, t.name);
    var gs' := gs + [Group(t.name, PointOf(t))];
    forall i, j | 0 <= i < j < |gs'|
      ensures FirstNamed(ts + [t], gs'[i].name) < FirstNamed(ts + [t], gs'[j].name)
    {
      assert gs'[i] == gs[i];
    }
  }

  /** Changing points but no names keeps the order. */
  lemma SameNamesOrder(ts: seq<Tagged>, gs: seq<Group>, gs': seq<Group>)
    requires InFirstNamedOrder(ts, gs)
    requires |gs'| == |gs| && forall i :: 0 <= i < |gs| ==> gs'[i].name == gs[i].name
    ensures InFirstNamedOrder(ts, gs')
  {
  }

  /**
   * The `exercises` object lists its names in the order they first occur in
   * the log: a name gets its key at its first named entry, even one with no
   * positive weight, and later entries only push points.
   */
  lemma {:induction false} GroupTableOrder(ts: seq<Tagged>)
    ensures InFirstNamedOrder(ts, GroupTable(ts))
  {
    if |ts| > 0 {
      GroupTableOrder(ts[..|ts| - 1]);
      GroupTableStepOrder(ts);
    }
  }

  /** The last entry of a log keeps the groups of the entries before it in order of first occurrence. */
  lemma GroupTableStepOrder(ts: seq<Tagged>)
    requires |ts| > 0
    requires InFirstNamedOrder(ts[..|ts| - 1], GroupTable(ts[..|ts| - 1]))
    ensures InFirstNamedOrder(ts, GroupTable(ts))
  {
    var prefix := ts[..|ts| - 1];
    var t := ts[|ts| - 1];
    var gs := GroupTable(prefix);
    assert GroupTable(ts) == UpdateGroup(gs, t);
    TableCovers(prefix, gs);
    UpdateGroupOrder(prefix, gs, t);
    assert prefix + [t] == ts;
  }

  /** Filtering the groups keeps them in order of first occurrence. */
  lemma KeepGroupsOrder(ts: seq<Tagged>, gs: seq<Group>, p: Group -> bool)
    requires InFirstNamedOrder(ts, gs)
    ensures InFirstNamedOrder(ts, Keep(gs, p))
  {
    var r := Keep(gs, p);
    forall i, j | 0 <= i < j < |r|
      ensures FirstNamed(ts, r[i].name) < FirstNamed(ts, r[j].name)
    {
      var a, b := KeepOrder(gs, p, i, j);
    }
    forall i | 0 <= i < |r|
      ensures FirstNamed(ts, r[i].name) < |ts|
    {
      assert r[i] in gs;
    }
  }

  // ---------------------------------------------------------------------------
  // Grouping as written, with names inherited from `Object.prototype`
  // ---------------------------------------------------------------------------

  /** The outcome of the grouping `forEach` as written: the groups, or the `TypeError` it throws. */
  datatype Grouping = Grouped(groups: seq<Group>) | TypeError

  /** An entry whose name `exercises[ex.nom]` finds on `Object.prototype` and whose point would be pushed. */
  predicate PushesOntoInherited(t: Tagged)
  {
    t.name in ObjectPrototypeKeys && t.entry.weight > 0.0
  }

  /**
   * One grouping step as written. For an inherited name the test
   * `!exercises[ex.nom]` finds the inherited value, so no group is opened, and
   * a positive weight is pushed onto that value's missing `sessions`, which
   * throws; an entry of zero weight is skipped.
   */
  function UpdateGroupAsWritten(gs: seq<Group>, t: Tagged): Grouping
  {
    if t.name in ObjectPrototypeKeys then
      if t.entry.weight > 0.0 then TypeError else Grouped(gs)
    else Grouped(UpdateGroup(gs, t))
  }

  /** The grouping `forEach` as written: the first throwing step ends it. */
  function GroupTableAsWritten(ts: seq<Tagged>): Grouping
  {
    if |ts| == 0 then Grouped([])
    else
      match GroupTableAsWritten(ts[..|ts| - 1])
      case TypeError => TypeError
      case Grouped(gs) => UpdateGroupAsWritten(gs, ts[|ts| - 1])
  }

  /** The entries whose name is not inherited, in log order. */
  function OwnNamed(ts: seq<Tagged>): (r: seq<Tagged>)
    ensures forall k :: 0 <= k < |r| ==> r[k].name !in ObjectPrototypeKeys
  {
    if |ts| == 0 then []
    else
      var t := ts[|ts| - 1];
      OwnNamed(ts[..|ts| - 1]) + (if t.name in ObjectPrototypeKeys then [] else [t])
  }

  /** As written, the grouping throws exactly when some entry with an inherited name has a positive weight. */
  lemma {:induction false} GroupTableAsWrittenThrows(ts: seq<Tagged>)
    ensures GroupTableAsWritten(ts).TypeError? <==> exists k :: 0 <= k < |ts| && PushesOntoInherited(ts[k])
  {
    if |ts| > 0 {
      var prefix := ts[..|ts| - 1];
      GroupTableAsWrittenThrows(prefix);
      assert forall k :: 0 <= k < |prefix| ==> prefix[k] == ts[k];
      if exists k :: 0 <= k < |ts| && PushesOntoInherited(ts[k]) {
        var k :| 0 <= k < |ts| && PushesOntoInherited(ts[k]);
        if k < |prefix| {
          assert PushesOntoInherited(prefix[k]);
        }
      }
    }
  }

  /** When the grouping does not throw, it is the grouping of the entries whose names are not inherited. */
  lemma {:induction false} GroupTableAsWrittenOwn(ts: seq<Tagged>)
    ensures GroupTableAsWritten(ts).Grouped? ==> GroupTableAsWritten(ts).groups == GroupTable(OwnNamed(ts))
  {
    if |ts| > 0 {
      var prefix := ts[..|ts| - 1];
      var t := ts[|ts| - 1];
      GroupTableAsWrittenOwn(prefix);
      var own := OwnNamed(prefix);
      if t.name !in ObjectPrototypeKeys {
        assert OwnNamed(ts) == own + [t];
        assert (own + [t])[..|own|] == own;
      } else {
        assert OwnNamed(ts) == own + [];
        assert own + [] == own;
      }
    }
  }

  /** One entry named `constructor` with a 50 kg set makes the grouping throw as written, where one group is intended. */
  lemma ConstructorGroupThrows()
    ensures var t := Tagged("constructor", Entry(DateTime(2024, 0, 15, 0), 50.0, 10.0, 500.0));
      && GroupTableAsWritten([t]) == TypeError
      && GroupTable([t]) == [Group("constructor", [t.entry])]
  {
    var t := Tagged("constructor", Entry(DateTime(2024, 0, 15, 0), 50.0, 10.0, 500.0));
    assert [t][..0] == [];
    assert GroupTable([t]) == UpdateGroup([], t);
  }

  // ---------------------------------------------------------------------------
  // Chronological order and summaries
  // ---------------------------------------------------------------------------

  /** The sort key that puts earlier points first under a descending sort. */
  function Earliness(e: Entry): real { -(Instant(e.date) as real) }

  predicate Chronological(es: seq<Entry>)
  {
    forall i, j :: 0 <= i < j < |es| ==> Instant(es[i].date) <= Instant(es[j].date)
  }

  /**
   * Points of the same instant stand in `r` in the order they have in `es`
   * (`Earliness` is one-to-one on instants).
   */
  ghost predicate SameDateOrder(r: seq<Entry>, es: seq<Entry>)
  {
    StableBy(r, es, Earliness)
  }

  /**
   * `sort((a, b) => new Date(a.date) - new Date(b.date))`: earliest first, and
   * stable, so points of one date keep their log order.
   */
  function SortByDate(es: seq<Entry>): (r: seq<Entry>)
    ensures Chronological(r)
    ensures multiset(r) == multiset(es)
    ensures |r| == |es|
    ensures SameDateOrder(r, es)
  {
    var r := SortDesc(es, Earliness);
    assert forall i, j :: 0 <= i < j < |r| ==> Earliness(r[i]) >= Earliness(r[j]);
    r
  }

  /** The contract of `SortByDate` determines its result: any chronological, date-stable permutation is it. */
  lemma SortByDateUnique(r: seq<Entry>, es: seq<Entry>)
    requires Chronological(r) && multiset(r) == multiset(es) && SameDateOrder(r, es)
    ensures r == SortByDate(es)
  {
    var s := SortByDate(es);
    assert NonIncreasing(r, Earliness) by {
      forall i, j | 0 <= i < j < |r|
        ensures Earliness(r[i]) >= Earliness(r[j])
      {
        assert Instant(r[i].date) <= Instant(r[j].date);
      }
    }
    assert NonIncreasing(s, Earliness) by {
      forall i, j | 0 <= i < j < |s|
        ensures Earliness(s[i]) >= Earliness(s[j])
      {
        assert Instant(s[i].date) <= Instant(s[j].date);
      }
    }
    assert SameDateOrder(r, s) by {
      forall v
        ensures WithKey(r, Earliness, v) == WithKey(s, Earliness, v)
      {
        assert WithKey(r, Earliness, v) == WithKey(es, Earliness, v);
        assert WithKey(s, Earliness, v) == WithKey(es, Earliness, v);
      }
    }
    SortDescUnique(r, s, Earliness);
  }

  /** Of two points of one date, the one earlier in the log comes first after sorting. */
  lemma SortByDateKeepsTies(es: seq<Entry>, i: nat, j: nat)
    requires i < j < |SortByDate(es)| && SortByDate(es)[i].date == SortByDate(es)[j].date
    ensures exists p, q :: 0 <= p < q < |es| && es[p] == SortByDate(es)[i] && es[q] == SortByDate(es)[j]
  {
    var r := SortByDate(es);
    assert Earliness(r[i]) == Earliness(r[j]);
    StableKeepsTies(r, es, Earliness, i, j);
  }

  /** `Math.max(...weights)` of a non-empty list of points. */
  function MaxEntryWeight(es: seq<Entry>): (w: real)
    requires |es| > 0
    ensures forall i :: 0 <= i < |es| ==> es[i].weight <= w
    ensures exists i :: 0 <= i < |es| && es[i].weight == w
  {
    if |es| == 1 then es[0].weight
    else
      var prefix := es[..|es| - 1];
      var m := MaxEntryWeight(prefix);
      assert forall i :: 0 <= i < |prefix| ==> es[i] == prefix[i];
      var x := es[|es| - 1].weight;
      if x > m then x else m
  }

  datatype Trend = Up | Down | Stable

  /** `weightProgress`: the change from the first weight to the last, in percent of the first. */
  function WeightProgress(first: real, last: real): real
    requires first > 0.0
  {
    (last - first) / first * 100.0
  }

  /** The percentage thresholds of the trend, restated without division. */
  lemma TrendThresholds(first: real, last: real)
    requires first > 0.0
    ensures WeightProgress(first, last) > 5.0 <==> 20.0 * last > 21.0 * first
    ensures WeightProgress(first, last) < -5.0 <==> 20.0 * last < 19.0 * first
  {
    var q := (last - first) / first;
    assert q * first == last - first;
    var d := 20.0 * last - 21.0 * first;
    assert d == (20.0 * q - 1.0) * first;
    var d' := 20.0 * last - 19.0 * first;
    assert d' == (20.0 * q + 1.0) * first;
    if 20.0 * q - 1.0 > 0.0 {
      MulLt(0.0, 20.0 * q - 1.0, first);
    } else {
      MulLe(20.0 * q - 1.0, 0.0, first);
    }
    if 20.0 * q + 1.0 < 0.0 {
      MulLt(20.0 * q + 1.0, 0.0, first);
    } else {
      MulLe(0.0, 20.0 * q + 1.0, first);
    }
  }

  /** `up` above +5 percent, `down` below -5 percent, `stable` in between. */
  function TrendOf(first: real, last: real): (r: Trend)
    requires first > 0.0
    ensures r == Up <==> 20.0 * last > 21.0 * first
    ensures r == Down <==> 20.0 * last < 19.0 * first
  {
    TrendThresholds(first, last);
    var wp := WeightProgress(first, last);
    if wp > 5.0 then Up else if wp < -5.0 then Down else Stable
  }

  /** One element of `getExercisesForEvolution`'s result. */
  datatype Evolution = Evolution(
    name: string,
    entries: seq<Entry>,
    trend: Trend,
    progress: int,
    lastWeight: real,
    bestWeight: real,
    sessionsCount: nat)

  function EvolutionCount(e: Evolution): real { e.sessionsCount as real }

  /** A group the summary step can handle: two points or more, all of positive weight. */
  predicate Summarizable(g: Group)
  {
    |g.entries| >= 2 && forall j :: 0 <= j < |g.entries| ==> g.entries[j].weight > 0.0
  }

  /**
   * `e` is the summary of group `g`: its points in date order (points of one
   * date in log order, so the first and last point are determined), the trend from
   * the first to the last, the rounded size of that change, the last and the
   * best weight, and the number of points.
   */
  ghost predicate Summarizes(e: Evolution, g: Group)
  {
    && e.name == g.name && e.sessionsCount == |g.entries|
    && multiset(e.entries) == multiset(g.entries) && Chronological(e.entries)
    && SameDateOrder(e.entries, g.entries)
    && |e.entries| == |g.entries| >= 2 && e.entries[0].weight > 0.0
    && e.lastWeight == e.entries[|e.entries| - 1].weight
    && (e.trend == Up <==> 20.0 * e.lastWeight > 21.0 * e.entries[0].weight)
    && (e.trend == Down <==> 20.0 * e.lastWeight < 19.0 * e.entries[0].weight)
    && e.progress as real - 0.5 <= Abs(WeightProgress(e.entries[0].weight, e.lastWeight)) < e.progress as real + 0.5
    && e.lastWeight <= e.bestWeight
    && (forall i :: 0 <= i < |e.entries| ==> e.entries[i].weight <= e.bestWeight)
    && (exists i :: 0 <= i < |e.entries| && e.entries[i].weight == e.bestWeight)
  }

  /** The `map` step of `getExercisesForEvolution` for a group of at least two points. */
  function Summarize(g: Group): (r: Evolution)
    requires Summarizable(g)
    ensures Summarizes(r, g)
    ensures r.entries == SortByDate(g.entries)
  {
    var es := SortByDate(g.entries);
    assert es[0] in multiset(g.entries);
    var first := es[0];
    var last := es[|es| - 1];
    var wp := WeightProgress(first.weight, last.weight);
    Evolution(g.name, es, TrendOf(first.weight, last.weight), Round(Abs(wp)), last.weight,
      MaxEntryWeight(es), |g.entries|)
  }

  // ---------------------------------------------------------------------------
  // The list of charted exercises
  // ---------------------------------------------------------------------------

  /** Groups with at least two points are charted (`filter(ex => ex.sessions.length >= 2)`). */
  predicate Charted(g: Group)
  {
    |g.entries| >= 2
  }

  function EvolutionName(e: Evolution): string { e.name }

  /** The `map` of `getExercisesForEvolution` over the charted groups. */
  function SummarizeAll(gs: seq<Group>): (r: seq<Evolution>)
    requires forall i :: 0 <= i < |gs| ==> Summarizable(gs[i])
    ensures |r| == |gs|
    ensures forall i :: 0 <= i < |gs| ==> r[i] == Summarize(gs[i])
  {
    seq(|gs|, i requires 0 <= i < |gs| && Summarizable(gs[i]) => Summarize(gs[i]))
  }

  /** Every summary of `r` summarizes exactly the points of its own name in `ts`. */
  ghost predicate SummariesOf(ts: seq<Tagged>, r: seq<Evolution>)
  {
    forall i :: 0 <= i < |r| ==>
      && r[i].name != ""
      && Summarizes(r[i], Group(r[i].name, QualEntries(ts, r[i].name)))
      && r[i] == Summarize(Group(r[i].name, QualEntries(ts, r[i].name)))
  }

  /** Every name with at least two positive-weight points has a summary in `r`. */
  predicate ChartsEveryName(ts: seq<Tagged>, r: seq<Evolution>)
  {
    forall k :: 0 <= k < |ts| && ts[k].name != "" && |QualEntries(ts, ts[k].name)| >= 2 ==>
      exists i :: 0 <= i < |r| && r[i].name == ts[k].name
  }

  /** The charted groups of a group table are summarizable and keep distinct names. */
  lemma ChartedGroups(ts: seq<Tagged>, gs: seq<Group>)
    requires IsGroupTable(ts, gs)
    ensures forall i :: 0 <= i < |Keep(gs, Charted)| ==> Summarizable(Keep(gs, Charted)[i])
    ensures forall i :: 0 <= i < |Keep(gs, Charted)| ==>
      Keep(gs, Charted)[i].name != "" && Keep(gs, Charted)[i].entries == QualEntries(ts, Keep(gs, Charted)[i].name)
    ensures DistinctBy(Keep(gs, Charted), GroupName)
  {
    var kept := Keep(gs, Charted);
    forall i | 0 <= i < |kept|
      ensures Summarizable(kept[i])
      ensures kept[i].name != "" && kept[i].entries == QualEntries(ts, kept[i].name)
    {
      assert kept[i] in kept;
      var j :| 0 <= j < |gs| && gs[j] == kept[i];
    }
    DistinctByKeep(gs, Charted, GroupName);
  }

  /** Summarizing the charted groups of a table gives distinct, faithful summaries. */
  lemma SummariesOfTable(ts: seq<Tagged>, kept: seq<Group>, summaries: seq<Evolution>)
    requires forall i :: 0 <= i < |kept| ==> kept[i].name != "" && kept[i].entries == QualEntries(ts, kept[i].name)
    requires DistinctBy(kept, GroupName)
    requires forall i :: 0 <= i < |kept| ==> Summarizable(kept[i])
    requires |summaries| == |kept| && forall i :: 0 <= i < |kept| ==> summaries[i] == Summarize(kept[i])
    ensures DistinctBy(summaries, EvolutionName)
    ensures SummariesOf(ts, summaries)
  {
    forall i, j | 0 <= i < j < |summaries|
      ensures EvolutionName(summaries[i]) != EvolutionName(summaries[j])
    {
      assert GroupName(kept[i]) != GroupName(kept[j]);
    }
    forall i | 0 <= i < |summaries|
      ensures summaries[i].name != "" && Summarizes(summaries[i], Group(summaries[i].name, QualEntries(ts, summaries[i].name)))
      ensures summaries[i] == Summarize(Group(summaries[i].name, QualEntries(ts, summaries[i].name)))
    {
      assert kept[i] == Group(summaries[i].name, QualEntries(ts, summaries[i].name));
    }
  }

  /** Reordering a list of summaries keeps each one faithful and every name present. */
  lemma SummariesReordered(ts: seq<Tagged>, a: seq<Evolution>, b: seq<Evolution>)
    requires multiset(a) == multiset(b)
    requires SummariesOf(ts, a)
    ensures SummariesOf(ts, b)
    ensures ChartsEveryName(ts, a) ==> ChartsEveryName(ts, b)
  {
    forall i | 0 <= i < |b|
      ensures b[i] in a
    {
      assert b[i] in multiset(a);
    }
    SummariesOfMembers(ts, a, b);
    if ChartsEveryName(ts, a) {
      forall j | 0 <= j < |a|
        ensures a[j] in b
      {
        assert a[j] in multiset(b);
      }
      ChartsEveryNameMembers(ts, a, b);
    }
  }

  /** Faithful summaries stay faithful in any list drawn from them. */
  lemma SummariesOfMembers(ts: seq<Tagged>, a: seq<Evolution>, b: seq<Evolution>)
    requires SummariesOf(ts, a)
    requires forall i :: 0 <= i < |b| ==> b[i] in a
    ensures SummariesOf(ts, b)
  {
    forall i | 0 <= i < |b|
      ensures b[i].name != "" && Summarizes(b[i], Group(b[i].name, QualEntries(ts, b[i].name)))
      ensures b[i] == Summarize(Group(b[i].name, QualEntries(ts, b[i].name)))
    {
      var j :| 0 <= j < |a| && a[j] == b[i];
    }
  }

  /** Every name stays present in any list holding all the summaries. */
  lemma ChartsEveryNameMembers(ts: seq<Tagged>, a: seq<Evolution>, b: seq<Evolution>)
    requires ChartsEveryName(ts, a)
    requires forall j :: 0 <= j < |a| ==> a[j] in b
    ensures ChartsEveryName(ts, b)
  {
    forall k | 0 <= k < |ts| && ts[k].name != "" && |QualEntries(ts, ts[k].name)| >= 2
      ensures exists i :: 0 <= i < |b| && b[i].name == ts[k].name
    {
      var j :| 0 <= j < |a| && a[j].name == ts[k].name;
      var i :| 0 <= i < |b| && b[i] == a[j];
    }
  }

  /** Every name with two or more points has a charted group, hence a summary. */
  lemma ChartedCoverage(ts: seq<Tagged>, gs: seq<Group>, summaries: seq<Evolution>)
    requires IsGroupTable(ts, gs)
    requires |summaries| == |Keep(gs, Charted)|
    requires forall i :: 0 <= i < |summaries| ==> summaries[i].name == Keep(gs, Charted)[i].name
    ensures ChartsEveryName(ts, summaries)
  {
    var kept := Keep(gs, Charted);
    forall k | 0 <= k < |ts| && ts[k].name != "" && |QualEntries(ts, ts[k].name)| >= 2
      ensures exists i :: 0 <= i < |summaries| && summaries[i].name == ts[k].name
    {
      var g :| 0 <= g < |gs| && gs[g].name == ts[k].name;
      assert gs[g] in kept;
      var j :| 0 <= j < |kept| && kept[j] == gs[g];
      assert summaries[j].name == ts[k].name;
    }
  }

  /** Of two summaries with as many points, the one whose name first occurs earlier in `ts` comes first. */
  predicate ChartTiesInFirstOrder(ts: seq<Tagged>, r: seq<Evolution>)
  {
    forall i, j :: 0 <= i < j < |r| && r[i].sessionsCount == r[j].sessionsCount ==>
      FirstNamed(ts, r[i].name) < FirstNamed(ts, r[j].name)
  }

  /** Reordering summaries listed in first-occurrence order, keeping each count's order, lists ties in that order. */
  lemma StableChartsKeepTies(ts: seq<Tagged>, kept: seq<Group>, summaries: seq<Evolution>, r: seq<Evolution>)
    requires InFirstNamedOrder(ts, kept)
    requires |summaries| == |kept| && forall k :: 0 <= k < |kept| ==> summaries[k].name == kept[k].name
    requires StableBy(r, summaries, EvolutionCount)
    ensures ChartTiesInFirstOrder(ts, r)
  {
    forall i, j | 0 <= i < j < |r| && r[i].sessionsCount == r[j].sessionsCount
      ensures FirstNamed(ts, r[i].name) < FirstNamed(ts, r[j].name)
    {
      StableChartPair(ts, kept, summaries, r, i, j);
    }
  }

  /** Two summaries of equal count keep the order of the groups they come from. */
  lemma StableChartPair(ts: seq<Tagged>, kept: seq<Group>, summaries: seq<Evolution>, r: seq<Evolution>, i: nat, j: nat)
    requires InFirstNamedOrder(ts, kept)
    requires |summaries| == |kept| && forall k :: 0 <= k < |kept| ==> summaries[k].name == kept[k].name
    requires StableBy(r, summaries, EvolutionCount)
    requires i < j < |r| && r[i].sessionsCount == r[j].sessionsCount
    ensures FirstNamed(ts, r[i].name) < FirstNamed(ts, r[j].name)
  {
    assert EvolutionCount(r[i]) == EvolutionCount(r[j]);
    StableKeepsTies(r, summaries, EvolutionCount, i, j);
    var p, q :| 0 <= p < q < |summaries| && summaries[p] == r[i] && summaries[q] == r[j];
    assert kept[p].name == r[i].name && kept[q].name == r[j].name;
  }

  /**
   * `getExercisesForEvolution`: one summary per name with at least two
   * positive-weight points, each summarizing exactly that name's points, every
   * such name present once, most points first, and summaries with as many
   * points in the order their names first occur in the log.
   */
  function ExercisesForEvolution(ss: seq<Session>): (r: seq<Evolution>)
    ensures NonIncreasing(r, EvolutionCount)
    ensures DistinctBy(r, EvolutionName)
    ensures SummariesOf(TaggedEntries(ss), r)
    ensures ChartsEveryName(TaggedEntries(ss), r)
    ensures ChartTiesInFirstOrder(TaggedEntries(ss), r)
  {
    ChartsOf(TaggedEntries(ss))
  }

  /**
   * `ExercisesForEvolution` over the tagged entries of a log. Ties in the
   * number of points keep the `Object.values` order of the `exercises` object,
   * the order in which names first occur, even at an entry of no weight.
   */
  function ChartsOf(ts: seq<Tagged>): (r: seq<Evolution>)
    ensures NonIncreasing(r, EvolutionCount)
    ensures DistinctBy(r, EvolutionName)
    ensures SummariesOf(ts, r)
    ensures ChartsEveryName(ts, r)
    ensures ChartTiesInFirstOrder(ts, r)
  {
    var gs := GroupTable(ts);
    ChartedGroups(ts, gs);
    var kept := Keep(gs, Charted);
    var summaries := SummarizeAll(kept);
    SummariesOfTable(ts, kept, summaries);
    ChartedCoverage(ts, gs, summaries);
    GroupTableOrder(ts);
    KeepGroupsOrder(ts, gs, Charted);
    var r := SortDesc(summaries, EvolutionCount);
    StableChartsKeepTies(ts, kept, summaries, r);
    DistinctByPermutation(summaries, r, EvolutionName);
    SummariesReordered(ts, summaries, r);
    r
  }

  // ---------------------------------------------------------------------------
  // One exercise over a period
  // ---------------------------------------------------------------------------

  /** The chart periods; `Unlisted` is any other value, which leaves the cutoff at the current time. */
  datatype Period = Days7 | Days30 | Months3 | Months6 | Year1 | Unlisted

  /** The `period = '30d'` default: an omitted period (`None`) is the 30-day window. */
  function PeriodArg(p: Option<Period>): (r: Period)
    ensures p.None? ==> r == Days30
    ensures p.Some? ==> r == p.value
  {
    match p
    case None => Days30
    case Some(q) => q
  }

  /**
   * The `switch (period)` of `getExerciseEvolution`: the instant before which
   * sessions are ignored. The day periods go back exactly 7 and 30 days; the
   * month periods go back 3, 6 and 12 calendar months to the same day of the
   * month and time of day, rolled over into the next month when that day does
   * not exist there, 28 to 31 days per month; an unlisted period leaves the
   * cutoff at the current instant.
   */
  function Cutoff(now: Moment, p: Period): (c: int)
    ensures p == Days7 ==> c == Instant(now) - 7 * MsPerDay
    ensures p == Days30 ==> c == Instant(now) - 30 * MsPerDay
    ensures p == Months3 ==> c == CivilInstant(MonthsOn(now, -3))
    ensures p == Months6 ==> c == CivilInstant(MonthsOn(now, -6))
    ensures p == Year1 ==> c == CivilInstant(DateTime(now.year - 1, now.month, now.day, now.ms))
    ensures p == Months3 ==> Instant(now) - 93 * MsPerDay <= c <= Instant(now) - 84 * MsPerDay
    ensures p == Months6 ==> Instant(now) - 186 * MsPerDay <= c <= Instant(now) - 168 * MsPerDay
    ensures p == Year1 ==> Instant(now) - 372 * MsPerDay <= c <= Instant(now) - 336 * MsPerDay
    ensures p == Unlisted ==> c == Instant(now)
    ensures WholeDaysApart(c, Instant(now))
  {
    match p
    case Days7 => DaysBackFacts(now, 7); ShiftDays(now, -7)
    case Days30 => DaysBackFacts(now, 30); ShiftDays(now, -30)
    case Months3 => MonthsBackFacts(now, 3, 93, 84); ShiftMonths(now, -3)
    case Months6 => MonthsBackFacts(now, 6, 186, 168); ShiftMonths(now, -6)
    case Year1 => YearBackFacts(now); ShiftYears(now, -1)
    case Unlisted => NoDays(Instant(now)); Instant(now)
  }

  /** `setDate(getDate() - k)` goes back exactly `k` whole days. */
  lemma DaysBackFacts(now: Moment, k: int)
    ensures ShiftDays(now, -k) == Instant(now) - k * MsPerDay
    ensures WholeDaysApart(ShiftDays(now, -k), Instant(now))
  {
    ShiftDaysExact(now, -k);
    WholeDays(-k, 0, 0);
  }

  /** `setMonth(getMonth() - k)` goes back `k` months to the same day of the month, `hi` to `lo` whole days. */
  lemma MonthsBackFacts(now: Moment, k: int, lo: int, hi: int)
    requires k > 0 && lo == 31 * k && hi == 28 * k
    ensures ShiftMonths(now, -k) == CivilInstant(MonthsOn(now, -k))
    ensures Instant(now) - lo * MsPerDay <= ShiftMonths(now, -k) <= Instant(now) - hi * MsPerDay
    ensures WholeDaysApart(ShiftMonths(now, -k), Instant(now))
  {
  }

  /** `setFullYear(getFullYear() - 1)` goes back twelve months to the same day of the month. */
  lemma YearBackFacts(now: Moment)
    ensures ShiftYears(now, -1) == CivilInstant(DateTime(now.year - 1, now.month, now.day, now.ms))
    ensures Instant(now) - 372 * MsPerDay <= ShiftYears(now, -1) <= Instant(now) - 336 * MsPerDay
    ensures WholeDaysApart(ShiftYears(now, -1), Instant(now))
  {
    MonthsBackFacts(now, 12, 372, 336);
  }

  /** An instant lies a whole number of days from itself. */
  lemma NoDays(x: int)
    ensures WholeDaysApart(x, x)
  {
  }

  /** Three months back from 15 August 2024 is 15 May 2024, 92 days earlier and not 90. */
  lemma CutoffSameDay()
    ensures Cutoff(DateTime(2024, 7, 15, 0), Months3) == Instant(DateTime(2024, 4, 15, 0))
    ensures Cutoff(DateTime(2024, 7, 15, 0), Months3) == Instant(DateTime(2024, 7, 15, 0)) - 92 * MsPerDay
  {
    assert MonthsOn(DateTime(2024, 7, 15, 0), -3) == DateTime(2024, 4, 15, 0);
    MidMonthDays();
  }

  lemma MidMonthDays()
    ensures DaysFromCivil(2024, 5, 15) == 19858 && DaysFromCivil(2024, 8, 15) == 19950
  {
  }

  /** Three months back from 31 May 2024 is "31 February", which rolls over to 2 March 2024. */
  lemma CutoffRollsOver()
    ensures Cutoff(DateTime(2024, 4, 31, 0), Months3) == Instant(DateTime(2024, 2, 2, 0))
  {
    assert MonthsOn(DateTime(2024, 4, 31, 0), -3) == DateTime(2024, 1, 31, 0);
    FebruaryOverflowDays();
  }

  lemma FebruaryOverflowDays()
    ensures DaysFromCivil(2024, 2, 31) == 19784 == DaysFromCivil(2024, 3, 2)
  {
  }

  /** One year back from 29 February 2024 is "29 February 2023", which rolls over to 1 March 2023. */
  lemma CutoffLeapDay()
    ensures Cutoff(DateTime(2024, 1, 29, 0), Year1) == Instant(DateTime(2023, 2, 1, 0))
  {
    LeapDayDays();
  }

  lemma LeapDayDays()
    ensures DaysFromCivil(2023, 2, 29) == 19417 == DaysFromCivil(2023, 3, 1)
  {
  }

  /** The longer the period, the earlier its cutoff. */
  lemma CutoffsOrdered(now: Moment)
    ensures Cutoff(now, Year1) < Cutoff(now, Months6) < Cutoff(now, Months3)
    ensures Cutoff(now, Months3) < Cutoff(now, Days30) < Cutoff(now, Days7) < Cutoff(now, Unlisted)
  {
  }

  /** The point's session is not before the cutoff (`new Date(session.date) < cutoffDate` fails). */
  predicate NotBefore(t: Tagged, cutoff: int)
  {
    Instant(t.entry.date) >= cutoff
  }

  /** The tagged points whose session is not before the cutoff, in log order. */
  function Recent(ts: seq<Tagged>, cutoff: int): (r: seq<Tagged>)
    ensures |r| <= |ts|
  {
    if |ts| == 0 then []
    else
      var t := ts[|ts| - 1];
      Recent(ts[..|ts| - 1], cutoff) + (if NotBefore(t, cutoff) then [t] else [])
  }

  /** Nothing is dropped when no point is older than the cutoff. */
  lemma {:induction false} RecentAll(ts: seq<Tagged>, cutoff: int)
    requires forall k :: 0 <= k < |ts| ==> NotBefore(ts[k], cutoff)
    ensures Recent(ts, cutoff) == ts
  {
    if |ts| > 0 {
      var prefix := ts[..|ts| - 1];
      assert forall k :: 0 <= k < |prefix| ==> prefix[k] == ts[k];
      RecentAll(prefix, cutoff);
      assert prefix + [ts[|ts| - 1]] == ts;
    }
  }

  /**
   * The `forEach` of `getExerciseEvolution`: the positive-weight points of name
   * `n` whose session is not before the cutoff, in log order.
   */
  function WindowPoints(ts: seq<Tagged>, n: string, cutoff: int): (es: seq<Entry>)
    ensures forall i :: 0 <= i < |es| ==> es[i].weight > 0.0 && Instant(es[i].date) >= cutoff
  {
    if |ts| == 0 then []
    else
      var prefix := ts[..|ts| - 1];
      var t := ts[|ts| - 1];
      var rest := WindowPoints(prefix, n, cutoff);
      if NotBefore(t, cutoff) && t.name == n && t.entry.weight > 0.0 then rest + [t.entry] else rest
  }

  /** The window is the name's positive-weight points among the entries not before the cutoff. */
  lemma {:induction false} WindowPointsFilter(ts: seq<Tagged>, n: string, cutoff: int)
    ensures WindowPoints(ts, n, cutoff) == QualEntries(Recent(ts, cutoff), n)
  {
    if |ts| > 0 {
      var prefix := ts[..|ts| - 1];
      var t := ts[|ts| - 1];
      var before := Recent(prefix, cutoff);
      WindowPointsFilter(prefix, n, cutoff);
      if NotBefore(t, cutoff) {
        assert Recent(ts, cutoff) == before + [t];
        QualEntriesSnoc(before, t, n);
      } else {
        assert Recent(ts, cutoff) == before + [];
        assert before + [] == before;
        assert WindowPoints(ts, n, cutoff) == WindowPoints(prefix, n, cutoff);
      }
    }
  }

  /** The `reduce` that picks the first point of greatest weight. */
  function FirstMaxIndex(es: seq<Entry>): (i: nat)
    requires |es| > 0
    ensures i < |es|
    ensures forall j :: 0 <= j < |es| ==> es[j].weight <= es[i].weight
    ensures forall j :: 0 <= j < i ==> es[j].weight < es[i].weight
  {
    if |es| == 1 then 0
    else
      var prefix := es[..|es| - 1];
      var m := FirstMaxIndex(prefix);
      assert forall j :: 0 <= j < |prefix| ==> es[j] == prefix[j];
      if es[|es| - 1].weight > es[m].weight then |es| - 1 else m
  }

  /** The result of `getExerciseEvolution`, before its numbers are formatted as text. */
  datatype History = History(entries: seq<Entry>, progression: int, best: Option<real>, last: Option<real>)

  /** Positive weights, as every point of a window has. */
  predicate PositiveWeights(es: seq<Entry>)
  {
    forall i :: 0 <= i < |es| ==> es[i].weight > 0.0
  }

  /**
   * The statistics part of `getExerciseEvolution` over the sorted points: the
   * rounded change from the first weight to the last when there are two points
   * or more, and the best and the last weight when there is at least one.
   */
  function HistoryFrom(es: seq<Entry>): (r: History)
    requires PositiveWeights(es)
    ensures r.entries == es
    ensures r.best.None? <==> |es| == 0
    ensures r.last.None? <==> |es| == 0
    ensures |es| > 0 ==> r.last == Some(es[|es| - 1].weight)
    ensures r.best.Some? ==> (exists i :: 0 <= i < |es| && es[i].weight == r.best.value)
    ensures r.best.Some? ==> forall i :: 0 <= i < |es| ==> es[i].weight <= r.best.value
    ensures |es| < 2 ==> r.progression == 0
    ensures |es| >= 2 ==>
      r.progression as real - 0.5 <= WeightProgress(es[0].weight, es[|es| - 1].weight) < r.progression as real + 0.5
  {
    if |es| >= 2 then
      var first := es[0];
      var last := es[|es| - 1];
      var bestIdx := FirstMaxIndex(es);
      History(es, Round(WeightProgress(first.weight, last.weight)), Some(es[bestIdx].weight), Some(last.weight))
    else if |es| == 1 then
      History(es, 0, Some(es[0].weight), Some(es[0].weight))
    else
      History(es, 0, None, None)
  }

  /** `getExerciseEvolution` over the tagged points of a log and a cutoff instant. */
  function HistoryOf(ts: seq<Tagged>, n: string, cutoff: int): (r: History)
    ensures multiset(r.entries) == multiset(WindowPoints(ts, n, cutoff)) && Chronological(r.entries)
    ensures SameDateOrder(r.entries, WindowPoints(ts, n, cutoff))
    ensures forall i :: 0 <= i < |r.entries| ==> r.entries[i].weight > 0.0 && Instant(r.entries[i].date) >= cutoff
    ensures PositiveWeights(r.entries) && r == HistoryFrom(r.entries)
  {
    var window := WindowPoints(ts, n, cutoff);
    var es := SortByDate(window);
    forall i | 0 <= i < |es|
      ensures es[i].weight > 0.0 && Instant(es[i].date) >= cutoff
    {
      assert es[i] in multiset(window);
    }
    HistoryFrom(es)
  }

  /**
   * `getExerciseEvolution(exerciseName, period)` read at the instant `now`: the
   * positive-weight points of the exercise dated at or after the period's
   * cutoff, earliest first and points of one date in log order, with the
   * statistics `HistoryFrom` states.
   */
  function ExerciseEvolution(ss: seq<Session>, n: string, p: Period, now: Moment): (r: History)
    ensures multiset(r.entries) == multiset(WindowPoints(TaggedEntries(ss), n, Cutoff(now, p)))
    ensures Chronological(r.entries)
    ensures SameDateOrder(r.entries, WindowPoints(TaggedEntries(ss), n, Cutoff(now, p)))
    ensures forall i :: 0 <= i < |r.entries| ==> r.entries[i].weight > 0.0 && Instant(r.entries[i].date) >= Cutoff(now, p)
    ensures PositiveWeights(r.entries) && r == HistoryFrom(r.entries)
  {
    HistoryOf(TaggedEntries(ss), n, Cutoff(now, p))
  }

  /** When no point is older than the cutoff, the window holds every positive-weight point of the name. */
  lemma WindowKeepsAll(ts: seq<Tagged>, n: string, cutoff: int)
    requires forall k :: 0 <= k < |ts| ==> NotBefore(ts[k], cutoff)
    ensures WindowPoints(ts, n, cutoff) == QualEntries(ts, n)
  {
    WindowPointsFilter(ts, n, cutoff);
    RecentAll(ts, cutoff);
  }

  /** Sorting keeps the weights positive. */
  lemma SortedPositive(es: seq<Entry>)
    requires PositiveWeights(es)
    ensures PositiveWeights(SortByDate(es))
  {
    var r := SortByDate(es);
    forall i | 0 <= i < |r|
      ensures r[i].weight > 0.0
    {
      assert r[i] in multiset(es);
    }
  }

  /** The history statistics of a group's points agree with its summary. */
  lemma HistoryFromMatchesSummarize(g: Group)
    requires Summarizable(g)
    ensures var es := SortByDate(g.entries);
      PositiveWeights(es) && HistoryFrom(es).last == Some(Summarize(g).lastWeight)
      && HistoryFrom(es).best == Some(Summarize(g).bestWeight)
  {
    var es := SortByDate(g.entries);
    SortedPositive(g.entries);
    SummaryWeights(g);
    HistoryWeights(es);
    SameMax(es, HistoryFrom(es).best.value, Summarize(g).bestWeight);
  }

  /** The weights a summary reports, read off its sorted points. */
  lemma SummaryWeights(g: Group)
    requires Summarizable(g)
    ensures var es := SortByDate(g.entries);
      && |es| >= 2 && Summarize(g).lastWeight == es[|es| - 1].weight
      && (forall i :: 0 <= i < |es| ==> es[i].weight <= Summarize(g).bestWeight)
      && (exists i :: 0 <= i < |es| && es[i].weight == Summarize(g).bestWeight)
  {
  }

  /** The weights a history of two points or more reports. */
  lemma HistoryWeights(es: seq<Entry>)
    requires PositiveWeights(es) && |es| >= 2
    ensures HistoryFrom(es).last == Some(es[|es| - 1].weight) && HistoryFrom(es).best.Some?
    ensures forall i :: 0 <= i < |es| ==> es[i].weight <= HistoryFrom(es).best.value
    ensures exists i :: 0 <= i < |es| && es[i].weight == HistoryFrom(es).best.value
  {
  }

  /** Two weights that both bound every point and are both attained are equal. */
  lemma SameMax(es: seq<Entry>, a: real, b: real)
    requires forall i :: 0 <= i < |es| ==> es[i].weight <= a && es[i].weight <= b
    requires exists i :: 0 <= i < |es| && es[i].weight == a
    requires exists i :: 0 <= i < |es| && es[i].weight == b
    ensures a == b
  {
    var i :| 0 <= i < |es| && es[i].weight == a;
    var j :| 0 <= j < |es| && es[j].weight == b;
    assert a <= b && b <= a;
  }

  /**
   * When the window holds all the points of a charted exercise (as it does when
   * none is older than the cutoff, by `WindowKeepsAll`), its history shows the
   * same points in the same order, the same last and the same best weight as
   * its summary.
   */
  lemma HistoryMatchesSummary(ts: seq<Tagged>, n: string, cutoff: int)
    requires WindowPoints(ts, n, cutoff) == QualEntries(ts, n)
    requires |QualEntries(ts, n)| >= 2
    ensures var h := HistoryOf(ts, n, cutoff);
      var e := Summarize(Group(n, QualEntries(ts, n)));
      h.entries == e.entries && h.last == Some(e.lastWeight) && h.best == Some(e.bestWeight)
  {
    var g := Group(n, QualEntries(ts, n));
    HistoryFromMatchesSummarize(g);
  }
}

=== FILE: lists.dfy ===
/**
 * Sequence operations the store and the statistics are built from:
 * `Array.prototype.find`/`findIndex`, `filter`, a left-to-right sum, and the
 * stable `sort` followed by `slice(0, k)`.
 */
module Lists {
  import opened Basics

  /** Left-to-right sum of `f` over `xs` (a `forEach` accumulating with `+=`). */
  function SumOf<T>(xs: seq<T>, f: T -> real): real
  {
    if |xs| == 0 then 0.0 else SumOf(xs[..|xs| - 1], f) + f(xs[|xs| - 1])
  }

  lemma {:induction false} SumOfConcat<T>(a: seq<T>, b: seq<T>, f: T -> real)
    ensures SumOf(a + b, f) == SumOf(a, f) + SumOf(b, f)
    decreases |b|
  {
    if |b| == 0 {
      assert a + b == a;
    } else {
      var b' := b[..|b| - 1];
      assert (a + b)[..|a + b| - 1] == a + b';
      SumOfConcat(a, b', f);
    }
  }

  /** `findIndex`: the first position whose element satisfies `p`, if any. */
  function FindFirst<T>(xs: seq<T>, p: T -> bool): (r: Option<nat>)
    ensures r.Some? ==> r.value < |xs| && p(xs[r.value])
    ensures r.Some? ==> forall j :: 0 <= j < r.value ==> !p(xs[j])
    ensures r.None? <==> forall j :: 0 <= j < |xs| ==> !p(xs[j])
  {
    if |xs| == 0 then None
    else if p(xs[0]) then Some(0)
    else match FindFirst(xs[1..], p)
      case None => None
      case Some(i) => Some(i + 1)
  }

  /** `filter`: the elements satisfying `p`, in their original order. */
  function Keep<T(!new)>(xs: seq<T>, p: T -> bool): (r: seq<T>)
    ensures |r| <= |xs|
    ensures forall x :: x in r <==> x in xs && p(x)
  {
    if |xs| == 0 then []
    else (if p(xs[0]) then [xs[0]] else []) + Keep(xs[1..], p)
  }

  /** Nothing is kept when no element satisfies the test. */
  lemma {:induction false} KeepNone<T(!new)>(xs: seq<T>, p: T -> bool)
    requires forall j :: 0 <= j < |xs| ==> !p(xs[j])
    ensures Keep(xs, p) == []
  {
    if |xs| > 0 {
      assert forall j :: 0 <= j < |xs[1..]| ==> xs[1..][j] == xs[j + 1];
      KeepNone(xs[1..], p);
    }
  }

  /** Filtering commutes with concatenation, so it keeps the relative order of what it keeps. */
  lemma {:induction false} KeepConcat<T(!new)>(a: seq<T>, b: seq<T>, p: T -> bool)
    ensures Keep(a + b, p) == Keep(a, p) + Keep(b, p)
    decreases |a|
  {
    if |a| == 0 {
      assert a + b == b;
    } else {
      assert (a + b)[0] == a[0];
      assert (a + b)[1..] == a[1..] + b;
      KeepConcat(a[1..], b, p);
    }
  }

  /** A filter that rejects nothing is the identity. */
  lemma {:induction false} KeepAll<T(!new)>(xs: seq<T>, p: T -> bool)
    requires forall j :: 0 <= j < |xs| ==> p(xs[j])
    ensures Keep(xs, p) == xs
  {
    if |xs| > 0 {
      KeepAll(xs[1..], p);
    }
  }

  /** Two filters with disjoint conditions together keep as many elements as the filter for either condition. */
  lemma {:induction false} KeepDisjointCount<T(!new)>(xs: seq<T>, p: T -> bool, q: T -> bool, pq: T -> bool)
    requires forall x :: !(p(x) && q(x))
    requires forall x :: pq(x) == (p(x) || q(x))
    ensures |Keep(xs, p)| + |Keep(xs, q)| == |Keep(xs, pq)|
  {
    if |xs| > 0 {
      KeepDisjointCount(xs[1..], p, q, pq);
    }
  }

  /** Every pair of positions is ordered non-increasingly by `key`. */
  predicate NonIncreasing<T>(xs: seq<T>, key: T -> real)
  {
    forall i, j :: 0 <= i < j < |xs| ==> key(xs[i]) >= key(xs[j])
  }

  /** Inserts x before the first element whose key does not exceed x's, so x precedes the equal keys that follow it in the input. */
  function InsertDesc<T>(x: T, ys: seq<T>, key: T -> real): (r: seq<T>)
    requires NonIncreasing(ys, key)
    ensures NonIncreasing(r, key)
    ensures multiset(r) == multiset(ys) + multiset{x}
    ensures |r| == |ys| + 1
  {
    if |ys| == 0 then [x]
    else if key(ys[0]) <= key(x) then [x] + ys
    else
      var rest := InsertDesc(x, ys[1..], key);
      BoundedByPermutation(rest, ys[1..], x, key, key(ys[0]));
      assert ys == [ys[0]] + ys[1..];
      [ys[0]] + rest
  }

  /** A permutation of `ys` plus `x` is bounded by whatever bounds `x` and every element of `ys`. */
  lemma BoundedByPermutation<T>(rs: seq<T>, ys: seq<T>, x: T, key: T -> real, b: real)
    requires multiset(rs) == multiset(ys) + multiset{x}
    requires key(x) <= b && forall j :: 0 <= j < |ys| ==> key(ys[j]) <= b
    ensures forall i :: 0 <= i < |rs| ==> key(rs[i]) <= b
  {
    forall i | 0 <= i < |rs|
      ensures key(rs[i]) <= b
    {
      assert rs[i] in multiset(rs);
      if rs[i] != x {
        assert rs[i] in multiset(ys);
        var j :| 0 <= j < |ys| && ys[j] == rs[i];
      }
    }
  }

  /**
   * Stable sort by `key`, largest first: the result of `sort((a, b) => key(b) - key(a))`.
   * Sorting ascending is sorting by the negated key.
   */
  function SortDesc<T>(xs: seq<T>, key: T -> real): (r: seq<T>)
    ensures NonIncreasing(r, key)
    ensures multiset(r) == multiset(xs)
    ensures |r| == |xs|
    ensures StableBy(r, xs, key)
  {
    if |xs| == 0 then []
    else
      assert xs == [xs[0]] + xs[1..];
      var rest := SortDesc(xs[1..], key);
      assert StableBy(InsertDesc(xs[0], rest, key), xs, key) by {
        forall v
          ensures WithKey(InsertDesc(xs[0], rest, key), key, v) == WithKey(xs, key, v)
        {
          InsertDescWithKey(xs[0], rest, key, v);
        }
      }
      InsertDesc(xs[0], rest, key)
  }

  /** The elements of `xs` whose key is `v`, in their order in `xs`. */
  function WithKey<T>(xs: seq<T>, key: T -> real, v: real): seq<T>
  {
    if |xs| == 0 then []
    else (if key(xs[0]) == v then [xs[0]] else []) + WithKey(xs[1..], key, v)
  }

  /**
   * `r` lists the elements of every key in the order `xs` lists them: what a
   * stable sort by `key` keeps of its input.
   */
  ghost predicate StableBy<T>(r: seq<T>, xs: seq<T>, key: T -> real)
  {
    forall v :: WithKey(r, key, v) == WithKey(xs, key, v)
  }

  /** Inserting puts `x` in front of the elements of its own key and moves no other element past one of its key. */
  lemma {:induction false} InsertDescWithKey<T>(x: T, ys: seq<T>, key: T -> real, v: real)
    requires NonIncreasing(ys, key)
    ensures WithKey(InsertDesc(x, ys, key), key, v) == (if key(x) == v then [x] else []) + WithKey(ys, key, v)
    decreases |ys|
  {
    if |ys| == 0 {
      WithKeyCons(x, [], key, v);
      assert [x] + [] == [x];
    } else if key(ys[0]) <= key(x) {
      WithKeyCons(x, ys, key, v);
    } else {
      InsertDescWithKeyDeeper(x, ys, key, v);
    }
  }

  /** The case where `x` goes past the head of `ys`, by the same statement for the tail. */
  lemma {:induction false} InsertDescWithKeyDeeper<T>(x: T, ys: seq<T>, key: T -> real, v: real)
    requires NonIncreasing(ys, key) && |ys| > 0 && key(ys[0]) > key(x)
    ensures WithKey(InsertDesc(x, ys, key), key, v) == (if key(x) == v then [x] else []) + WithKey(ys, key, v)
    decreases |ys|, 0
  {
    var rest := InsertDesc(x, ys[1..], key);
    assert InsertDesc(x, ys, key) == [ys[0]] + rest;
    WithKeyCons(ys[0], rest, key, v);
    WithKeyCons(ys[0], ys[1..], key, v);
    assert [ys[0]] + ys[1..] == ys;
    InsertDescWithKey(x, ys[1..], key, v);
  }

  /** Filtering by key looks at the head, then at the rest. */
  lemma WithKeyCons<T>(y: T, rest: seq<T>, key: T -> real, v: real)
    ensures WithKey([y] + rest, key, v) == (if key(y) == v then [y] else []) + WithKey(rest, key, v)
  {
    assert ([y] + rest)[0] == y && ([y] + rest)[1..] == rest;
  }

  /**
   * Order, permutation and stability determine a sort: two non-increasing
   * permutations of each other that keep each key's elements in the same order
   * are equal. So `SortDesc`'s contract fixes its result.
   */
  lemma {:induction false} SortDescUnique<T>(a: seq<T>, b: seq<T>, key: T -> real)
    requires NonIncreasing(a, key) && NonIncreasing(b, key)
    requires multiset(a) == multiset(b)
    requires StableBy(a, b, key)
    ensures a == b
    decreases |a|
  {
    assert |a| == |multiset(a)| == |multiset(b)| == |b|;
    if |a| > 0 {
      SameHead(a, b, key);
      StableTail(a, b, key);
      MultisetTail(a, b);
      SortDescUnique(a[1..], b[1..], key);
      assert a == [a[0]] + a[1..] && b == [b[0]] + b[1..];
    }
  }

  /** Two such lists start with the same element. */
  lemma SameHead<T>(a: seq<T>, b: seq<T>, key: T -> real)
    requires NonIncreasing(a, key) && NonIncreasing(b, key)
    requires multiset(a) == multiset(b) && |a| > 0 && |b| > 0
    requires StableBy(a, b, key)
    ensures a[0] == b[0]
  {
    assert a[0] in multiset(b) && b[0] in multiset(a);
    var i :| 0 <= i < |b| && b[i] == a[0];
    var j :| 0 <= j < |a| && a[j] == b[0];
    var k := key(a[0]);
    assert key(b[0]) == k;
    var wa := WithKey(a, key, k);
    var wb := WithKey(b, key, k);
    assert wa == [a[0]] + WithKey(a[1..], key, k);
    assert wb == [b[0]] + WithKey(b[1..], key, k);
    assert wa == wb;
    assert a[0] == wa[0] == wb[0] == b[0];
  }

  /** Dropping a common head keeps the order of every key. */
  lemma StableTail<T>(a: seq<T>, b: seq<T>, key: T -> real)
    requires |a| > 0 && |b| > 0 && a[0] == b[0]
    requires StableBy(a, b, key)
    ensures StableBy(a[1..], b[1..], key)
  {
    forall v
      ensures WithKey(a[1..], key, v) == WithKey(b[1..], key, v)
    {
      var ha := if key(a[0]) == v then [a[0]] else [];
      assert WithKey(a, key, v) == ha + WithKey(a[1..], key, v);
      assert WithKey(b, key, v) == ha + WithKey(b[1..], key, v);
      assert WithKey(a, key, v) == WithKey(b, key, v);
      assert (ha + WithKey(a[1..], key, v))[|ha|..] == WithKey(a[1..], key, v);
      assert (ha + WithKey(b[1..], key, v))[|ha|..] == WithKey(b[1..], key, v);
    }
  }

  /** Dropping a common head keeps two lists permutations of each other. */
  lemma MultisetTail<T>(a: seq<T>, b: seq<T>)
    requires |a| > 0 && |b| > 0 && a[0] == b[0]
    requires multiset(a) == multiset(b)
    ensures multiset(a[1..]) == multiset(b[1..])
  {
    assert a == [a[0]] + a[1..] && b == [b[0]] + b[1..];
    assert multiset(a[1..]) == multiset(a) - multiset{a[0]};
    assert multiset(b[1..]) == multiset(b) - multiset{a[0]};
  }

  /** `WithKey` keeps exactly the elements of key `v`. */
  lemma {:induction false} WithKeyMember<T>(xs: seq<T>, key: T -> real, v: real, x: T)
    ensures x in WithKey(xs, key, v) <==> x in xs && key(x) == v
    decreases |xs|
  {
    if |xs| > 0 {
      WithKeyMember(xs[1..], key, v, x);
      assert xs == [xs[0]] + xs[1..];
    }
  }

  /** Two elements of the same key appear in `WithKey` in the order they have in the list. */
  lemma {:induction false} WithKeyKeepsOrder<T>(xs: seq<T>, key: T -> real, i: nat, j: nat)
    requires i < j < |xs| && key(xs[i]) == key(xs[j])
    ensures exists a, b ::
              && 0 <= a < b < |WithKey(xs, key, key(xs[i]))|
              && WithKey(xs, key, key(xs[i]))[a] == xs[i]
              && WithKey(xs, key, key(xs[i]))[b] == xs[j]
    decreases |xs|
  {
    var v := key(xs[i]);
    var rest := WithKey(xs[1..], key, v);
    var h := if key(xs[0]) == v then [xs[0]] else [];
    assert WithKey(xs, key, v) == h + rest;
    if i == 0 {
      WithKeyMember(xs[1..], key, v, xs[j]);
      assert xs[j] == xs[1..][j - 1];
      var b :| 0 <= b < |rest| && rest[b] == xs[j];
      assert (h + rest)[0] == xs[0] && (h + rest)[1 + b] == xs[j];
    } else {
      WithKeyKeepsOrder(xs[1..], key, i - 1, j - 1);
      var a, b :| 0 <= a < b < |rest| && rest[a] == xs[1..][i - 1] && rest[b] == xs[1..][j - 1];
      assert (h + rest)[|h| + a] == xs[i] && (h + rest)[|h| + b] == xs[j];
    }
  }

  /** Two positions of `WithKey` come from two positions of the list in the same order. */
  lemma {:induction false} WithKeyOrigin<T>(xs: seq<T>, key: T -> real, v: real, a: nat, b: nat)
    requires a < b < |WithKey(xs, key, v)|
    ensures exists p, q :: 0 <= p < q < |xs| && xs[p] == WithKey(xs, key, v)[a] && xs[q] == WithKey(xs, key, v)[b]
    decreases |xs|
  {
    var w := WithKey(xs, key, v);
    var rest := WithKey(xs[1..], key, v);
    if key(xs[0]) == v {
      assert w == [xs[0]] + rest;
      if a == 0 {
        WithKeyMember(xs[1..], key, v, rest[b - 1]);
        var q :| 0 <= q < |xs[1..]| && xs[1..][q] == rest[b - 1];
        assert xs[0] == w[a] && xs[q + 1] == w[b];
      } else {
        WithKeyOrigin(xs[1..], key, v, a - 1, b - 1);
        var p, q :| 0 <= p < q < |xs[1..]| && xs[1..][p] == rest[a - 1] && xs[1..][q] == rest[b - 1];
        assert xs[p + 1] == w[a] && xs[q + 1] == w[b];
      }
    } else {
      assert w == rest;
      WithKeyOrigin(xs[1..], key, v, a, b);
      var p, q :| 0 <= p < q < |xs[1..]| && xs[1..][p] == rest[a] && xs[1..][q] == rest[b];
      assert xs[p + 1] == w[a] && xs[q + 1] == w[b];
    }
  }

  /** In a list that keeps each key's order, two elements of equal key appear in the order of the original. */
  lemma StableKeepsTies<T>(r: seq<T>, xs: seq<T>, key: T -> real, i: nat, j: nat)
    requires StableBy(r, xs, key)
    requires i < j < |r| && key(r[i]) == key(r[j])
    ensures exists p, q :: 0 <= p < q < |xs| && xs[p] == r[i] && xs[q] == r[j]
  {
    var v := key(r[i]);
    WithKeyKeepsOrder(r, key, i, j);
    var a, b :| 0 <= a < b < |WithKey(r, key, v)| && WithKey(r, key, v)[a] == r[i] && WithKey(r, key, v)[b] == r[j];
    assert WithKey(r, key, v) == WithKey(xs, key, v);
    WithKeyOrigin(xs, key, v, a, b);
  }

  /** The first element of a stable descending sort is the earliest element of maximal key. */
  lemma SortDescHead<T(!new)>(xs: seq<T>, key: T -> real) returns (i: nat)
    requires |xs| > 0
    ensures i < |xs| && SortDesc(xs, key)[0] == xs[i]
    ensures forall j :: 0 <= j < |xs| ==> key(xs[j]) <= key(xs[i])
    ensures forall j :: 0 <= j < i ==> key(xs[j]) < key(xs[i])
  {
    var all := (x: T) => true;
    KeepAll(xs, all);
    i := SortKeptHead(xs, all, key);
  }

  /** Filtering a non-empty list: the head is kept or not, the rest is filtered. */
  lemma KeepCons<T(!new)>(xs: seq<T>, p: T -> bool)
    requires |xs| > 0
    ensures p(xs[0]) ==> Keep(xs, p) == [xs[0]] + Keep(xs[1..], p)
    ensures !p(xs[0]) ==> Keep(xs, p) == Keep(xs[1..], p)
  {
  }
  /** When the first element is kept, every later kept element stands after it. */
  lemma KeepOrderHead<T(!new)>(xs: seq<T>, p: T -> bool, j: nat) returns (b: nat)
    requires |xs| > 0 && p(xs[0]) && 0 < j < |Keep(xs, p)|
    ensures 0 < b < |xs| && xs[0] == Keep(xs, p)[0] && xs[b] == Keep(xs, p)[j]
  {
    var rest := Keep(xs[1..], p);
    KeepCons(xs, p);
    assert rest[j - 1] in rest;
    var c :| 0 <= c < |xs[1..]| && xs[1..][c] == rest[j - 1];
    b := c + 1;
  }

  /** Two kept elements stand in the input in the same order: at positions `a < b`. */
  lemma {:induction false} KeepOrder<T(!new)>(xs: seq<T>, p: T -> bool, i: nat, j: nat) returns (a: nat, b: nat)
    requires i < j < |Keep(xs, p)|
    ensures a < b < |xs| && xs[a] == Keep(xs, p)[i] && xs[b] == Keep(xs, p)[j]
    decreases |xs|
  {
    var rest := Keep(xs[1..], p);
    KeepCons(xs, p);
    if p(xs[0]) && i == 0 {
      a := 0;
      b := KeepOrderHead(xs, p, j);
    } else if p(xs[0]) {
      var a', b' := KeepOrder(xs[1..], p, i - 1, j - 1);
      assert Keep(xs, p)[i] == rest[i - 1] && Keep(xs, p)[j] == rest[j - 1];
      assert xs[a' + 1] == xs[1..][a'] && xs[b' + 1] == xs[1..][b'];
      a, b := a' + 1, b' + 1;
    } else {
      var a', b' := KeepOrder(xs[1..], p, i, j);
      assert Keep(xs, p) == rest;
      assert xs[a' + 1] == xs[1..][a'] && xs[b' + 1] == xs[1..][b'];
      a, b := a' + 1, b' + 1;
    }
  }



  /** `i` is the earliest position among those satisfying `p` whose key is maximal among them. */
  predicate EarliestMax<T>(xs: seq<T>, p: T -> bool, key: T -> real, i: int)
  {
    && 0 <= i < |xs| && p(xs[i])
    && (forall j :: 0 <= j < |xs| && p(xs[j]) ==> key(xs[j]) <= key(xs[i]))
    && (forall j :: 0 <= j < i && p(xs[j]) ==> key(xs[j]) < key(xs[i]))
  }

  /** An earliest maximum of the tail, seen from the whole list, when the head is not a candidate. */
  lemma EarliestMaxShift<T>(xs: seq<T>, p: T -> bool, key: T -> real, i': nat)
    requires |xs| > 0 && EarliestMax(xs[1..], p, key, i')
    requires !p(xs[0]) || key(xs[0]) < key(xs[i' + 1])
    ensures EarliestMax(xs, p, key, i' + 1)
  {
    forall j | 1 <= j < |xs|
      ensures xs[j] == xs[1..][j - 1]
    {
    }
  }

  /** The head, when it is a candidate whose key is not below any candidate of the tail. */
  lemma EarliestMaxHead<T>(xs: seq<T>, p: T -> bool, key: T -> real, i': nat)
    requires |xs| > 0 && p(xs[0])
    requires i' < |xs| - 1 && forall j :: 0 <= j < |xs| - 1 && p(xs[1..][j]) ==> key(xs[1..][j]) <= key(xs[i' + 1])
    requires key(xs[i' + 1]) <= key(xs[0])
    ensures EarliestMax(xs, p, key, 0)
  {
    forall j | 1 <= j < |xs|
      ensures xs[j] == xs[1..][j - 1]
    {
    }
  }

  /** The head of a descending insertion: the inserted element unless the list's head has a larger key. */
  lemma InsertDescHead<T>(x: T, ys: seq<T>, key: T -> real)
    requires NonIncreasing(ys, key) && |ys| > 0
    ensures InsertDesc(x, ys, key)[0] == if key(ys[0]) <= key(x) then x else ys[0]
  {
  }

  /**
   * Among the elements satisfying `p`, the first of their stable descending sort is
   * the earliest of maximal key (the element `filter(p).sort(...)[0]` returns).
   */
  lemma {:induction false} SortKeptHead<T(!new)>(xs: seq<T>, p: T -> bool, key: T -> real) returns (i: nat)
    requires |Keep(xs, p)| > 0
    ensures EarliestMax(xs, p, key, i) && SortDesc(Keep(xs, p), key)[0] == xs[i]
  {
    var rest := xs[1..];
    var k' := Keep(rest, p);
    KeepCons(xs, p);
    if !p(xs[0]) {
      var i' := SortKeptHead(rest, p, key);
      EarliestMaxShift(xs, p, key, i');
      i := i' + 1;
    } else if |k'| == 0 {
      forall j | 0 < j < |xs|
        ensures !p(xs[j])
      {
        assert xs[j] == rest[j - 1] && rest[j - 1] in rest;
      }
      i := 0;
    } else {
      var i' := SortKeptHead(rest, p, key);
      var k := Keep(xs, p);
      assert k[0] == xs[0] && k[1..] == k';
      InsertDescHead(xs[0], SortDesc(k', key), key);
      if key(rest[i']) <= key(xs[0]) {
        EarliestMaxHead(xs, p, key, i');
        i := 0;
      } else {
        EarliestMaxShift(xs, p, key, i');
        i := i' + 1;
      }
    }
  }

  lemma SortKeptHeadIsEarliestMax<T(!new)>(xs: seq<T>, p: T -> bool, key: T -> real)
    requires |Keep(xs, p)| > 0
    ensures exists i :: EarliestMax(xs, p, key, i) && SortDesc(Keep(xs, p), key)[0] == xs[i]
  {
    var i := SortKeptHead(xs, p, key);
  }

  /** `slice(0, k)`. */
  function Take<T>(xs: seq<T>, k: nat): seq<T>
  {
    if |xs| <= k then xs else xs[..k]
  }

  /**
   * The first k of a descending sort are the k largest: whatever is left out
   * has a key no larger than any kept element, and something is left out only
   * when k elements were kept.
   */
  lemma TakeKeepsLargest<T>(xs: seq<T>, key: T -> real, k: nat)
    requires NonIncreasing(xs, key)
    ensures |Take(xs, k)| <= k && |Take(xs, k)| <= |xs|
    ensures forall x :: x in Take(xs, k) ==> x in xs
    ensures forall x :: x in xs && x !in Take(xs, k) ==>
      |Take(xs, k)| == k && forall i :: 0 <= i < k ==> key(x) <= key(Take(xs, k)[i])
  {
    var t := Take(xs, k);
    if |xs| > k {
      assert forall m :: 0 <= m < k ==> xs[m] == t[m];
      forall x | x in xs && x !in t
        ensures forall i :: 0 <= i < k ==> key(x) <= key(t[i])
      {
        var j :| 0 <= j < |xs| && xs[j] == x;
        assert j >= k;
      }
    }
  }

  /**
   * `sort((a, b) => key(b) - key(a)).slice(0, k)`: at most `k` elements of the
   * input, largest key first, and whatever is left out has a key no larger than
   * any kept element; of the elements whose key ties with a kept one, those
   * kept come first in the input, as the stable sort leaves them in front.
   */
  function TopBy<T>(xs: seq<T>, key: T -> real, k: nat): (r: seq<T>)
    ensures |r| <= k && |r| <= |xs|
    ensures NonIncreasing(r, key)
    ensures forall i :: 0 <= i < |r| ==> r[i] in xs
    ensures forall j :: 0 <= j < |xs| && xs[j] !in r ==>
      |r| == k && forall i :: 0 <= i < |r| ==> key(xs[j]) <= key(r[i])
    ensures forall j, i :: 0 <= j < |xs| && 0 <= i < |r| && xs[j] !in r && key(xs[j]) == key(r[i]) ==>
      exists p :: 0 <= p < j && xs[p] == r[i]
  {
    var sorted := SortDesc(xs, key);
    var r := Take(sorted, k);
    TakeKeepsLargest(sorted, key, k);
    forall j | 0 <= j < |xs|
      ensures xs[j] in sorted
    {
      assert xs[j] in multiset(xs);
    }
    TakeLeavesLaterTies(sorted, xs, key, k);
    forall i | 0 <= i < |r|
      ensures r[i] in xs
    {
      assert r[i] in sorted;
      assert r[i] in multiset(sorted);
    }
    r
  }

  /**
   * Cutting a stable reordering after `k` elements: an element left out whose
   * key ties with a kept one comes after that one in the original order.
   */
  lemma TakeLeavesLaterTies<T>(s: seq<T>, xs: seq<T>, key: T -> real, k: nat)
    requires StableBy(s, xs, key)
    ensures forall j, i :: 0 <= j < |xs| && 0 <= i < |Take(s, k)| && xs[j] !in Take(s, k) && key(xs[j]) == key(Take(s, k)[i]) ==>
      exists p :: 0 <= p < j && xs[p] == Take(s, k)[i]
  {
    var c := if |s| <= k then |s| else k;
    var t := Take(s, k);
    assert t == s[..c];
    forall j, i | 0 <= j < |xs| && 0 <= i < |t| && xs[j] !in t && key(xs[j]) == key(t[i])
      ensures exists p :: 0 <= p < j && xs[p] == t[i]
    {
      StablePrefixFirst(s, xs, key, c, i, j);
    }
  }

  /** Filtering by key distributes over concatenation. */
  lemma {:induction false} WithKeyConcat<T>(a: seq<T>, b: seq<T>, key: T -> real, v: real)
    ensures WithKey(a + b, key, v) == WithKey(a, key, v) + WithKey(b, key, v)
    decreases |a|
  {
    if |a| > 0 {
      WithKeyConcat(a[1..], b, key, v);
      assert a + b == [a[0]] + (a[1..] + b);
      WithKeyCons(a[0], a[1..] + b, key, v);
      WithKeyCons(a[0], a[1..], key, v);
      assert [a[0]] + a[1..] == a;
    } else {
      assert a + b == b;
    }
  }

  /**
   * In a list `s` that keeps each key's order of `xs`, an element among the
   * first `c` of `s` comes, in `xs`, before every element of its key that is
   * not among those first `c`.
   */
  lemma StablePrefixFirst<T>(s: seq<T>, xs: seq<T>, key: T -> real, c: nat, i: nat, j: nat)
    requires StableBy(s, xs, key) && c <= |s|
    requires i < c && j < |xs| && xs[j] !in s[..c] && key(xs[j]) == key(s[i])
    ensures exists p :: 0 <= p < j && xs[p] == s[i]
  {
    var v := key(s[i]);
    var w := WithKey(xs, key, v);
    var a := WithKey(s[..c], key, v);
    var b := WithKey(xs[..j], key, v);
    WithKeyConcat(s[..c], s[c..], key, v);
    assert s[..c] + s[c..] == s;
    WithKeyConcat(xs[..j], xs[j..], key, v);
    assert xs[..j] + xs[j..] == xs;
    WithKeyCons(xs[j], xs[j + 1..], key, v);
    assert [xs[j]] + xs[j + 1..] == xs[j..];
    assert w == a + WithKey(s[c..], key, v);
    assert w == b + ([xs[j]] + WithKey(xs[j + 1..], key, v));
    WithKeyMember(s[..c], key, v, s[i]);
    if |b| < |a| {
      assert w[|b|] == xs[j] && w[|b|] == a[|b|];
      WithKeyMember(s[..c], key, v, xs[j]);
      assert false;
    }
    assert a == w[..|a|] && b == w[..|b|];
    assert s[i] in b;
    WithKeyMember(xs[..j], key, v, s[i]);
    var p :| 0 <= p < j && xs[..j][p] == s[i];
  }

  /** The top `k` list two elements of equal key in the order of the input: the sort is stable. */
  lemma TopByKeepsTies<T>(xs: seq<T>, key: T -> real, k: nat, i: nat, j: nat)
    requires i < j < |TopBy(xs, key, k)| && key(TopBy(xs, key, k)[i]) == key(TopBy(xs, key, k)[j])
    ensures exists p, q :: 0 <= p < q < |xs| && xs[p] == TopBy(xs, key, k)[i] && xs[q] == TopBy(xs, key, k)[j]
  {
    var sorted := SortDesc(xs, key);
    assert TopBy(xs, key, k)[i] == sorted[i] && TopBy(xs, key, k)[j] == sorted[j];
    StableKeepsTies(sorted, xs, key, i, j);
  }

  /** No two elements share a `name`. */
  predicate DistinctBy<T>(xs: seq<T>, name: T -> string)
  {
    forall i, j :: 0 <= i < j < |xs| ==> name(xs[i]) != name(xs[j])
  }

  lemma MultisetCountOfDistinct<T>(xs: seq<T>, name: T -> string, i: nat)
    requires DistinctBy(xs, name) && i < |xs|
    ensures multiset(xs)[xs[i]] == 1
  {
    assert xs == xs[..i] + [xs[i]] + xs[i + 1..];
    forall j | 0 <= j < i
      ensures xs[..i][j] != xs[i]
    {
      assert name(xs[j]) != name(xs[i]);
    }
    forall j | i < j < |xs|
      ensures xs[j] != xs[i]
    {
      assert name(xs[j]) != name(xs[i]);
    }
    assert xs[i] !in xs[i + 1..];
    assert multiset(xs) == multiset(xs[..i]) + multiset{xs[i]} + multiset(xs[i + 1..]);
  }

  lemma CountOfRepeated<T>(ys: seq<T>, i: nat, j: nat)
    requires i < j < |ys|
    ensures ys[i] == ys[j] ==> multiset(ys)[ys[i]] >= 2
  {
    assert ys == ys[..j] + ys[j..];
    assert ys[i] in ys[..j] && ys[j] in ys[j..];
    assert multiset(ys) == multiset(ys[..j]) + multiset(ys[j..]);
  }

  /** Reordering a list whose names are distinct keeps them distinct. */
  lemma DistinctByPermutation<T>(xs: seq<T>, ys: seq<T>, name: T -> string)
    requires DistinctBy(xs, name)
    requires multiset(ys) == multiset(xs)
    ensures DistinctBy(ys, name)
  {
    forall i, j | 0 <= i < j < |ys|
      ensures name(ys[i]) != name(ys[j])
    {
      assert ys[i] in multiset(xs) && ys[j] in multiset(xs);
      var a :| 0 <= a < |xs| && xs[a] == ys[i];
      var b :| 0 <= b < |xs| && xs[b] == ys[j];
      MultisetCountOfDistinct(xs, name, a);
      CountOfRepeated(ys, i, j);
      assert ys[i] != ys[j];
      assert a != b;
    }
  }

  /** A prefix of a list with distinct names has distinct names. */
  lemma DistinctByTake<T>(xs: seq<T>, name: T -> string, k: nat)
    requires DistinctBy(xs, name)
    ensures DistinctBy(Take(xs, k), name)
  {
  }

  /** The top `k` of a list with distinct names has distinct names. */
  lemma TopByDistinct<T>(xs: seq<T>, key: T -> real, k: nat, name: T -> string)
    requires DistinctBy(xs, name)
    ensures DistinctBy(TopBy(xs, key, k), name)
  {
    var sorted := SortDesc(xs, key);
    DistinctByPermutation(xs, sorted, name);
    DistinctByTake(sorted, name, k);
  }

  /** Filtering a list with distinct names keeps them distinct. */
  lemma {:induction false} DistinctByKeep<T(!new)>(xs: seq<T>, p: T -> bool, name: T -> string)
    requires DistinctBy(xs, name)
    ensures DistinctBy(Keep(xs, p), name)
  {
    if |xs| > 0 {
      var rest := Keep(xs[1..], p);
      DistinctByKeep(xs[1..], p, name);
      if p(xs[0]) {
        forall j | 0 <= j < |rest|
          ensures name(xs[0]) != name(rest[j])
        {
          assert rest[j] in rest;
          var k :| 0 <= k < |xs[1..]| && xs[1..][k] == rest[j];
          assert xs[k + 1] == rest[j];
        }
        var r := [xs[0]] + rest;
        forall i, j | 0 <= i < j < |r|
          ensures name(r[i]) != name(r[j])
        {
          if i > 0 {
            assert r[i] == rest[i - 1] && r[j] == rest[j - 1];
          } else {
            assert r[j] == rest[j - 1];
          }
        }
      } else {
        assert Keep(xs, p) == rest;
      }
    }
  }
}

=== FILE: model.dfy ===
/**
 * The workout log as the store keeps it. Field names follow the stored JSON
 * document (`exercices`, `nom`, `poids`, `reps`).
 */
module Model {
  import opened Basics
  import opened Calendar

  /**
   * A numeric form field: `Some(v)` when `Number(field)` is the number v,
   * `None` when the field is missing, blank or not a number.
   */
  type Field = Option<real>

  /** `Number(field) || 0`: a missing, blank or non-numeric field reads as 0. */
  function Num(f: Field): (v: real)
    ensures f.None? ==> v == 0.0
    ensures f.Some? ==> v == f.value
  {
    match f
    case None => 0.0
    case Some(x) => x
  }

  /**
   * The property names a plain object `{}` inherits from `Object.prototype`:
   * reading `obj[name]` on a fresh object finds a value for each of them.
   */
  const ObjectPrototypeKeys: set<string> := {
    "constructor", "__proto__", "toString", "toLocaleString", "valueOf",
    "hasOwnProperty", "isPrototypeOf", "propertyIsEnumerable",
    "__defineGetter__", "__defineSetter__", "__lookupGetter__", "__lookupSetter__"
  }

  /** One set of an exercise: a load in kg and a repetition count. */
  datatype Series = Series(poids: Field, reps: Field)

  /** An exercise entry; an empty `nom` stands for a missing name. */
  datatype Exercise = Exercise(nom: string, series: seq<Series>)

  /** A completed workout; `programId` may refer to a deleted program. */
  datatype Session = Session(
    id: string,
    date: Moment,
    programId: string,
    programName: string,
    exercices: seq<Exercise>)

  /** A reusable workout template. */
  datatype Program = Program(
    id: string,
    nom: string,
    createdAt: Moment,
    exercices: seq<Exercise>)

  /** The stored document. */
  datatype Data = Data(programs: seq<Program>, sessions: seq<Session>, userName: string)

  /** One exercise entry of the log together with the date of its session. */
  datatype Occ = Occ(date: Moment, ex: Exercise)

  /** The exercise entries of one session, in order. */
  function OccurrencesIn(s: Session): (r: seq<Occ>)
    ensures |r| == |s.exercices|
    ensures forall i :: 0 <= i < |r| ==> r[i] == Occ(s.date, s.exercices[i])
  {
    seq(|s.exercices|, i requires 0 <= i < |s.exercices| => Occ(s.date, s.exercices[i]))
  }

  /** Every exercise entry of the log, in the order the nested loops over sessions and exercises visit them. */
  function Occurrences(ss: seq<Session>): seq<Occ>
  {
    if |ss| == 0 then []
    else Occurrences(ss[..|ss| - 1]) + OccurrencesIn(ss[|ss| - 1])
  }

  /** Every series of a list of exercises, in order. */
  function SeriesOf(exs: seq<Exercise>): seq<Series>
  {
    if |exs| == 0 then []
    else SeriesOf(exs[..|exs| - 1]) + exs[|exs| - 1].series
  }

  /** Every series of the log, in the order the nested loops visit them. */
  function AllSeries(ss: seq<Session>): seq<Series>
  {
    if |ss| == 0 then []
    else AllSeries(ss[..|ss| - 1]) + SeriesOf(ss[|ss| - 1].exercices)
  }

  lemma OccurrencesAppend(ss: seq<Session>, s: Session)
    ensures Occurrences(ss + [s]) == Occurrences(ss) + OccurrencesIn(s)
  {
    assert (ss + [s])[..|ss|] == ss;
  }

  lemma AllSeriesAppend(ss: seq<Session>, s: Session)
    ensures AllSeries(ss + [s]) == AllSeries(ss) + SeriesOf(s.exercices)
  {
    assert (ss + [s])[..|ss|] == ss;
  }
}

=== FILE: rankings.dfy ===
/**
 * The ranked statistics: personal records (`getPersonalRecords`), favourite
 * exercises (`getFavoriteExercises`), the most frequent exercise
 * (`getBestExercise`) and the date of the latest session (`getLastSession`).
 *
 * The objects `records` and `count` keyed by exercise name are modelled as
 * sequences of entries in first-insertion order, which is the order
 * `Object.entries` lists non-numeric keys in.
 */
module Rankings {
  import opened Basics
  import opened Calendar
  import opened Model
  import opened Lists
  import opened Totals

  // ---------------------------------------------------------------------------
  // Personal records
  // ---------------------------------------------------------------------------

  /** An entry of `records`: a name, its heaviest set, and the date that weight was first reached. */
  datatype Record = Record(name: string, weight: real, date: Moment)

  function RecordName(r: Record): string { r.name }

  function RecordWeight(r: Record): real { r.weight }

  /** The candidate record an exercise entry offers: its name, top weight and session date. */
  function Candidate(o: Occ): Record
  {
    Record(o.ex.nom, TopWeight(o.ex), o.date)
  }

  /** The candidates of the whole log, in log order. */
  function Candidates(occs: seq<Occ>): (cs: seq<Record>)
    ensures |cs| == |occs|
    ensures forall k :: 0 <= k < |cs| ==> cs[k] == Candidate(occs[k])
  {
    seq(|occs|, k requires 0 <= k < |occs| => Candidate(occs[k]))
  }

  /** A candidate that takes part in the records: it has a name and a positive weight. */
  predicate Qualifies(c: Record)
  {
    c.name != "" && c.weight > 0.0
  }

  /**
   * Where the record for name `n` is set: the position of the first qualifying
   * candidate of that name whose weight no candidate of that name exceeds.
   */
  function FirstHeaviest(cs: seq<Record>, n: string): (r: Option<nat>)
    ensures r.Some? ==> r.value < |cs| && cs[r.value].name == n && Qualifies(cs[r.value])
    ensures r.Some? ==> forall j :: 0 <= j < |cs| && cs[j].name == n ==> cs[j].weight <= cs[r.value].weight
    ensures r.Some? ==> forall j :: 0 <= j < r.value && cs[j].name == n ==> cs[j].weight < cs[r.value].weight
    ensures r.None? <==> forall j :: 0 <= j < |cs| && cs[j].name == n ==> !Qualifies(cs[j])
  {
    if |cs| == 0 then None
    else
      var prefix := cs[..|cs| - 1];
      var c := cs[|cs| - 1];
      var b := FirstHeaviest(prefix, n);
      assert forall j :: 0 <= j < |prefix| ==> cs[j] == prefix[j];
      if c.name == n && Qualifies(c) && (b.None? || c.weight > prefix[b.value].weight) then Some(|cs| - 1)
      else b
  }

  /** Appending a candidate moves the record of its name to it exactly when it is strictly heavier. */
  lemma FirstHeaviestSnoc(cs: seq<Record>, c: Record, n: string)
    ensures var b := FirstHeaviest(cs, n);
      FirstHeaviest(cs + [c], n)
        == if c.name == n && Qualifies(c) && (b.None? || c.weight > cs[b.value].weight) then Some(|cs|) else b
  {
    assert (cs + [c])[..|cs|] == cs;
  }

  /**
   * `t` is the records table of `cs`: one entry per name, each the candidate
   * where the record of its name is set, and every qualifying candidate's name
   * is present.
   */
  predicate IsRecordTable(cs: seq<Record>, t: seq<Record>)
  {
    DistinctBy(t, RecordName) && EntriesAreRecords(cs, t) && CoversQualifying(cs, t)
  }

  /** `r` is the candidate where the record of its name is set. */
  predicate SetsRecord(cs: seq<Record>, r: Record)
  {
    var h := FirstHeaviest(cs, r.name); h.Some? && cs[h.value] == r
  }

  /** Every entry is the candidate where the record of its name is set. */
  predicate EntriesAreRecords(cs: seq<Record>, t: seq<Record>)
  {
    forall i :: 0 <= i < |t| ==> SetsRecord(cs, t[i])
  }

  /** Every qualifying candidate's name has an entry. */
  predicate CoversQualifying(cs: seq<Record>, t: seq<Record>)
  {
    forall k :: 0 <= k < |cs| && Qualifies(cs[k]) ==> exists i :: 0 <= i < |t| && t[i].name == cs[k].name
  }

  /**
   * One step of the `forEach` in `getPersonalRecords`: an unnamed or weightless
   * entry is skipped, a new name is added, and an existing record is replaced
   * only by a strictly heavier one.
   */
  function UpdateRecord(t: seq<Record>, c: Record): (r: seq<Record>)
    ensures |r| >= |t|
  {
    if !Qualifies(c) then t
    else match FindFirst(t, (e: Record) => e.name == c.name)
      case None => t + [c]
      case Some(i) => if c.weight > t[i].weight then t[i := c] else t
  }

  /** Entries of names other than the appended candidate's keep their record position. */
  lemma OthersKeepRecord(cs: seq<Record>, t: seq<Record>, c: Record, t': seq<Record>, i0: int)
    requires EntriesAreRecords(cs, t)
    requires |t'| >= |t|
    requires forall i :: 0 <= i < |t| && i != i0 ==> t'[i] == t[i]
    requires forall i :: 0 <= i < |t| && i != i0 ==> t[i].name != c.name || !Qualifies(c)
    ensures forall i :: 0 <= i < |t| && i != i0 ==> SetsRecord(cs + [c], t'[i])
  {
    forall i | 0 <= i < |t| && i != i0
      ensures SetsRecord(cs + [c], t'[i])
    {
      FirstHeaviestSnoc(cs, c, t[i].name);
    }
  }

  /** The coverage part of the table invariant survives a step that keeps every name at its index. */
  lemma CoverageExtend(cs: seq<Record>, c: Record, t: seq<Record>, t': seq<Record>)
    requires CoversQualifying(cs, t)
    requires |t'| >= |t| && forall i :: 0 <= i < |t| ==> t'[i].name == t[i].name
    requires Qualifies(c) ==> exists i :: 0 <= i < |t'| && t'[i].name == c.name
    ensures CoversQualifying(cs + [c], t')
  {
    var cs' := cs + [c];
    forall k | 0 <= k < |cs'| && Qualifies(cs'[k])
      ensures exists i :: 0 <= i < |t'| && t'[i].name == cs'[k].name
    {
      if k < |cs| {
        assert cs'[k] == cs[k];
        var i :| 0 <= i < |t| && t[i].name == cs[k].name;
        assert t'[i].name == cs'[k].name;
      }
    }
  }

  /** A skipped candidate leaves a valid table valid. */
  lemma SkipKeepsTable(cs: seq<Record>, t: seq<Record>, c: Record)
    requires IsRecordTable(cs, t)
    requires !Qualifies(c)
    ensures IsRecordTable(cs + [c], t)
  {
    assert EntriesAreRecords(cs + [c], t) by {
      OthersKeepRecord(cs, t, c, t, -1);
    }
    CoverageExtend(cs, c, t, t);
  }

  /** A qualifying candidate whose name is not yet in the table is appended. */
  lemma AppendKeepsTable(cs: seq<Record>, t: seq<Record>, c: Record)
    requires IsRecordTable(cs, t)
    requires Qualifies(c)
    requires forall i :: 0 <= i < |t| ==> t[i].name != c.name
    ensures IsRecordTable(cs + [c], t + [c])
  {
    var t' := t + [c];
    assert EntriesAreRecords(cs + [c], t') by {
      OthersKeepRecord(cs, t, c, t', -1);
      assert FirstHeaviest(cs, c.name).None?;
      FirstHeaviestSnoc(cs, c, c.name);
      assert t'[|t|] == c;
    }
    assert DistinctBy(t', RecordName) by {
      forall i, j | 0 <= i < j < |t'|
        ensures RecordName(t'[i]) != RecordName(t'[j])
      {
        if j < |t| {
          assert RecordName(t[i]) != RecordName(t[j]);
        }
      }
    }
    assert CoversQualifying(cs + [c], t') by {
      assert t'[|t|].name == c.name;
      CoverageExtend(cs, c, t, t');
    }
  }

  /** A strictly heavier candidate for the name at `i0` replaces that entry. */
  lemma ReplaceKeepsTable(cs: seq<Record>, t: seq<Record>, c: Record, i0: nat)
    requires IsRecordTable(cs, t)
    requires Qualifies(c)
    requires i0 < |t| && t[i0].name == c.name && c.weight > t[i0].weight
    ensures IsRecordTable(cs + [c], t[i0 := c])
  {
    var t' := t[i0 := c];
    assert forall i :: 0 <= i < |t| ==> t'[i].name == t[i].name;
    assert EntriesAreRecords(cs + [c], t') by {
      forall i | 0 <= i < |t| && i != i0
        ensures t[i].name != c.name
      {
        assert RecordName(t[i]) != RecordName(t[i0]);
      }
      OthersKeepRecord(cs, t, c, t', i0);
      FirstHeaviestSnoc(cs, c, c.name);
    }
    assert DistinctBy(t', RecordName) by {
      forall i, j | 0 <= i < j < |t'|
        ensures RecordName(t'[i]) != RecordName(t'[j])
      {
        assert RecordName(t[i]) != RecordName(t[j]);
      }
    }
    assert CoversQualifying(cs + [c], t') by {
      CoverageExtend(cs, c, t, t');
    }
  }

  /** A candidate for the name at `i0` that is no heavier changes nothing. */
  lemma NoGainKeepsTable(cs: seq<Record>, t: seq<Record>, c: Record, i0: nat)
    requires IsRecordTable(cs, t)
    requires i0 < |t| && t[i0].name == c.name && c.weight <= t[i0].weight
    ensures IsRecordTable(cs + [c], t)
  {
    assert EntriesAreRecords(cs + [c], t) by {
      forall i | 0 <= i < |t| && i != i0
        ensures t[i].name != c.name
      {
        assert RecordName(t[i]) != RecordName(t[i0]);
      }
      OthersKeepRecord(cs, t, c, t, i0);
      FirstHeaviestSnoc(cs, c, c.name);
    }
    assert CoversQualifying(cs + [c], t) by {
      CoverageExtend(cs, c, t, t);
    }
  }

  /** `UpdateRecord` keeps the table invariant. */
  lemma UpdateRecordKeepsTable(cs: seq<Record>, t: seq<Record>, c: Record)
    requires IsRecordTable(cs, t)
    ensures IsRecordTable(cs + [c], UpdateRecord(t, c))
  {
    if !Qualifies(c) {
      SkipKeepsTable(cs, t, c);
    } else {
      match FindFirst(t, (e: Record) => e.name == c.name)
      case None =>
        AppendKeepsTable(cs, t, c);
      case Some(i0) =>
        if c.weight > t[i0].weight {
          ReplaceKeepsTable(cs, t, c, i0);
        } else {
          NoGainKeepsTable(cs, t, c, i0);
        }
    }
  }

  /** The `records` object after the `forEach` over the candidates in log order. */
  function RecordTable(cs: seq<Record>): (t: seq<Record>)
    ensures IsRecordTable(cs, t)
  {
    if |cs| == 0 then []
    else
      var prefix := cs[..|cs| - 1];
      var c := cs[|cs| - 1];
      assert prefix + [c] == cs;
      UpdateRecordKeepsTable(prefix, RecordTable(prefix), c);
      UpdateRecord(RecordTable(prefix), c)
  }

  /**
   * One records step as written. For a name inherited from `Object.prototype`,
   * `!records[ex.nom]` is false and the inherited value has no `weight`, so the
   * comparison with `undefined` is false too: the candidate is dropped.
   */
  function UpdateRecordAsWritten(t: seq<Record>, c: Record): seq<Record>
  {
    if c.name in ObjectPrototypeKeys then t else UpdateRecord(t, c)
  }

  /** The records `forEach` as written. */
  function RecordTableAsWritten(cs: seq<Record>): seq<Record>
  {
    if |cs| == 0 then []
    else UpdateRecordAsWritten(RecordTableAsWritten(cs[..|cs| - 1]), cs[|cs| - 1])
  }

  /** The candidates whose name is not inherited, in log order. */
  function OwnCandidates(cs: seq<Record>): (r: seq<Record>)
    ensures forall k :: 0 <= k < |r| ==> r[k].name !in ObjectPrototypeKeys
  {
    if |cs| == 0 then []
    else
      var c := cs[|cs| - 1];
      OwnCandidates(cs[..|cs| - 1]) + (if c.name in ObjectPrototypeKeys then [] else [c])
  }

  /**
   * As written, the records table is the table of the candidates whose names
   * are not inherited: an inherited name never gets a record.
   */
  lemma {:induction false} RecordTableAsWrittenOwn(cs: seq<Record>)
    ensures RecordTableAsWritten(cs) == RecordTable(OwnCandidates(cs))
    ensures forall i :: 0 <= i < |RecordTableAsWritten(cs)| ==> RecordTableAsWritten(cs)[i].name !in ObjectPrototypeKeys
  {
    if |cs| > 0 {
      var prefix := cs[..|cs| - 1];
      var c := cs[|cs| - 1];
      RecordTableAsWrittenOwn(prefix);
      var own := OwnCandidates(prefix);
      if c.name !in ObjectPrototypeKeys {
        assert OwnCandidates(cs) == own + [c];
        assert (own + [c])[..|own|] == own;
      } else {
        assert OwnCandidates(cs) == own + [];
        assert own + [] == own;
      }
    }
    var t := RecordTable(OwnCandidates(cs));
    forall i | 0 <= i < |t|
      ensures t[i].name !in ObjectPrototypeKeys
    {
      var h := FirstHeaviest(OwnCandidates(cs), t[i].name);
      assert OwnCandidates(cs)[h.value].name == t[i].name;
    }
  }

  /** One entry named `constructor` with a 50 kg set gets no record as written, where one is intended. */
  lemma ConstructorGetsNoRecord()
    ensures var c := Record("constructor", 50.0, DateTime(2024, 0, 15, 0));
      RecordTableAsWritten([c]) == [] && RecordTable([c]) == [c]
  {
    var c := Record("constructor", 50.0, DateTime(2024, 0, 15, 0));
    assert [c][..0] == [];
    assert RecordTable([c]) == UpdateRecord([], c);
  }

  /** The position of the first qualifying candidate named `n`, or `|cs|` when there is none. */
  function FirstQualifying(cs: seq<Record>, n: string): (i: nat)
    ensures i <= |cs|
    ensures i < |cs| ==> cs[i].name == n && Qualifies(cs[i])
    ensures forall k :: 0 <= k < i ==> !(cs[k].name == n && Qualifies(cs[k]))
  {
    if |cs| == 0 then 0
    else if cs[0].name == n && Qualifies(cs[0]) then 0
    else 1 + FirstQualifying(cs[1..], n)
  }

  /** Appending a candidate moves no first qualifying position, and puts a new name's at the end. */
  lemma FirstQualifyingSnoc(cs: seq<Record>, c: Record, n: string)
    ensures FirstQualifying(cs + [c], n)
      == if FirstQualifying(cs, n) < |cs| then FirstQualifying(cs, n)
         else if c.name == n && Qualifies(c) then |cs| else |cs| + 1
  {
    if FirstQualifying(cs, n) < |cs| {
      assert (cs + [c])[FirstQualifying(cs, n)] == cs[FirstQualifying(cs, n)];
    } else {
      assert (cs + [c])[|cs|] == c;
    }
  }

  /** The entries of `t` stand in the order their names first qualify in `cs`. */
  predicate InFirstQualifyingOrder(cs: seq<Record>, t: seq<Record>)
  {
    forall i, j :: 0 <= i < j < |t| ==> FirstQualifying(cs, t[i].name) < FirstQualifying(cs, t[j].name)
  }

  /** Every name of a records table qualifies somewhere, so appending a candidate moves none of their first positions. */
  lemma RecordFirstPositionsKept(cs: seq<Record>, t: seq<Record>, c: Record)
    requires IsRecordTable(cs, t)
    ensures forall i :: 0 <= i < |t| ==> FirstQualifying(cs + [c], t[i].name) == FirstQualifying(cs, t[i].name) < |cs|
  {
    forall i | 0 <= i < |t|
      ensures FirstQualifying(cs + [c], t[i].name) == FirstQualifying(cs, t[i].name) < |cs|
    {
      assert SetsRecord(cs, t[i]);
      var h := FirstHeaviest(cs, t[i].name).value;
      assert cs[h].name == t[i].name && Qualifies(cs[h]);
      FirstQualifyingSnoc(cs, c, t[i].name);
    }
  }

  /** A records step keeps the entries in order of first qualifying candidate. */
  lemma UpdateRecordOrder(cs: seq<Record>, t: seq<Record>, c: Record)
    requires IsRecordTable(cs, t) && InFirstQualifyingOrder(cs, t)
    ensures InFirstQualifyingOrder(cs + [c], UpdateRecord(t, c))
  {
    var f := FindFirst(t, (e: Record) => e.name == c.name);
    if Qualifies(c) && f.None? {
      assert UpdateRecord(t, c) == t + [c];
      RecordFirstPositionsKept(cs, t, c);
      NewRecordOrder(cs, t, c);
    } else if Qualifies(c) && c.weight > t[f.value].weight {
      assert UpdateRecord(t, c) == t[f.value := c];
      ReplacedRecordOrder(cs, t, c, f.value);
    } else {
      assert UpdateRecord(t, c) == t;
      KeptRecordOrder(cs, t, c);
    }
  }

  /** A candidate that changes no entry leaves the order as it was. */
  lemma KeptRecordOrder(cs: seq<Record>, t: seq<Record>, c: Record)
    requires IsRecordTable(cs, t) && InFirstQualifyingOrder(cs, t)
    ensures InFirstQualifyingOrder(cs + [c], t)
  {
    RecordFirstPositionsKept(cs, t, c);
  }

  /** A heavier candidate replacing its name's entry leaves the order as it was. */
  lemma ReplacedRecordOrder(cs: seq<Record>, t: seq<Record>, c: Record, i0: nat)
    requires IsRecordTable(cs, t) && InFirstQualifyingOrder(cs, t)
    requires i0 < |t| && t[i0].name == c.name
    ensures InFirstQualifyingOrder(cs + [c], t[i0 := c])
  {
    KeptRecordOrder(cs, t, c);
    RenamedNothingOrder(cs + [c], t, t[i0 := c]);
  }

  /** A qualifying candidate of a name with no entry yet first qualifies after every entry. */
  lemma NewRecordOrder(cs: seq<Record>, t: seq<Record>, c: Record)
    requires IsRecordTable(cs, t) && InFirstQualifyingOrder(cs, t) && Qualifies(c)
    requires forall i :: 0 <= i < |t| ==> t[i].name != c.name
    requires forall i :: 0 <= i < |t| ==> FirstQualifying(cs + [c], t[i].name) == FirstQualifying(cs, t[i].name) < |cs|
    ensures InFirstQualifyingOrder(cs + [c], t + [c])
  {
    forall k | 0 <= k < |cs| && Qualifies(cs[k])
      ensures cs[k].name != c.name
    {
      var i :| 0 <= i < |t| && t[i].name == cs[k].name;
    }
    FirstQualifyingSnoc(cs, c, c.name);
    NewRecordLast(cs + [c], t, c);
  }

  /** Replacing values but no names keeps the order. */
  lemma RenamedNothingOrder(cs: seq<Record>, t: seq<Record>, t': seq<Record>)
    requires InFirstQualifyingOrder(cs, t)
    requires |t'| == |t| && forall i :: 0 <= i < |t| ==> t'[i].name == t[i].name
    ensures InFirstQualifyingOrder(cs, t')
  {
  }

  /** An entry whose name first qualifies after every other entry's can be appended. */
  lemma NewRecordLast(cs: seq<Record>, t: seq<Record>, e: Record)
    requires InFirstQualifyingOrder(cs, t)
    requires forall i :: 0 <= i < |t| ==> FirstQualifying(cs, t[i].name) < FirstQualifying(cs, e.name)
    ensures InFirstQualifyingOrder(cs, t + [e])
  {
    var t' := t + [e];
    forall i, j | 0 <= i < j < |t'|
      ensures FirstQualifying(cs, t'[i].name) < FirstQualifying(cs, t'[j].name)
    {
      assert t'[i] == t[i];
    }
  }

  /**
   * The `records` object lists its names in the order their first qualifying
   * candidate occurs: a name gets its key then, and a heavier set later only
   * replaces the value.
   */
  lemma {:induction false} RecordTableOrder(cs: seq<Record>)
    ensures InFirstQualifyingOrder(cs, RecordTable(cs))
  {
    if |cs| > 0 {
      var prefix := cs[..|cs| - 1];
      var c := cs[|cs| - 1];
      assert prefix + [c] == cs;
      RecordTableOrder(prefix);
      RecordTableStepOrder(prefix, c);
    }
  }

  /** One more candidate keeps the table in order of first qualifying candidate. */
  lemma RecordTableStepOrder(cs: seq<Record>, c: Record)
    requires InFirstQualifyingOrder(cs, RecordTable(cs))
    ensures InFirstQualifyingOrder(cs + [c], RecordTable(cs + [c]))
  {
    var t := RecordTable(cs);
    assert (cs + [c])[..|cs|] == cs;
    assert RecordTable(cs + [c]) == UpdateRecord(t, c);
    UpdateRecordOrder(cs, t, c);
  }

  /** The candidates offered by every exercise entry of the log. */
  function LogCandidates(ss: seq<Session>): (cs: seq<Record>)
    ensures |cs| == |Occurrences(ss)|
    ensures forall k :: 0 <= k < |cs| ==> cs[k] == Candidate(Occurrences(ss)[k])
  {
    Candidates(Occurrences(ss))
  }

  /** A later entry that only equals the heaviest weight so far never takes the record: the earlier one keeps it. */
  lemma EqualWeightKeepsFirst(cs: seq<Record>, i: nat, j: nat)
    requires i < j < |cs|
    requires cs[i].name == cs[j].name && cs[i].weight == cs[j].weight && Qualifies(cs[i])
    ensures FirstHeaviest(cs, cs[j].name) != Some(j)
  {
  }

  /**
   * The five heaviest entries of the records table of `cs`, heaviest first:
   * one per name, each where its name's record is set; a qualifying candidate
   * whose name is left out weighs no more than any record shown, and is left
   * out only when five are shown. Records of equal weight stand in the order
   * their names first qualify (the `records` key order, kept by the stable
   * sort), and a name left out with the weight of a record shown first
   * qualifies after it.
   */
  function TopRecords(cs: seq<Record>): (r: seq<Record>)
    ensures |r| <= 5
    ensures NonIncreasing(r, RecordWeight)
    ensures DistinctBy(r, RecordName)
    ensures forall i :: 0 <= i < |r| ==> Qualifies(r[i]) && SetsRecord(cs, r[i])
    ensures forall k :: 0 <= k < |cs| && Qualifies(cs[k]) && (forall i :: 0 <= i < |r| ==> r[i].name != cs[k].name) ==>
      |r| == 5 && forall i :: 0 <= i < |r| ==> cs[k].weight <= r[i].weight
    ensures RecordTiesInFirstOrder(cs, r)
    ensures RecordLeftOutTiesLater(cs, r)
  {
    var t := RecordTable(cs);
    TopByDistinct(t, RecordWeight, 5, RecordName);
    TopOfRecordTable(cs, t);
    RecordTableOrder(cs);
    TopRecordsKeepTies(cs, t);
    TopRecordsLeaveLaterTies(cs, t);
    TopBy(t, RecordWeight, 5)
  }

  /** Of two records of equal weight, the one whose name first qualifies earlier in `cs` comes first. */
  predicate RecordTiesInFirstOrder(cs: seq<Record>, r: seq<Record>)
  {
    forall i, j :: 0 <= i < j < |r| && r[i].weight == r[j].weight ==>
      FirstQualifying(cs, r[i].name) < FirstQualifying(cs, r[j].name)
  }

  /** `n` is not the name of any record of `r`. */
  predicate NoRecordFor(r: seq<Record>, n: string)
  {
    forall i :: 0 <= i < |r| ==> r[i].name != n
  }

  /**
   * A qualifying candidate whose name `r` leaves out, as heavy as a record
   * shown, has a name that first qualifies after that record's.
   */
  predicate RecordLeftOutTiesLater(cs: seq<Record>, r: seq<Record>)
  {
    forall k, i :: 0 <= k < |cs| && Qualifies(cs[k]) && NoRecordFor(r, cs[k].name) && 0 <= i < |r| && cs[k].weight == r[i].weight ==>
      FirstQualifying(cs, r[i].name) < FirstQualifying(cs, cs[k].name)
  }

  /** The top five of a records table in first-qualifying order list tied records in that order. */
  lemma TopRecordsKeepTies(cs: seq<Record>, t: seq<Record>)
    requires InFirstQualifyingOrder(cs, t)
    ensures RecordTiesInFirstOrder(cs, TopBy(t, RecordWeight, 5))
  {
    var r := TopBy(t, RecordWeight, 5);
    forall i, j | 0 <= i < j < |r| && r[i].weight == r[j].weight
      ensures FirstQualifying(cs, r[i].name) < FirstQualifying(cs, r[j].name)
    {
      TopRecordPair(cs, t, i, j);
    }
  }

  /** Two tied records of the top five keep the order of the table they come from. */
  lemma TopRecordPair(cs: seq<Record>, t: seq<Record>, i: nat, j: nat)
    requires InFirstQualifyingOrder(cs, t)
    requires i < j < |TopBy(t, RecordWeight, 5)|
    requires TopBy(t, RecordWeight, 5)[i].weight == TopBy(t, RecordWeight, 5)[j].weight
    ensures FirstQualifying(cs, TopBy(t, RecordWeight, 5)[i].name) < FirstQualifying(cs, TopBy(t, RecordWeight, 5)[j].name)
  {
    var r := TopBy(t, RecordWeight, 5);
    assert RecordWeight(r[i]) == RecordWeight(r[j]);
    TopByKeepsTies(t, RecordWeight, 5, i, j);
    var p, q :| 0 <= p < q < |t| && t[p] == r[i] && t[q] == r[j];
  }

  /** The top five of a records table leave out only names that first qualify after the tied records they show. */
  lemma TopRecordsLeaveLaterTies(cs: seq<Record>, t: seq<Record>)
    requires IsRecordTable(cs, t) && InFirstQualifyingOrder(cs, t)
    ensures RecordLeftOutTiesLater(cs, TopBy(t, RecordWeight, 5))
  {
    var r := TopBy(t, RecordWeight, 5);
    forall k, i | 0 <= k < |cs| && Qualifies(cs[k]) && NoRecordFor(r, cs[k].name) && 0 <= i < |r| && cs[k].weight == r[i].weight
      ensures FirstQualifying(cs, r[i].name) < FirstQualifying(cs, cs[k].name)
    {
      var j :| 0 <= j < |t| && t[j].name == cs[k].name;
      assert t[j] !in r;
      assert SetsRecord(cs, t[j]);
      assert cs[k].weight <= t[j].weight <= r[i].weight;
      assert RecordWeight(t[j]) == RecordWeight(r[i]);
      var p :| 0 <= p < j && t[p] == r[i];
    }
  }

  /** The top five of a records table are records, and every qualifying name left out weighs no more. */
  lemma TopOfRecordTable(cs: seq<Record>, t: seq<Record>)
    requires IsRecordTable(cs, t)
    ensures var r := TopBy(t, RecordWeight, 5);
      && (forall i :: 0 <= i < |r| ==> Qualifies(r[i]) && SetsRecord(cs, r[i]))
      && (forall k :: 0 <= k < |cs| && Qualifies(cs[k]) && (forall i :: 0 <= i < |r| ==> r[i].name != cs[k].name) ==>
        |r| == 5 && forall i :: 0 <= i < |r| ==> cs[k].weight <= r[i].weight)
  {
    var r := TopBy(t, RecordWeight, 5);
    TopRecordsTrue(cs, t, r);
    TopRecordsLeaveLighter(cs, t, r);
  }

  /** Every record of the top five is one the log sets. */
  lemma TopRecordsTrue(cs: seq<Record>, t: seq<Record>, r: seq<Record>)
    requires IsRecordTable(cs, t) && r == TopBy(t, RecordWeight, 5)
    ensures forall i :: 0 <= i < |r| ==> Qualifies(r[i]) && SetsRecord(cs, r[i])
  {
    forall i | 0 <= i < |r|
      ensures Qualifies(r[i]) && SetsRecord(cs, r[i])
    {
      var j :| 0 <= j < |t| && t[j] == r[i];
    }
  }

  /** A qualifying entry whose exercise is left out of the top five is no heavier than any record in it. */
  lemma TopRecordsLeaveLighter(cs: seq<Record>, t: seq<Record>, r: seq<Record>)
    requires IsRecordTable(cs, t) && r == TopBy(t, RecordWeight, 5)
    ensures forall k :: 0 <= k < |cs| && Qualifies(cs[k]) && (forall i :: 0 <= i < |r| ==> r[i].name != cs[k].name) ==>
      |r| == 5 && forall i :: 0 <= i < |r| ==> cs[k].weight <= r[i].weight
  {
    forall k | 0 <= k < |cs| && Qualifies(cs[k]) && (forall i :: 0 <= i < |r| ==> r[i].name != cs[k].name)
      ensures |r| == 5 && forall i :: 0 <= i < |r| ==> cs[k].weight <= r[i].weight
    {
      var j :| 0 <= j < |t| && t[j].name == cs[k].name;
      assert t[j] !in r;
      assert SetsRecord(cs, t[j]);
    }
  }

  /** `getPersonalRecords`: the top five records of the log's exercise entries. */
  function PersonalRecords(ss: seq<Session>): (r: seq<Record>)
    ensures |r| <= 5
    ensures NonIncreasing(r, RecordWeight)
    ensures DistinctBy(r, RecordName)
    ensures forall i :: 0 <= i < |r| ==> Qualifies(r[i]) && SetsRecord(LogCandidates(ss), r[i])
    ensures forall k :: 0 <= k < |LogCandidates(ss)| && Qualifies(LogCandidates(ss)[k]) && (forall i :: 0 <= i < |r| ==> r[i].name != LogCandidates(ss)[k].name) ==>
      |r| == 5 && forall i :: 0 <= i < |r| ==> LogCandidates(ss)[k].weight <= r[i].weight
    ensures RecordTiesInFirstOrder(LogCandidates(ss), r)
    ensures RecordLeftOutTiesLater(LogCandidates(ss), r)
  {
    TopRecords(LogCandidates(ss))
  }

  // ---------------------------------------------------------------------------
  // Favourite exercises and the most frequent exercise
  // ---------------------------------------------------------------------------

  /** An entry of `count`: an exercise name and how many exercise entries carry it. */
  datatype Tally = Tally(name: string, count: nat)

  function TallyName(e: Tally): string { e.name }

  function TallyCount(e: Tally): real { e.count as real }

  /** The names of every exercise entry of the log, in log order. */
  function ExerciseNames(ss: seq<Session>): (ns: seq<string>)
    ensures |ns| == |Occurrences(ss)|
    ensures forall k :: 0 <= k < |ns| ==> ns[k] == Occurrences(ss)[k].ex.nom
  {
    var occs := Occurrences(ss);
    seq(|occs|, k requires 0 <= k < |occs| => occs[k].ex.nom)
  }

  /** The number of entries of `ns` equal to `n`. */
  function CountName(ns: seq<string>, n: string): nat
  {
    if |ns| == 0 then 0
    else CountName(ns[..|ns| - 1], n) + (if ns[|ns| - 1] == n then 1 else 0)
  }

  lemma CountNameSnoc(ns: seq<string>, x: string, n: string)
    ensures CountName(ns + [x], n) == CountName(ns, n) + (if x == n then 1 else 0)
  {
    assert (ns + [x])[..|ns|] == ns;
  }

  /**
   * `t` is the `count` object of `ns`: one entry per non-empty name, holding
   * how often the name occurs, and every non-empty name has an entry.
   */
  predicate IsTallyTable(ns: seq<string>, t: seq<Tally>)
  {
    && DistinctBy(t, TallyName)
    && (forall i :: 0 <= i < |t| ==> t[i].name != "" && t[i].count == CountName(ns, t[i].name) && t[i].count > 0)
    && (forall k :: 0 <= k < |ns| && ns[k] != "" ==> exists i :: 0 <= i < |t| && t[i].name == ns[k])
  }

  /** One step of the counting `forEach`: `if (ex.nom) count[ex.nom] = (count[ex.nom] || 0) + 1`. */
  function UpdateTally(t: seq<Tally>, n: string): (r: seq<Tally>)
    ensures |r| >= |t|
  {
    if n == "" then t
    else match FindFirst(t, (e: Tally) => e.name == n)
      case None => t + [Tally(n, 1)]
      case Some(i) => t[i := Tally(n, t[i].count + 1)]
  }

  /** Entries of names other than `x` keep their counts when `x` is appended. */
  lemma OtherTalliesKept(ns: seq<string>, t: seq<Tally>, x: string, t': seq<Tally>, i0: int)
    requires IsTallyTable(ns, t)
    requires |t'| >= |t|
    requires forall i :: 0 <= i < |t| && i != i0 ==> t'[i] == t[i] && t[i].name != x
    ensures forall i :: 0 <= i < |t| && i != i0 ==> t'[i].count == CountName(ns + [x], t'[i].name)
  {
    forall i | 0 <= i < |t| && i != i0
      ensures t'[i].count == CountName(ns + [x], t'[i].name)
    {
      CountNameSnoc(ns, x, t[i].name);
    }
  }

  /** Coverage survives a step that keeps every name at its index and covers `x`. */
  lemma TallyCoverageExtend(ns: seq<string>, t: seq<Tally>, x: string, t': seq<Tally>)
    requires IsTallyTable(ns, t)
    requires |t'| >= |t| && forall i :: 0 <= i < |t| ==> t'[i].name == t[i].name
    requires x != "" ==> exists i :: 0 <= i < |t'| && t'[i].name == x
    ensures forall k :: 0 <= k < |ns + [x]| && (ns + [x])[k] != "" ==> exists i :: 0 <= i < |t'| && t'[i].name == (ns + [x])[k]
  {
    forall k | 0 <= k < |ns + [x]| && (ns + [x])[k] != ""
      ensures exists i :: 0 <= i < |t'| && t'[i].name == (ns + [x])[k]
    {
      if k < |ns| {
        assert (ns + [x])[k] == ns[k];
        var i :| 0 <= i < |t| && t[i].name == ns[k];
        assert t'[i].name == ns[k];
      }
    }
  }

  /** A first occurrence of a name opens its entry with count 1. */
  lemma NewTallyKeepsTable(ns: seq<string>, t: seq<Tally>, x: string)
    requires IsTallyTable(ns, t) && x != ""
    requires forall i :: 0 <= i < |t| ==> t[i].name != x
    ensures IsTallyTable(ns + [x], t + [Tally(x, 1)])
  {
    var t' := t + [Tally(x, 1)];
    OtherTalliesKept(ns, t, x, t', -1);
    forall k | 0 <= k < |ns|
      ensures ns[k] != x
    {
      if ns[k] == x {
        assert false;  // the covering entry would carry x
      }
    }
    CountNameAbsent(ns, x);
    CountNameSnoc(ns, x, x);
    assert t'[|t|] == Tally(x, 1);
    forall i, j | 0 <= i < j < |t'|
      ensures TallyName(t'[i]) != TallyName(t'[j])
    {
      if j < |t| {
        assert TallyName(t[i]) != TallyName(t[j]);
      }
    }
    TallyCoverageExtend(ns, t, x, t');
  }

  /** A further occurrence of a name adds one to its entry. */
  lemma GrownTallyKeepsTable(ns: seq<string>, t: seq<Tally>, x: string, i0: nat)
    requires IsTallyTable(ns, t) && x != ""
    requires i0 < |t| && t[i0].name == x
    ensures IsTallyTable(ns + [x], t[i0 := Tally(x, t[i0].count + 1)])
  {
    var t' := t[i0 := Tally(x, t[i0].count + 1)];
    forall i | 0 <= i < |t| && i != i0
      ensures t[i].name != x
    {
      assert TallyName(t[i]) != TallyName(t[i0]);
    }
    OtherTalliesKept(ns, t, x, t', i0);
    CountNameSnoc(ns, x, x);
    forall i, j | 0 <= i < j < |t'|
      ensures TallyName(t'[i]) != TallyName(t'[j])
    {
      assert TallyName(t[i]) != TallyName(t[j]);
    }
    TallyCoverageExtend(ns, t, x, t');
  }

  /** `UpdateTally` keeps the table invariant. */
  lemma UpdateTallyKeepsTable(ns: seq<string>, t: seq<Tally>, x: string)
    requires IsTallyTable(ns, t)
    ensures IsTallyTable(ns + [x], UpdateTally(t, x))
  {
    if x == "" {
      OtherTalliesKept(ns, t, x, t, -1);
      TallyCoverageExtend(ns, t, x, t);
    } else {
      match FindFirst(t, (e: Tally) => e.name == x)
      case None =>
        NewTallyKeepsTable(ns, t, x);
      case Some(i0) =>
        GrownTallyKeepsTable(ns, t, x, i0);
    }
  }

  /** A name that does not occur has count 0. */
  lemma {:induction false} CountNameAbsent(ns: seq<string>, n: string)
    requires forall k :: 0 <= k < |ns| ==> ns[k] != n
    ensures CountName(ns, n) == 0
  {
    if |ns| > 0 {
      var prefix := ns[..|ns| - 1];
      assert forall k :: 0 <= k < |prefix| ==> prefix[k] == ns[k];
      CountNameAbsent(prefix, n);
    }
  }

  /** A name with a positive count occurs. */
  lemma {:induction false} CountNamePresent(ns: seq<string>, n: string)
    requires CountName(ns, n) > 0
    ensures exists k :: 0 <= k < |ns| && ns[k] == n
  {
    var prefix := ns[..|ns| - 1];
    if ns[|ns| - 1] != n {
      CountNamePresent(prefix, n);
      var k :| 0 <= k < |prefix| && prefix[k] == n;
      assert ns[k] == n;
    }
  }

  /** The position of the first occurrence of `n` in `ns`, or `|ns|` when it does not occur. */
  function FirstUse(ns: seq<string>, n: string): (i: nat)
    ensures i <= |ns|
    ensures i < |ns| ==> ns[i] == n
    ensures forall k :: 0 <= k < i ==> ns[k] != n
  {
    if |ns| == 0 then 0
    else if ns[0] == n then 0
    else 1 + FirstUse(ns[1..], n)
  }

  /** Appending a name moves no first occurrence, and puts a new name's at the end. */
  lemma FirstUseSnoc(ns: seq<string>, x: string, n: string)
    ensures FirstUse(ns + [x], n) == if FirstUse(ns, n) < |ns| then FirstUse(ns, n) else if x == n then |ns| else |ns| + 1
  {
    if FirstUse(ns, n) < |ns| {
      assert (ns + [x])[FirstUse(ns, n)] == n;
    } else {
      assert (ns + [x])[|ns|] == x;
    }
  }

  /** The entries of `t` stand in the order their names first occur in `ns`. */
  predicate InFirstUseOrder(ns: seq<string>, t: seq<Tally>)
  {
    forall i, j :: 0 <= i < j < |t| ==> FirstUse(ns, t[i].name) < FirstUse(ns, t[j].name)
  }

  /** Every name of a `count` table occurs, so appending a name moves none of their first occurrences. */
  lemma TallyFirstUsesKept(ns: seq<string>, t: seq<Tally>, x: string)
    requires IsTallyTable(ns, t)
    ensures forall i :: 0 <= i < |t| ==> FirstUse(ns + [x], t[i].name) == FirstUse(ns, t[i].name) < |ns|
  {
    forall i | 0 <= i < |t|
      ensures FirstUse(ns + [x], t[i].name) == FirstUse(ns, t[i].name) < |ns|
    {
      CountNamePresent(ns, t[i].name);
      FirstUseSnoc(ns, x, t[i].name);
    }
  }

  /** A counting step keeps the entries in order of first occurrence. */
  lemma UpdateTallyOrder(ns: seq<string>, t: seq<Tally>, x: string)
    requires IsTallyTable(ns, t) && InFirstUseOrder(ns, t)
    ensures InFirstUseOrder(ns + [x], UpdateTally(t, x))
  {
    TallyFirstUsesKept(ns, t, x);
    var f := FindFirst(t, (e: Tally) => e.name == x);
    if x != "" && f.None? {
      assert UpdateTally(t, x) == t + [Tally(x, 1)];
      NewTallyOrder(ns, t, x);
    } else if x != "" {
      var t' := t[f.value := Tally(x, t[f.value].count + 1)];
      assert UpdateTally(t, x) == t';
      forall i, j | 0 <= i < j < |t'|
        ensures FirstUse(ns + [x], t'[i].name) < FirstUse(ns + [x], t'[j].name)
      {
        assert t'[i].name == t[i].name && t'[j].name == t[j].name;
      }
    }
  }

  /** A name with no entry yet first occurs after every entry's name. */
  lemma NewTallyOrder(ns: seq<string>, t: seq<Tally>, x: string)
    requires IsTallyTable(ns, t) && InFirstUseOrder(ns, t) && x != ""
    requires forall i :: 0 <= i < |t| ==> t[i].name != x
    requires forall i :: 0 <= i < |t| ==> FirstUse(ns + [x], t[i].name) == FirstUse(ns, t[i].name) < |ns|
    ensures InFirstUseOrder(ns + [x], t + [Tally(x, 1)])
  {
    forall k | 0 <= k < |ns| && ns[k] != ""
      ensures ns[k] != x
    {
      var i :| 0 <= i < |t| && t[i].name == ns[k];
    }
    FirstUseSnoc(ns, x, x);
    NewNameLast(ns + [x], t, Tally(x, 1));
  }

  /** An entry whose name first occurs after every other entry's can be appended. */
  lemma NewNameLast(ns: seq<string>, t: seq<Tally>, e: Tally)
    requires InFirstUseOrder(ns, t)
    requires forall i :: 0 <= i < |t| ==> FirstUse(ns, t[i].name) < FirstUse(ns, e.name)
    ensures InFirstUseOrder(ns, t + [e])
  {
    var t' := t + [e];
    forall i, j | 0 <= i < j < |t'|
      ensures FirstUse(ns, t'[i].name) < FirstUse(ns, t'[j].name)
    {
      assert t'[i] == t[i];
    }
  }

  /**
   * The `count` object lists its names in order of first occurrence: a name
   * gets its key when first met, and later increments do not move it.
   */
  lemma {:induction false} TallyTableOrder(ns: seq<string>)
    ensures InFirstUseOrder(ns, TallyTable(ns))
  {
    if |ns| > 0 {
      var prefix := ns[..|ns| - 1];
      var x := ns[|ns| - 1];
      assert prefix + [x] == ns;
      TallyTableOrder(prefix);
      var t := TallyTable(prefix);
      assert TallyTable(ns) == UpdateTally(t, x);
      UpdateTallyOrder(prefix, t, x);
    }
  }

  /** The `count` object after the `forEach` over the exercise names in log order. */
  function TallyTable(ns: seq<string>): (t: seq<Tally>)
    ensures IsTallyTable(ns, t)
  {
    if |ns| == 0 then []
    else
      var prefix := ns[..|ns| - 1];
      var x := ns[|ns| - 1];
      assert prefix + [x] == ns;
      UpdateTallyKeepsTable(prefix, TallyTable(prefix), x);
      UpdateTally(TallyTable(prefix), x)
  }

  /**
   * `getFavoriteExercises`: at most five names, most frequent first, each with
   * its number of exercise entries; a name left out occurs no more often than
   * any name shown, and only when five are shown; names of equal count stand
   * in the order they first occur in the log (the stable sort of `count`'s
   * entries, which are in first-insertion order), and a name left out with
   * the count of a name shown first occurs after it.
   */
  function FavoriteExercises(ss: seq<Session>): (r: seq<Tally>)
    ensures |r| <= 5
    ensures NonIncreasing(r, TallyCount)
    ensures DistinctBy(r, TallyName)
    ensures forall i :: 0 <= i < |r| ==> r[i].name != "" && r[i].count == CountName(ExerciseNames(ss), r[i].name)
    ensures forall k :: 0 <= k < |ExerciseNames(ss)| && ExerciseNames(ss)[k] != "" && (forall i :: 0 <= i < |r| ==> r[i].name != ExerciseNames(ss)[k]) ==>
      |r| == 5 && forall i :: 0 <= i < |r| ==> CountName(ExerciseNames(ss), ExerciseNames(ss)[k]) <= r[i].count
    ensures TiesInFirstUseOrder(ExerciseNames(ss), r)
    ensures LeftOutTiesLater(ExerciseNames(ss), r)
  {
    var ns := ExerciseNames(ss);
    var t := TallyTable(ns);
    TopByDistinct(t, TallyCount, 5, TallyName);
    TopOfTallyTable(ns, t);
    TopTalliesKeepTies(ns);
    TopTalliesLeaveLaterTies(ns);
    TopBy(t, TallyCount, 5)
  }

  /** `n` is not the name of any entry of `r`. */
  predicate NotShown(r: seq<Tally>, n: string)
  {
    forall i :: 0 <= i < |r| ==> r[i].name != n
  }

  /**
   * A name of `ns` that `r` leaves out, with as many entries as a name shown,
   * first occurs after that name: the slice keeps the earliest of a tie.
   */
  predicate LeftOutTiesLater(ns: seq<string>, r: seq<Tally>)
  {
    forall k, i :: 0 <= k < |ns| && ns[k] != "" && NotShown(r, ns[k]) && 0 <= i < |r| && CountName(ns, ns[k]) == r[i].count ==>
      FirstUse(ns, r[i].name) < FirstUse(ns, ns[k])
  }

  /** The top five of the `count` table leave out only names that first occur after the tied names they show. */
  lemma TopTalliesLeaveLaterTies(ns: seq<string>)
    ensures LeftOutTiesLater(ns, TopBy(TallyTable(ns), TallyCount, 5))
  {
    var t := TallyTable(ns);
    var r := TopBy(t, TallyCount, 5);
    TallyTableOrder(ns);
    forall k, i | 0 <= k < |ns| && ns[k] != "" && NotShown(r, ns[k]) && 0 <= i < |r| && CountName(ns, ns[k]) == r[i].count
      ensures FirstUse(ns, r[i].name) < FirstUse(ns, ns[k])
    {
      TallyLeftOutLater(ns, t, r, k, i);
    }
  }

  /** A name left out of the top five with the count of a name in it occurs first after that name. */
  lemma TallyLeftOutLater(ns: seq<string>, t: seq<Tally>, r: seq<Tally>, k: nat, i: nat)
    requires t == TallyTable(ns) && r == TopBy(t, TallyCount, 5) && InFirstUseOrder(ns, t)
    requires k < |ns| && ns[k] != "" && NotShown(r, ns[k]) && i < |r| && CountName(ns, ns[k]) == r[i].count
    ensures FirstUse(ns, r[i].name) < FirstUse(ns, ns[k])
  {
    var j :| 0 <= j < |t| && t[j].name == ns[k];
    assert t[j] !in r;
    assert TallyCount(t[j]) == TallyCount(r[i]);
    var p :| 0 <= p < j && t[p] == r[i];
  }

  /** Of two entries of equal count, the one whose name occurs first in `ns` comes first. */
  predicate TiesInFirstUseOrder(ns: seq<string>, r: seq<Tally>)
  {
    forall i, j :: 0 <= i < j < |r| && r[i].count == r[j].count ==> FirstUse(ns, r[i].name) < FirstUse(ns, r[j].name)
  }

  /** The top five of the `count` table list tied names in order of first occurrence. */
  lemma TopTalliesKeepTies(ns: seq<string>)
    ensures TiesInFirstUseOrder(ns, TopBy(TallyTable(ns), TallyCount, 5))
  {
    var t := TallyTable(ns);
    var r := TopBy(t, TallyCount, 5);
    TallyTableOrder(ns);
    forall i, j | 0 <= i < j < |r| && r[i].count == r[j].count
      ensures FirstUse(ns, r[i].name) < FirstUse(ns, r[j].name)
    {
      TopTallyPair(ns, t, i, j);
    }
  }

  /** Two tied entries of the top five keep the first-occurrence order of the table they come from. */
  lemma TopTallyPair(ns: seq<string>, t: seq<Tally>, i: nat, j: nat)
    requires InFirstUseOrder(ns, t)
    requires i < j < |TopBy(t, TallyCount, 5)|
    requires TopBy(t, TallyCount, 5)[i].count == TopBy(t, TallyCount, 5)[j].count
    ensures FirstUse(ns, TopBy(t, TallyCount, 5)[i].name) < FirstUse(ns, TopBy(t, TallyCount, 5)[j].name)
  {
    var r := TopBy(t, TallyCount, 5);
    assert TallyCount(r[i]) == TallyCount(r[j]);
    TopByKeepsTies(t, TallyCount, 5, i, j);
    var p, q :| 0 <= p < q < |t| && t[p] == r[i] && t[q] == r[j];
  }

  /** The top five of a `count` table hold true counts, and every name left out occurs no more often. */
  lemma TopOfTallyTable(ns: seq<string>, t: seq<Tally>)
    requires IsTallyTable(ns, t)
    ensures var r := TopBy(t, TallyCount, 5);
      && (forall i :: 0 <= i < |r| ==> r[i].name != "" && r[i].count == CountName(ns, r[i].name))
      && (forall k :: 0 <= k < |ns| && ns[k] != "" && (forall i :: 0 <= i < |r| ==> r[i].name != ns[k]) ==>
        |r| == 5 && forall i :: 0 <= i < |r| ==> CountName(ns, ns[k]) <= r[i].count)
  {
    var r := TopBy(t, TallyCount, 5);
    TopTalliesTrue(ns, t, r);
    TopTalliesLeaveFewer(ns, t, r);
  }

  /** Every entry of the top five is an entry of the table. */
  lemma TopTalliesTrue(ns: seq<string>, t: seq<Tally>, r: seq<Tally>)
    requires IsTallyTable(ns, t) && r == TopBy(t, TallyCount, 5)
    ensures forall i :: 0 <= i < |r| ==> r[i].name != "" && r[i].count == CountName(ns, r[i].name)
  {
    forall i | 0 <= i < |r|
      ensures r[i].name != "" && r[i].count == CountName(ns, r[i].name)
    {
      var j :| 0 <= j < |t| && t[j] == r[i];
    }
  }

  /** A name left out of the top five occurs no more often than any name in it. */
  lemma TopTalliesLeaveFewer(ns: seq<string>, t: seq<Tally>, r: seq<Tally>)
    requires IsTallyTable(ns, t) && r == TopBy(t, TallyCount, 5)
    ensures forall k :: 0 <= k < |ns| && ns[k] != "" && (forall i :: 0 <= i < |r| ==> r[i].name != ns[k]) ==>
      |r| == 5 && forall i :: 0 <= i < |r| ==> CountName(ns, ns[k]) <= r[i].count
  {
    forall k | 0 <= k < |ns| && ns[k] != "" && (forall i :: 0 <= i < |r| ==> r[i].name != ns[k])
      ensures |r| == 5 && forall i :: 0 <= i < |r| ==> CountName(ns, ns[k]) <= r[i].count
    {
      var j :| 0 <= j < |t| && t[j].name == ns[k];
      assert t[j] !in r;
    }
  }

  /**
   * The scan of `getBestExercise` over the `count` entries: a running maximum
   * starting at 0 that moves only on a strictly larger count, so it ends at
   * the first entry of largest count.
   */
  function BestOf(t: seq<Tally>): (r: Option<nat>)
    ensures r.Some? ==> r.value < |t| && t[r.value].count > 0
    ensures r.Some? ==> forall j :: 0 <= j < |t| ==> t[j].count <= t[r.value].count
    ensures r.Some? ==> forall j :: 0 <= j < r.value ==> t[j].count < t[r.value].count
    ensures r.None? <==> forall j :: 0 <= j < |t| ==> t[j].count == 0
  {
    if |t| == 0 then None
    else
      var prefix := t[..|t| - 1];
      var e := t[|t| - 1];
      var b := BestOf(prefix);
      assert forall j :: 0 <= j < |prefix| ==> t[j] == prefix[j];
      if e.count > (if b.None? then 0 else prefix[b.value].count) then Some(|t| - 1) else b
  }

  /**
   * `getBestExercise`: the name with the most exercise entries, on a tie the
   * one that occurs first in the log; `None` (the `'-'` placeholder) when no
   * entry has a name.
   */
  function BestExercise(ss: seq<Session>): (r: Option<string>)
    ensures r.None? <==> forall k :: 0 <= k < |ExerciseNames(ss)| ==> ExerciseNames(ss)[k] == ""
    ensures r.Some? ==> r.value != ""
    ensures r.Some? ==> forall k :: 0 <= k < |ExerciseNames(ss)| ==>
      CountName(ExerciseNames(ss), ExerciseNames(ss)[k]) <= CountName(ExerciseNames(ss), r.value) || ExerciseNames(ss)[k] == ""
    ensures r.Some? ==> FirstAmongTied(ExerciseNames(ss), r.value)
  {
    var ns := ExerciseNames(ss);
    var t := TallyTable(ns);
    match BestOf(t)
    case None =>
      assert |t| == 0;
      None
    case Some(b) =>
      BestOfIsMost(ns, t, b);
      BestOfFirstAmongTied(ns);
      Some(t[b].name)
  }

  /** The entry the scan picks holds a name, and no name occurs more often. */
  lemma BestOfIsMost(ns: seq<string>, t: seq<Tally>, b: nat)
    requires IsTallyTable(ns, t) && BestOf(t) == Some(b)
    ensures t[b].name != ""
    ensures exists k :: 0 <= k < |ns| && ns[k] == t[b].name
    ensures forall k :: 0 <= k < |ns| ==> CountName(ns, ns[k]) <= CountName(ns, t[b].name) || ns[k] == ""
  {
    CountNamePresent(ns, t[b].name);
    forall k | 0 <= k < |ns| && ns[k] != ""
      ensures CountName(ns, ns[k]) <= CountName(ns, t[b].name)
    {
      var j :| 0 <= j < |t| && t[j].name == ns[k];
    }
  }

  /** No other name with as many occurrences as `n` occurs before `n` does. */
  predicate FirstAmongTied(ns: seq<string>, n: string)
  {
    forall k :: 0 <= k < |ns| && ns[k] != "" && CountName(ns, ns[k]) == CountName(ns, n) ==> FirstUse(ns, n) <= FirstUse(ns, ns[k])
  }

  /** The scan's pick is, among the names of largest count, the one met first. */
  lemma BestOfFirstAmongTied(ns: seq<string>)
    requires BestOf(TallyTable(ns)).Some?
    ensures FirstAmongTied(ns, TallyTable(ns)[BestOf(TallyTable(ns)).value].name)
  {
    var t := TallyTable(ns);
    var b := BestOf(t).value;
    TallyTableOrder(ns);
    forall k | 0 <= k < |ns| && ns[k] != "" && CountName(ns, ns[k]) == CountName(ns, t[b].name)
      ensures FirstUse(ns, t[b].name) <= FirstUse(ns, ns[k])
    {
      var j :| 0 <= j < |t| && t[j].name == ns[k];
      assert b <= j;
    }
  }

  /** The most frequent exercise is the first favourite, ties included. */
  lemma BestIsFirstFavorite(ss: seq<Session>)
    ensures BestExercise(ss).None? <==> |FavoriteExercises(ss)| == 0
    ensures BestExercise(ss).Some? ==> BestExercise(ss).value == FavoriteExercises(ss)[0].name
  {
    var ns := ExerciseNames(ss);
    var t := TallyTable(ns);
    if |t| > 0 {
      var h := SortDescHead(t, TallyCount);
      var b := BestOf(t).value;
      assert h == b by {
        assert !(h < b) && !(b < h);
      }
      assert FavoriteExercises(ss)[0] == SortDesc(t, TallyCount)[0];
    } else {
      assert BestOf(t).None?;
    }
  }

  // ---------------------------------------------------------------------------
  // Distinct exercises against the count table
  // ---------------------------------------------------------------------------

  /** The names a table holds. */
  function TableNames(t: seq<Tally>): set<string>
  {
    set i | 0 <= i < |t| :: t[i].name
  }

  /** A table of distinct names holds as many names as entries. */
  lemma {:induction false} DistinctTableSize(t: seq<Tally>)
    requires DistinctBy(t, TallyName)
    ensures |TableNames(t)| == |t|
    decreases |t|
  {
    if |t| > 0 {
      var prefix := t[..|t| - 1];
      var last := t[|t| - 1];
      assert DistinctBy(prefix, TallyName) by {
        forall i, j | 0 <= i < j < |prefix|
          ensures TallyName(prefix[i]) != TallyName(prefix[j])
        {
          assert prefix[i] == t[i] && prefix[j] == t[j];
        }
      }
      DistinctTableSize(prefix);
      assert TableNames(t) == TableNames(prefix) + {last.name} by {
        forall n | n in TableNames(t)
          ensures n in TableNames(prefix) + {last.name}
        {
          var i :| 0 <= i < |t| && t[i].name == n;
          if i < |t| - 1 {
            assert prefix[i] == t[i];
          }
        }
        forall n | n in TableNames(prefix)
          ensures n in TableNames(t)
        {
          var i :| 0 <= i < |prefix| && prefix[i].name == n;
          assert t[i] == prefix[i];
        }
      }
      forall i | 0 <= i < |prefix|
        ensures prefix[i].name != last.name
      {
        assert TallyName(t[i]) != TallyName(t[|t| - 1]);
      }
    }
  }

  /** The `count` table and the `Set` of `getUniqueExercises` hold the same names. */
  lemma TallyTableNames(ss: seq<Session>)
    ensures TableNames(TallyTable(ExerciseNames(ss))) == NameSet(Occurrences(ss))
  {
    var ns := ExerciseNames(ss);
    var occs := Occurrences(ss);
    var t := TallyTable(ns);
    forall n | n in NameSet(occs)
      ensures n in TableNames(t)
    {
      var o :| o in occs && Named(o) && o.ex.nom == n;
      var k :| 0 <= k < |occs| && occs[k] == o;
      assert ns[k] == n && n != "";
      var i :| 0 <= i < |t| && t[i].name == ns[k];
    }
    forall n | n in TableNames(t)
      ensures n in NameSet(occs)
    {
      var i :| 0 <= i < |t| && t[i].name == n;
      CountNamePresent(ns, n);
      var k :| 0 <= k < |ns| && ns[k] == n;
      assert occs[k] in occs && Named(occs[k]) && occs[k].ex.nom == n;
    }
  }

  /**
   * `getUniqueExercises` counts each name once: it equals the number of
   * entries of the `count` table, which holds every name once.
   */
  lemma UniqueExercisesIsTallySize(ss: seq<Session>)
    ensures UniqueExercises(ss) == |TallyTable(ExerciseNames(ss))|
  {
    TallyTableNames(ss);
    DistinctTableSize(TallyTable(ExerciseNames(ss)));
  }

  // ---------------------------------------------------------------------------
  // Latest session date
  // ---------------------------------------------------------------------------

  function SessionTime(s: Session): real { Instant(s.date) as real }

  /**
   * `getLastSession`: the date of the first session after a stable sort by
   * date, latest first, which is a latest date of the log; `None` (the `'-'`
   * placeholder) on an empty log.
   */
  function LastSession(ss: seq<Session>): (r: Option<Moment>)
    ensures r.None? <==> |ss| == 0
    ensures r.Some? ==> exists i :: 0 <= i < |ss| && ss[i].date == r.value
    ensures r.Some? ==> forall i :: 0 <= i < |ss| ==> Instant(ss[i].date) <= Instant(r.value)
  {
    if |ss| == 0 then None
    else
      var sorted := SortDesc(ss, SessionTime);
      assert sorted[0] in multiset(ss);
      forall i | 0 <= i < |ss|
        ensures Instant(ss[i].date) <= Instant(sorted[0].date)
      {
        assert ss[i] in multiset(sorted);
        var j :| 0 <= j < |sorted| && sorted[j] == ss[i];
        assert j == 0 || SessionTime(sorted[0]) >= SessionTime(sorted[j]);
      }
      Some(sorted[0].date)
  }
}

=== FILE: store.dfy ===
/**
 * The list operations of the data layer (`AppData`). The stored document is a
 * value; every operation returns the document it would save. Identifiers and
 * creation dates, which `addProgram` and `addSession` take from the clock, are parameters.
 */
module Store {
  import opened Basics
  import opened Calendar
  import opened Model
  import opened Lists

  /** The document used when nothing is stored yet. */
  function GetDefaultData(): (r: Data)
    ensures forall id :: GetProgramById(r.programs, id).None? && GetSessionById(r.sessions, id).None?
    ensures r.userName == ""
  {
    Data([], [], "")
  }

  /** The fields an `updateProgram` call supplies; `None` marks a field left out of the update object. */
  datatype ProgramPatch = ProgramPatch(
    id: Option<string>,
    nom: Option<string>,
    createdAt: Option<Moment>,
    exercices: Option<seq<Exercise>>)

  /** `{ ...p, ...patch }`: a supplied field replaces the stored one, the others are kept. */
  function Merge(p: Program, patch: ProgramPatch): (r: Program)
    ensures patch.id.Some? ==> r.id == patch.id.value
    ensures patch.id.None? ==> r.id == p.id
    ensures patch.nom.Some? ==> r.nom == patch.nom.value
    ensures patch.nom.None? ==> r.nom == p.nom
    ensures patch.createdAt.Some? ==> r.createdAt == patch.createdAt.value
    ensures patch.createdAt.None? ==> r.createdAt == p.createdAt
    ensures patch.exercices.Some? ==> r.exercices == patch.exercices.value
    ensures patch.exercices.None? ==> r.exercices == p.exercices
    ensures patch == ProgramPatch(None, None, None, None) ==> r == p
  {
    Program(
      match patch.id case Some(v) => v case None => p.id,
      match patch.nom case Some(v) => v case None => p.nom,
      match patch.createdAt case Some(v) => v case None => p.createdAt,
      match patch.exercices case Some(v) => v case None => p.exercices)
  }

  /**
   * Spreading a patch a second time changes nothing, and a patch that supplies every
   * field determines the result whatever the stored program was.
   */
  lemma MergeLaws(p: Program, q: Program, patch: ProgramPatch)
    ensures Merge(Merge(p, patch), patch) == Merge(p, patch)
    ensures patch.id.Some? && patch.nom.Some? && patch.createdAt.Some? && patch.exercices.Some? ==>
      Merge(p, patch) == Merge(q, patch)
  {
  }

  /** `i` is the first position holding a program with identifier `id`. */
  ghost predicate FirstProgramWithId(ps: seq<Program>, i: int, id: string)
  {
    0 <= i < |ps| && ps[i].id == id && forall j :: 0 <= j < i ==> ps[j].id != id
  }

  ghost predicate FirstSessionWithId(ss: seq<Session>, i: int, id: string)
  {
    0 <= i < |ss| && ss[i].id == id && forall j :: 0 <= j < i ==> ss[j].id != id
  }

  /** `find(p => p.id === id)`: the first program with that identifier. */
  function GetProgramById(ps: seq<Program>, id: string): (r: Option<Program>)
    ensures r.None? <==> forall j :: 0 <= j < |ps| ==> ps[j].id != id
    ensures r.Some? ==> exists i :: FirstProgramWithId(ps, i, id) && ps[i] == r.value
  {
    match FindFirst(ps, (p: Program) => p.id == id)
    case None => None
    case Some(i) => Some(ps[i])
  }

  /** `find(s => s.id === id)`: the first session with that identifier. */
  function GetSessionById(ss: seq<Session>, id: string): (r: Option<Session>)
    ensures r.None? <==> forall j :: 0 <= j < |ss| ==> ss[j].id != id
    ensures r.Some? ==> exists i :: FirstSessionWithId(ss, i, id) && ss[i] == r.value
  {
    match FindFirst(ss, (s: Session) => s.id == id)
    case None => None
    case Some(i) => Some(ss[i])
  }

  /** `addProgram`: stamps the program with the supplied identifier and creation date and appends it. */
  function AddProgram(d: Data, p: Program, id: string, createdAt: Moment): (r: (Data, Program))
    ensures r.1.id == id && r.1.createdAt == createdAt
    ensures r.1.nom == p.nom && r.1.exercices == p.exercices
    ensures r.0.programs == d.programs + [r.1]
    ensures r.0.sessions == d.sessions && r.0.userName == d.userName
  {
    var stamped := p.(id := id, createdAt := createdAt);
    (d.(programs := d.programs + [stamped]), stamped)
  }

  /** `addSession`: stamps the session with the supplied identifier and date and appends it. */
  function AddSession(d: Data, s: Session, id: string, date: Moment): (r: (Data, Session))
    ensures r.1.id == id && r.1.date == date
    ensures r.1.programId == s.programId && r.1.programName == s.programName && r.1.exercices == s.exercices
    ensures r.0.sessions == d.sessions + [r.1]
    ensures r.0.programs == d.programs && r.0.userName == d.userName
  {
    var stamped := s.(id := id, date := date);
    (d.(sessions := d.sessions + [stamped]), stamped)
  }

  /**
   * `updateProgram`: merges the patch into the first program with identifier `id`;
   * with no such program the document is unchanged.
   */
  function UpdateProgram(d: Data, id: string, patch: ProgramPatch): (r: Data)
    ensures (forall j :: 0 <= j < |d.programs| ==> d.programs[j].id != id) ==> r == d
    ensures r.sessions == d.sessions && r.userName == d.userName
    ensures |r.programs| == |d.programs|
    ensures forall i :: 0 <= i < |d.programs| ==>
      r.programs[i] == if FirstProgramWithId(d.programs, i, id) then Merge(d.programs[i], patch) else d.programs[i]
  {
    match FindFirst(d.programs, (p: Program) => p.id == id)
    case None => d
    case Some(i) => d.(programs := d.programs[i := Merge(d.programs[i], patch)])
  }

  /** `deleteProgram`: keeps exactly the programs whose identifier differs from `id`, in order. */
  function DeleteProgram(d: Data, id: string): (r: Data)
    ensures forall p :: p in r.programs <==> p in d.programs && p.id != id
    ensures |r.programs| + |Keep(d.programs, (p: Program) => p.id == id)| == |d.programs|
    ensures r.sessions == d.sessions && r.userName == d.userName
  {
    KeepDisjointCount(d.programs, (p: Program) => p.id != id, (p: Program) => p.id == id, (p: Program) => true);
    KeepAll(d.programs, (p: Program) => true);
    d.(programs := Keep(d.programs, (p: Program) => p.id != id))
  }

  /** `deleteSession`: keeps exactly the sessions whose identifier differs from `id`, in order. */
  function DeleteSession(d: Data, id: string): (r: Data)
    ensures forall s :: s in r.sessions <==> s in d.sessions && s.id != id
    ensures |r.sessions| + |Keep(d.sessions, (s: Session) => s.id == id)| == |d.sessions|
    ensures r.programs == d.programs && r.userName == d.userName
  {
    KeepDisjointCount(d.sessions, (s: Session) => s.id != id, (s: Session) => s.id == id, (s: Session) => true);
    KeepAll(d.sessions, (s: Session) => true);
    d.(sessions := Keep(d.sessions, (s: Session) => s.id != id))
  }

  /**
   * Deleting works element by element: on a log split in two it deletes from each
   * part, so the survivors keep their relative order; an unknown identifier
   * changes nothing; deleting twice is deleting once.
   */
  lemma DeleteSessionIsOrderedFilter(d: Data, a: seq<Session>, b: seq<Session>, id: string)
    requires d.sessions == a + b
    ensures DeleteSession(d, id).sessions == DeleteSession(d.(sessions := a), id).sessions + DeleteSession(d.(sessions := b), id).sessions
    ensures (forall j :: 0 <= j < |d.sessions| ==> d.sessions[j].id != id) ==> DeleteSession(d, id) == d
    ensures DeleteSession(DeleteSession(d, id), id) == DeleteSession(d, id)
  {
    var keep := (s: Session) => s.id != id;
    KeepConcat(a, b, keep);
    if forall j :: 0 <= j < |d.sessions| ==> d.sessions[j].id != id {
      KeepAll(d.sessions, keep);
    }
    var once := Keep(d.sessions, keep);
    assert forall j :: 0 <= j < |once| ==> keep(once[j]) by {
      forall j | 0 <= j < |once|
        ensures keep(once[j])
      {
        assert once[j] in once;
      }
    }
    KeepAll(once, keep);
  }

  /** The same three facts for programs. */
  lemma DeleteProgramIsOrderedFilter(d: Data, a: seq<Program>, b: seq<Program>, id: string)
    requires d.programs == a + b
    ensures DeleteProgram(d, id).programs == DeleteProgram(d.(programs := a), id).programs + DeleteProgram(d.(programs := b), id).programs
    ensures (forall j :: 0 <= j < |d.programs| ==> d.programs[j].id != id) ==> DeleteProgram(d, id) == d
    ensures DeleteProgram(DeleteProgram(d, id), id) == DeleteProgram(d, id)
  {
    var keep := (p: Program) => p.id != id;
    KeepConcat(a, b, keep);
    if forall j :: 0 <= j < |d.programs| ==> d.programs[j].id != id {
      KeepAll(d.programs, keep);
    }
    var once := Keep(d.programs, keep);
    assert forall j :: 0 <= j < |once| ==> keep(once[j]) by {
      forall j | 0 <= j < |once|
        ensures keep(once[j])
      {
        assert once[j] in once;
      }
    }
    KeepAll(once, keep);
  }

  /**
   * `getLastSessionForProgram`: among the sessions of the program, the one with the
   * latest date; equal dates keep log order under the stable sort, so the earliest
   * logged of them.
   */
  function GetLastSessionForProgram(ss: seq<Session>, programId: string): (r: Option<Session>)
    ensures r.None? <==> forall j :: 0 <= j < |ss| ==> ss[j].programId != programId
    ensures r.Some? ==> exists i :: EarliestMax(ss, (s: Session) => s.programId == programId, (s: Session) => Instant(s.date) as real, i) && ss[i] == r.value
  {
    var ofProgram := (s: Session) => s.programId == programId;
    var matching := Keep(ss, ofProgram);
    if |matching| == 0 then
      assert forall j :: 0 <= j < |ss| ==> ss[j].programId != programId by {
        forall j | 0 <= j < |ss|
          ensures ss[j].programId != programId
        {
          assert ss[j] in ss;
        }
      }
      None
    else
      var byDate := (s: Session) => Instant(s.date) as real;
      SortKeptHeadIsEarliestMax(ss, ofProgram, byDate);
      Some(SortDesc(matching, byDate)[0])
  }
}

=== FILE: streak.dfy ===
/**
 * `getCurrentStreak`: the number of consecutive days with at least one session,
 * counted back from today if the latest session day is today, and otherwise
 * from yesterday (even when the latest session day lies after today).
 */
module Streak {
  import opened Calendar
  import opened Model
  import opened Store

  /** Local midnight of the session's date, as a day number. */
  function DayOf(s: Session): int
  {
    DayNumber(s.date)
  }


  /** `sessions.map(...)`: the session days in log order, repeats included. */
  function DayList(ss: seq<Session>): (r: seq<int>)
    ensures |r| == |ss|
    ensures forall i :: 0 <= i < |r| ==> r[i] == DayOf(ss[i])
  {
    if |ss| == 0 then [] else [DayOf(ss[0])] + DayList(ss[1..])
  }

  /** The distinct days of a day list. */
  function DaySet(ds: seq<int>): set<int>
  {
    set d | d in ds
  }

  /** The days on which at least one session was logged. */
  function SessionDays(ss: seq<Session>): set<int>
  {
    DaySet(DayList(ss))
  }

  /**
   * The `n` days ending at `last` all belong to `days`, and the day before them
   * does not: a maximal run of consecutive days.
   */
  predicate RunEndingAt(days: set<int>, last: int, n: nat)
  {
    && (forall d :: last - n < d <= last ==> d in days)
    && last - n !in days
  }

  predicate StrictlyDesc(xs: seq<int>)
  {
    forall i, j :: 0 <= i < j < |xs| ==> xs[i] > xs[j]
  }

  /** Adds x to a strictly descending list unless it is already there. */
  function InsertDistinct(x: int, ys: seq<int>): (r: seq<int>)
    requires StrictlyDesc(ys)
    ensures StrictlyDesc(r)
    ensures forall z :: z in r <==> z in ys || z == x
  {
    if |ys| == 0 then [x]
    else if x == ys[0] then ys
    else if x > ys[0] then [x] + ys
    else
      var rest := InsertDistinct(x, ys[1..]);
      assert forall z :: z in rest ==> z < ys[0] by {
        forall z | z in rest
          ensures z < ys[0]
        {
          if z != x {
            var j :| 0 <= j < |ys[1..]| && ys[1..][j] == z;
            assert ys[j + 1] == z;
          }
        }
      }
      assert forall j :: 0 <= j < |rest| ==> rest[j] < ys[0] by {
        forall j | 0 <= j < |rest|
          ensures rest[j] < ys[0]
        {
          assert rest[j] in rest;
        }
      }
      [ys[0]] + rest
  }

  /** `[...new Set(days)].sort((a, b) => b - a)`: the distinct days, latest first. */
  function DistinctDesc(ds: seq<int>): (r: seq<int>)
    ensures StrictlyDesc(r)
    ensures forall z :: z in r <==> z in ds
  {
    if |ds| == 0 then []
    else
      var rest := DistinctDesc(ds[1..]);
      assert forall z :: z in ds <==> z == ds[0] || z in ds[1..] by {
        assert ds == [ds[0]] + ds[1..];
      }
      InsertDistinct(ds[0], rest)
  }

  /** A strictly descending list has no repeats, so as many elements as its length. */
  lemma {:induction false} StrictlyDescCard(xs: seq<int>)
    requires StrictlyDesc(xs)
    ensures |set z | z in xs| == |xs|
  {
    if |xs| > 0 {
      StrictlyDescCard(xs[1..]);
      assert (set z | z in xs) == {xs[0]} + (set z | z in xs[1..]);
      assert xs[0] !in xs[1..];
    }
  }

  /**
   * The loop of `getCurrentStreak` over the sorted distinct days: a day equal to
   * the day being checked extends the streak and moves the check one day back, a
   * day before it ends the loop, a later day is skipped. It returns the length of
   * the run of consecutive days ending at `check`.
   */
  function Walk(days: seq<int>, check: int): (n: nat)
    requires StrictlyDesc(days)
    ensures forall d :: check - n < d <= check ==> d in days
    ensures check - n !in days
    ensures n <= |days|
  {
    if |days| == 0 then 0
    else
      HeadIsLatest(days);
      if days[0] == check then
        1 + Walk(days[1..], check - 1)
      else if days[0] < check then
        0
      else
        Walk(days[1..], check)
  }

  /** The head of a strictly descending list is its latest day, the tail is strictly descending and lies below it. */
  lemma HeadIsLatest(days: seq<int>)
    requires StrictlyDesc(days) && |days| > 0
    ensures StrictlyDesc(days[1..])
    ensures forall z :: z in days ==> z <= days[0]
    ensures forall z :: z in days <==> z == days[0] || z in days[1..]
    ensures days[0] !in days[1..]
  {
    assert days == [days[0]] + days[1..];
    forall z | z in days
      ensures z <= days[0]
    {
      var j :| 0 <= j < |days| && days[j] == z;
    }
  }

  /** The latest day of a non-empty day list. */
  function Latest(ds: seq<int>): (d: int)
    requires |ds| > 0
    ensures d in ds
    ensures forall z :: z in ds ==> z <= d
  {
    if |ds| == 1 then ds[0]
    else
      var rest := Latest(ds[1..]);
      assert forall z :: z in ds <==> z == ds[0] || z in ds[1..] by {
        assert ds == [ds[0]] + ds[1..];
      }
      if ds[0] >= rest then ds[0] else rest
  }

  /** The latest day with a session. */
  function LatestDay(ss: seq<Session>): (d: int)
    requires |ss| > 0
    ensures d in SessionDays(ss)
    ensures forall s :: s in ss ==> DayOf(s) <= d
  {
    var dl := DayList(ss);
    assert forall s :: s in ss ==> DayOf(s) in dl by {
      forall s | s in ss
        ensures DayOf(s) in dl
      {
        var i :| 0 <= i < |ss| && ss[i] == s;
        assert dl[i] == DayOf(s);
      }
    }
    Latest(dl)
  }

  /** The day the count starts from: today if the latest day is today, else yesterday. */
  function AnchorOf(ds: seq<int>, today: int): int
    requires |ds| > 0
  {
    if Latest(ds) == today then today else today - 1
  }

  /** The day the streak count starts from for a non-empty log. */
  function Anchor(ss: seq<Session>, today: int): int
    requires |ss| > 0
  {
    AnchorOf(DayList(ss), today)
  }

  /** The sorted distinct day list holds exactly the listed days, latest first. */
  lemma DistinctDescFacts(ds: seq<int>)
    requires |ds| > 0
    ensures |DistinctDesc(ds)| == |DaySet(ds)|
    ensures DistinctDesc(ds)[0] == Latest(ds)
  {
    var days := DistinctDesc(ds);
    StrictlyDescCard(days);
    assert (set z | z in days) == DaySet(ds);
    var latest := Latest(ds);
    var k :| 0 <= k < |days| && days[k] == latest;
    assert days[0] in ds;
    assert days[0] >= days[k];
  }

  /**
   * The loop of `getCurrentStreak` on a day list: sort the distinct days, pick
   * the anchor, walk back. The result is the length of the run of consecutive
   * listed days ending at the anchor.
   */
  function StreakOf(ds: seq<int>, today: int): (r: nat)
    ensures |ds| == 0 ==> r == 0
    ensures |ds| > 0 ==> RunEndingAt(DaySet(ds), AnchorOf(ds, today), r)
    ensures r <= |DaySet(ds)|
  {
    if |ds| == 0 then 0
    else
      var days := DistinctDesc(ds);
      var check := if days[0] == today then today else today - 1;
      AnchorIsFirstCheck(ds, today);
      WalkMeasuresRun(ds, check);
      Walk(days, check)
  }

  /** The anchor is the day the walk starts from: today when the latest distinct day is today. */
  lemma AnchorIsFirstCheck(ds: seq<int>, today: int)
    requires |ds| > 0
    ensures AnchorOf(ds, today) == if DistinctDesc(ds)[0] == today then today else today - 1
  {
    DistinctDescFacts(ds);
  }

  /** Walking back from any day over the sorted distinct days measures the run of listed days ending there. */
  lemma WalkMeasuresRun(ds: seq<int>, check: int)
    ensures RunEndingAt(DaySet(ds), check, Walk(DistinctDesc(ds), check))
    ensures Walk(DistinctDesc(ds), check) <= |DaySet(ds)|
  {
    var days := DistinctDesc(ds);
    StrictlyDescCard(days);
    assert (set z | z in days) == DaySet(ds);
    RunOfDistinct(ds, days, check, Walk(days, check));
  }

  /** A run over the sorted distinct days is a run over the listed days. */
  lemma RunOfDistinct(ds: seq<int>, days: seq<int>, last: int, n: nat)
    requires forall z :: z in days <==> z in ds
    requires forall d :: last - n < d <= last ==> d in days
    requires last - n !in days
    ensures RunEndingAt(DaySet(ds), last, n)
  {
  }

  /**
   * `getCurrentStreak`: 0 on an empty log; otherwise the length of the run of
   * consecutive session days that ends at the anchor day, which is never more
   * than the number of distinct session days.
   */
  function CurrentStreak(ss: seq<Session>, today: int): (r: nat)
    ensures |ss| == 0 ==> r == 0
    ensures |ss| > 0 ==> RunEndingAt(SessionDays(ss), Anchor(ss, today), r)
    ensures r <= |SessionDays(ss)|
  {
    StreakOf(DayList(ss), today)
  }

  /** A maximal run ending at a given day has only one possible length. */
  lemma RunUnique(S: set<int>, last: int, n: nat, m: nat)
    requires RunEndingAt(S, last, n)
    requires RunEndingAt(S, last, m)
    ensures n == m
  {
  }

  /** Three consecutive days ending today give a streak of 3. */
  lemma StreakOfThreeDays(t: int)
    ensures StreakOf([t, t - 1, t - 2], t) == 3
  {
    var a := [t, t - 1, t - 2];
    assert Latest(a) == t;
    assert RunEndingAt(DaySet(a), t, 3);
    RunUnique(DaySet(a), t, 3, StreakOf(a, t));
  }

  /** A gap of one day stops the count. */
  lemma StreakOfGap(t: int)
    ensures StreakOf([t - 2, t], t) == 1
  {
    var b := [t - 2, t];
    assert Latest(b) == t;
    assert RunEndingAt(DaySet(b), t, 1);
    RunUnique(DaySet(b), t, 1, StreakOf(b, t));
  }

  /** A session yesterday and none today still counts. */
  lemma StreakOfYesterday(t: int)
    ensures StreakOf([t - 1], t) == 1
  {
    var c := [t - 1];
    assert RunEndingAt(DaySet(c), t - 1, 1);
    RunUnique(DaySet(c), t - 1, 1, StreakOf(c, t));
  }

  /** A latest session three days ago gives no streak. */
  lemma StreakOfStale(t: int)
    ensures StreakOf([t - 3], t) == 0
  {
    var e := [t - 3];
    assert RunEndingAt(DaySet(e), t - 1, 0);
    RunUnique(DaySet(e), t - 1, 0, StreakOf(e, t));
  }

  /**
   * A session dated tomorrow moves the anchor to yesterday even though today
   * has a session: the count starts from yesterday, which has none.
   */
  lemma StreakOfFutureSession(t: int)
    ensures StreakOf([t + 1, t], t) == 0
  {
    var f := [t + 1, t];
    assert Latest(f) == t + 1;
    assert RunEndingAt(DaySet(f), t - 1, 0);
    RunUnique(DaySet(f), t - 1, 0, StreakOf(f, t));
  }
}

=== FILE: totals.dfy ===
/**
 * Whole-log totals of `AppStats`: session counts, volume (load x repetitions),
 * repetitions, the mean volume per session, the heaviest load and the number
 * of distinct exercise names.
 */
module Totals {
  import opened Basics
  import opened Calendar
  import opened Model
  import opened Lists
  import opened Store

  /** Volume of one set, `(Number(poids) || 0) * (Number(reps) || 0)`. */
  function Volume(sr: Series): (v: real)
    ensures sr.poids.None? || sr.reps.None? ==> v == 0.0
  {
    Num(sr.poids) * Num(sr.reps)
  }

  /** Repetitions of one set, `Number(reps) || 0`. */
  function RepsOf(sr: Series): real
  {
    Num(sr.reps)
  }

  function ExerciseVolume(ex: Exercise): real
  {
    SumOf(ex.series, Volume)
  }

  /** The `sessionVolume` accumulated over one session's exercises and sets. */
  function SessionVolume(s: Session): real
  {
    SumOf(SeriesOf(s.exercices), Volume)
  }

  /** `getTotalSessions`: one per stored session, duplicates included. */
  function TotalSessions(ss: seq<Session>): (n: nat)
    ensures n == |ss|
  {
    |ss|
  }

  /**
   * `getTotalVolume`: the sum of `Volume` over every set of every exercise of
   * every session, which is the sum of the per-session volumes.
   */
  function TotalVolume(ss: seq<Session>): (v: real)
    ensures v == SumOf(ss, SessionVolume)
  {
    SeriesSumBySession(ss);
    SumOf(AllSeries(ss), Volume)
  }

  /** The repetitions of one session's sets. */
  function SessionReps(s: Session): real
  {
    SumOf(SeriesOf(s.exercices), RepsOf)
  }

  /** `getTotalReps`: the sum of the repetitions of every set, which is the sum of the per-session repetitions. */
  function TotalReps(ss: seq<Session>): (r: real)
    ensures r == SumOf(ss, SessionReps)
  {
    SeriesSumBySession(ss);
    SumOf(AllSeries(ss), RepsOf)
  }

  /** Sessions whose date falls in calendar month (y, m), in log order. */
  function SessionsIn(ss: seq<Session>, y: int, m: int): (r: seq<Session>)
    ensures |r| <= |ss|
  {
    if |ss| == 0 then []
    else
      var last := ss[|ss| - 1];
      SessionsIn(ss[..|ss| - 1], y, m) + (if InMonth(last.date, y, m) then [last] else [])
  }

  /** `SessionsIn` keeps exactly the sessions of the month. */
  lemma {:induction false} SessionsInMembers(ss: seq<Session>, y: int, m: int)
    ensures forall x :: x in SessionsIn(ss, y, m) <==> x in ss && InMonth(x.date, y, m)
  {
    if |ss| > 0 {
      var prefix := ss[..|ss| - 1];
      assert ss == prefix + [ss[|ss| - 1]];
      SessionsInMembers(prefix, y, m);
    }
  }

  predicate InMonth(t: Moment, y: int, m: int)
  {
    t.year == y && t.month == m
  }

  /** `SessionsIn` is the `filter` of `getSessionsThisMonth` on the session date's month and year. */
  lemma {:induction false} SessionsInIsFilter(ss: seq<Session>, y: int, m: int)
    ensures SessionsIn(ss, y, m) == Keep(ss, (s: Session) => InMonth(s.date, y, m))
    decreases |ss|
  {
    if |ss| > 0 {
      var prefix := ss[..|ss| - 1];
      var last := ss[|ss| - 1];
      assert prefix + [last] == ss;
      KeepConcat(prefix, [last], (s: Session) => InMonth(s.date, y, m));
      SessionsInIsFilter(prefix, y, m);
    }
  }

  /** `getSessionsThisMonth`: the length of the filter keeping the sessions in the month and year of `now`. */
  function SessionsThisMonth(ss: seq<Session>, now: Moment): (r: nat)
    ensures r == |Keep(ss, (s: Session) => InMonth(s.date, now.year, now.month))|
    ensures r <= |ss|
    ensures r == 0 <==> forall j :: 0 <= j < |ss| ==> !InMonth(ss[j].date, now.year, now.month)
  {
    var inMonth := SessionsIn(ss, now.year, now.month);
    SessionsInIsFilter(ss, now.year, now.month);
    SessionsInMembers(ss, now.year, now.month);
    assert forall j :: 0 <= j < |ss| && InMonth(ss[j].date, now.year, now.month) ==> ss[j] in inMonth by {
      forall j | 0 <= j < |ss| && InMonth(ss[j].date, now.year, now.month)
        ensures ss[j] in inMonth
      {
        assert ss[j] in ss;
      }
    }
    assert |inMonth| > 0 ==> inMonth[0] in inMonth;
    |inMonth|
  }

  /** One more session adds one to this month's count when it falls in the month of `now`, and nothing otherwise. */
  lemma SessionsThisMonthSnoc(ss: seq<Session>, s: Session, now: Moment)
    ensures SessionsThisMonth(ss + [s], now)
      == SessionsThisMonth(ss, now) + (if InMonth(s.date, now.year, now.month) then 1 else 0)
  {
    assert (ss + [s])[..|ss|] == ss;
  }

  lemma {:induction false} SeriesOfAppend(exs: seq<Exercise>, ex: Exercise)
    ensures SeriesOf(exs + [ex]) == SeriesOf(exs) + ex.series
  {
    assert (exs + [ex])[..|exs|] == exs;
  }

  /** A session's volume is the sum of its exercises' volumes. */
  lemma {:induction false} SessionVolumeByExercise(exs: seq<Exercise>)
    ensures SumOf(SeriesOf(exs), Volume) == SumOf(exs, ExerciseVolume)
    decreases |exs|
  {
    if |exs| > 0 {
      var init := exs[..|exs| - 1];
      var last := exs[|exs| - 1];
      assert exs == init + [last];
      SeriesOfAppend(init, last);
      SumOfConcat(SeriesOf(init), last.series, Volume);
      SessionVolumeByExercise(init);
    }
  }

  /** Summing volume and repetitions over all the sets is summing them session by session. */
  lemma {:induction false} SeriesSumBySession(ss: seq<Session>)
    ensures SumOf(AllSeries(ss), Volume) == SumOf(ss, SessionVolume)
    ensures SumOf(AllSeries(ss), RepsOf) == SumOf(ss, SessionReps)
    decreases |ss|
  {
    if |ss| > 0 {
      var init := ss[..|ss| - 1];
      var last := ss[|ss| - 1];
      assert ss == init + [last];
      AllSeriesAppend(init, last);
      SumOfConcat(AllSeries(init), SeriesOf(last.exercices), Volume);
      SumOfConcat(AllSeries(init), SeriesOf(last.exercices), RepsOf);
      SeriesSumBySession(init);
    }
  }

  lemma TotalVolumeAppend(ss: seq<Session>, s: Session)
    ensures TotalVolume(ss + [s]) == TotalVolume(ss) + SessionVolume(s)
    ensures TotalReps(ss + [s]) == TotalReps(ss) + SumOf(SeriesOf(s.exercices), RepsOf)
  {
    AllSeriesAppend(ss, s);
    SumOfConcat(AllSeries(ss), SeriesOf(s.exercices), Volume);
    SumOfConcat(AllSeries(ss), SeriesOf(s.exercices), RepsOf);
  }

  /**
   * `getAverageVolumePerSession`: the rounded mean volume per session, and 0
   * (not a division by zero) for an empty log.
   */
  function AverageVolume(ss: seq<Session>): (r: int)
    ensures |ss| == 0 ==> r == 0
    ensures |ss| > 0 ==> (r as real - 0.5) * (|ss| as real) <= TotalVolume(ss)
    ensures |ss| > 0 ==> TotalVolume(ss) < (r as real + 0.5) * (|ss| as real)
  {
    if |ss| > 0 then
      var n := |ss| as real;
      var avg := Round(TotalVolume(ss) / n);
      ScaleRoundingBounds(TotalVolume(ss), n, avg);
      avg
    else 0
  }

  lemma ScaleRoundingBounds(v: real, n: real, k: int)
    requires n > 0.0
    requires k as real - 0.5 <= v / n < k as real + 0.5
    ensures (k as real - 0.5) * n <= v < (k as real + 0.5) * n
  {
    var mean := v / n;
    var lo := k as real - 0.5;
    var hi := k as real + 0.5;
    assert mean * n == v;
    MulLe(lo, mean, n);
    MulLt(mean, hi, n);
    assert mean * n < hi * n;
  }

  /** The running maximum of the loads, starting from 0 (`if (w > max) max = w`). */
  function MaxPoids(srs: seq<Series>): (r: real)
    ensures r >= 0.0
    ensures forall k :: 0 <= k < |srs| ==> Num(srs[k].poids) <= r
    ensures r == 0.0 || exists k :: 0 <= k < |srs| && Num(srs[k].poids) == r
  {
    if |srs| == 0 then 0.0
    else
      var m := MaxPoids(srs[..|srs| - 1]);
      var w := Num(srs[|srs| - 1].poids);
      assert forall k :: 0 <= k < |srs| - 1 ==> srs[k] == srs[..|srs| - 1][k];
      if w > m then w else m
  }

  /** `Math.max(0, ...loads)` of one exercise entry: its heaviest set, or 0. */
  function TopWeight(ex: Exercise): real
  {
    MaxPoids(ex.series)
  }

  /** `getMaxWeight`: the heaviest load of the log; `None` (shown as '-') when no load is positive. */
  function MaxWeight(ss: seq<Session>): (r: Option<real>)
    ensures r.Some? ==> r.value > 0.0
    ensures r.Some? ==> exists k :: 0 <= k < |AllSeries(ss)| && Num(AllSeries(ss)[k].poids) == r.value
    ensures r.Some? ==> forall k :: 0 <= k < |AllSeries(ss)| ==> Num(AllSeries(ss)[k].poids) <= r.value
    ensures r.None? <==> forall k :: 0 <= k < |AllSeries(ss)| ==> Num(AllSeries(ss)[k].poids) <= 0.0
  {
    var m := MaxPoids(AllSeries(ss));
    if m > 0.0 then Some(m) else None
  }

  /** An exercise entry that carries a name. */
  predicate Named(o: Occ)
  {
    o.ex.nom != ""
  }

  /** The distinct non-empty exercise names of a list of exercise entries. */
  function NameSet(occs: seq<Occ>): set<string>
  {
    set o | o in occs && Named(o) :: o.ex.nom
  }

  lemma {:induction false} NameSetBound(occs: seq<Occ>)
    ensures |NameSet(occs)| <= |Keep(occs, Named)|
    ensures |NameSet(occs)| == 0 <==> |Keep(occs, Named)| == 0
  {
    if |occs| > 0 {
      NameSetBound(occs[1..]);
      NameSetCons(occs);
      if Named(occs[0]) {
        assert occs[0].ex.nom in NameSet(occs);
      }
    }
  }

  /** The names of a list of entries: the first entry's name, if it has one, and the names of the rest. */
  lemma NameSetCons(occs: seq<Occ>)
    requires |occs| > 0
    ensures NameSet(occs) == (if Named(occs[0]) then {occs[0].ex.nom} else {}) + NameSet(occs[1..])
  {
    var rest := occs[1..];
    var head := if Named(occs[0]) then {occs[0].ex.nom} else {};
    forall n | n in NameSet(occs)
      ensures n in head + NameSet(rest)
    {
      var o :| o in occs && Named(o) && o.ex.nom == n;
      if o != occs[0] {
        assert o in rest;
      }
    }
    forall n | n in head + NameSet(rest)
      ensures n in NameSet(occs)
    {
      if n !in head {
        var o :| o in rest && Named(o) && o.ex.nom == n;
        assert o in occs;
      }
    }
  }

  /**
   * `getUniqueExercises`: the number of distinct exercise names; never more than
   * the number of named exercise entries, and 0 exactly when there is none.
   */
  function UniqueExercises(ss: seq<Session>): (r: nat)
    ensures r <= |Keep(Occurrences(ss), Named)|
    ensures r == 0 <==> |Keep(Occurrences(ss), Named)| == 0
  {
    NameSetBound(Occurrences(ss));
    |NameSet(Occurrences(ss))|
  }

  /** Adding one exercise entry adds its name to the set of names, if it has one. */
  lemma NameSetSnoc(occs: seq<Occ>, o: Occ)
    ensures NameSet(occs + [o]) == NameSet(occs) + (if Named(o) then {o.ex.nom} else {})
  {
    var after := occs + [o];
    forall n | n in NameSet(after)
      ensures n in NameSet(occs) + (if Named(o) then {o.ex.nom} else {})
    {
      var x :| x in after && Named(x) && x.ex.nom == n;
      if x != o {
        assert x in occs;
      }
    }
    forall n | n in NameSet(occs)
      ensures n in NameSet(after)
    {
      var x :| x in occs && Named(x) && x.ex.nom == n;
      assert x in after;
    }
    assert o in after;
  }

  /**
   * The `Set` of names grows one entry at a time: a name already seen adds
   * nothing, a new non-empty name adds one, and a missing name adds nothing.
   */
  lemma NameCountSnoc(occs: seq<Occ>, o: Occ)
    ensures |NameSet(occs + [o])| == |NameSet(occs)|
      + (if Named(o) && forall k :: 0 <= k < |occs| ==> occs[k].ex.nom != o.ex.nom then 1 else 0)
  {
    NameSetSnoc(occs, o);
    if Named(o) {
      if forall k :: 0 <= k < |occs| ==> occs[k].ex.nom != o.ex.nom {
        forall x | x in occs
          ensures x.ex.nom != o.ex.nom
        {
          var k :| 0 <= k < |occs| && occs[k] == x;
        }
        assert o.ex.nom !in NameSet(occs);
      } else {
        var k :| 0 <= k < |occs| && occs[k].ex.nom == o.ex.nom;
        assert occs[k] in occs && Named(occs[k]);
        assert o.ex.nom in NameSet(occs);
        assert NameSet(occs) + {o.ex.nom} == NameSet(occs);
      }
    }
  }

  /** A name logged twice counts once: two squat entries and a bench entry make two exercises. */
  lemma UniqueExercisesRepeat(d: Moment)
    ensures var sq := Exercise("Squat", []);
      var s := Session("s1", d, "p1", "Legs", [sq, Exercise("Bench", []), sq]);
      && UniqueExercises([s]) == 2
      && |Keep(Occurrences([s]), Named)| == 3
  {
    var sq := Exercise("Squat", []);
    var bench := Exercise("Bench", []);
    var s := Session("s1", d, "p1", "Legs", [sq, bench, sq]);
    OneSessionOccurrences(s);
    assert OccurrencesIn(s) == [Occ(d, sq), Occ(d, bench), Occ(d, sq)];
    RepeatedName(Occ(d, sq), Occ(d, bench));
  }

  /** The entries of a one-session log are that session's entries. */
  lemma OneSessionOccurrences(s: Session)
    ensures Occurrences([s]) == OccurrencesIn(s)
  {
    var noSessions: seq<Session> := [];
    assert [s][..0] == noSessions;
  }

  /** Entries named a, b, a with a != b: three named entries, two names. */
  lemma RepeatedName(a: Occ, b: Occ)
    requires Named(a) && Named(b) && a.ex.nom != b.ex.nom
    ensures |NameSet([a, b, a])| == 2 && |Keep([a, b, a], Named)| == 3
  {
    RepeatedNameCount(a, b);
    assert [a, b, a][1..] == [b, a] && [b, a][1..] == [a] && [a][1..] == [];
  }

  /** The distinct-name half of `RepeatedName`, one entry at a time. */
  lemma RepeatedNameCount(a: Occ, b: Occ)
    requires Named(a) && Named(b) && a.ex.nom != b.ex.nom
    ensures |NameSet([a, b, a])| == 2
  {
    var none: seq<Occ> := [];
    assert NameSet(none) == {};
    NameCountSnoc(none, a);
    assert none + [a] == [a];
    NameCountSnoc([a], b);
    assert [a] + [b] == [a, b];
    assert |NameSet([a, b])| == 2;
    NameCountSnoc([a, b], a);
    assert [a, b] + [a] == [a, b, a];
    assert [a, b][0].ex.nom == a.ex.nom;
  }

  /** Appending a session never lowers the distinct exercise count. */
  lemma UniqueExercisesGrow(ss: seq<Session>, s: Session)
    ensures UniqueExercises(ss) <= UniqueExercises(ss + [s])
  {
    OccurrencesAppend(ss, s);
    var before := Occurrences(ss);
    var after := Occurrences(ss + [s]);
    assert NameSet(before) <= NameSet(after) by {
      forall n | n in NameSet(before)
        ensures n in NameSet(after)
      {
        var o :| o in before && Named(o) && o.ex.nom == n;
        assert o in after;
      }
    }
    var grown := NameSet(after) - NameSet(before);
    assert NameSet(after) == NameSet(before) + grown;
    assert NameSet(before) * grown == {};
  }

  /**
   * Saving a session dated `now` through the store (the write every statistic
   * reads back) adds one session, adds its volume and repetitions, adds one to
   * this month's count, and removes nothing.
   */
  lemma AddSessionUpdatesTotals(d: Data, s: Session, id: string, now: Moment)
    ensures var d' := AddSession(d, s, id, now).0;
      && TotalSessions(d'.sessions) == TotalSessions(d.sessions) + 1
      && TotalVolume(d'.sessions) == TotalVolume(d.sessions) + SessionVolume(s)
      && TotalReps(d'.sessions) == TotalReps(d.sessions) + SumOf(SeriesOf(s.exercices), RepsOf)
      && SessionsThisMonth(d'.sessions, now) == SessionsThisMonth(d.sessions, now) + 1
  {
    var r := AddSession(d, s, id, now);
    TotalVolumeAppend(d.sessions, r.1);
    assert (d.sessions + [r.1])[..|d.sessions|] == d.sessions;
  }

  /** Deleting by identifier removes exactly the sessions carrying it from the session count. */
  lemma DeleteSessionUpdatesTotals(d: Data, id: string)
    ensures TotalSessions(DeleteSession(d, id).sessions) == TotalSessions(d.sessions) - |Keep(d.sessions, (s: Session) => s.id == id)|
  {
  }

  /** The empty document has no sessions, volume, repetitions or exercises. */
  lemma DefaultDataTotals()
    ensures TotalSessions(GetDefaultData().sessions) == 0
    ensures TotalVolume(GetDefaultData().sessions) == 0.0
    ensures TotalReps(GetDefaultData().sessions) == 0.0
    ensures AverageVolume(GetDefaultData().sessions) == 0
    ensures UniqueExercises(GetDefaultData().sessions) == 0
    ensures MaxWeight(GetDefaultData().sessions) == None
  {
  }
}
